=== FILE: README.md ===
# HR workflow builder — Dafny model

The application turns a CSV export of an HR process hierarchy into workflow diagrams. Each CSV
row carries the ids, names and descriptions of one L2 → L3 → L4 → L5 chain. The user picks an L3
process. A builder lays out its subtree as a graph of nodes and edges. The user then edits the
diagram on a canvas split into several sheets (tabs), and can export it as slides.

This project models the logic behind that, as pure functions over immutable records:

- **CSV reading** (`Csv`): the quote-aware line parser, the joining of physical lines while a
  quote is open, and the building of one trimmed record per non-blank logical line.
- **Hierarchy extraction** (`Hierarchy`): the L2/L3/L4/L5 lists. Each is de-duplicated by id,
  keeps the first occurrence, and is sorted by a numeric-aware id order (`Collation`, `Sorting`).
- **Node creation** (`NodeFactory`): nodes made from items, with the module-level drop counter
  passed in and returned explicitly.
- **Subtree layout** (`FlowBuilder`): `buildFlowFromL3` with its grid positions, tree edges,
  L5 blocks under their L4 parents, and the re-centring of the L2/L3 ancestors.
- **Slide export geometry and sequencing**:
  - `ExportFit`: the uniform canvas-to-slide fit.
  - `Anchors`: the choice of connection ports for an arrow.
  - `TopoSort`: Kahn's sort that orders the process steps.
  - `Serpentine`: the four-column step grid.
- **Page state** (`Sheets`, `CanvasEdits`): selecting, adding, deleting, renaming and
  duplicating sheets; the per-edge direction toggle; node metadata edits; the L4 search box.
- **Chat workflow clean-up** (`Markers`): the edge defaults applied to a workflow returned by
  the assistant, and the edge a hand-drawn connection creates.

Shared vocabulary lives in `Common` (options, distinctness, filter/map), `Text` (trim,
split/join, case mapping, decimal digits) and `Graph`. `Graph` holds the node and edge records
and JavaScript truthiness of their optional fields.

Conventions:

- Fresh ids the page draws from `Date.now()`, and the edge id React Flow's `addEdge` generates,
  are parameters.
- Canvas and slide geometry uses `real`.
- Integer grid positions are computed as integers and then converted.

Three behaviours of the code the model follows:

- **Kahn's queue.** Only the initial zero-in-degree seed is sorted, by level label and then by
  height. Later-ready nodes join a first-in first-out queue. Each node's successors are released
  in ascending height only, not by level.
- **Anchor fallback.** The dominant-axis fallback also runs when the closest port pair is at
  distance zero, not only when no pair qualifies. A tie `|dy| = |dx|` chooses the vertical
  ports.
- **Zero range.** The fit replaces a zero coordinate range by 1 whenever the range is zero
  (`|| 1`), not only for a single node.

## Model

| member | source | states |
|---|---|---|
| `Csv.CountQuotesIsMultiplicity` | lib/csvToFlow.ts:376-380 | the quote count of a line is the number of `"` characters in it |
| `Csv.ParseLine` | lib/csvToFlow.ts:382-413 | a parsed line always has at least one field |
| `Csv.ParseLineWithoutQuotes` | lib/csvToFlow.ts:400-411 | a line without `"` parses to exactly its comma split |
| `Csv.ScanEscaped` | lib/csvToFlow.ts:389-399 | inside quotes, a doubled quote yields one quote, a comma is literal, and a single quote closes the field |
| `Csv.ScanField` | lib/csvToFlow.ts:387-411 | one field written as section 2 of RFC 4180 says (quoted when it holds a quote, comma or line break, with quotes doubled) is read back exactly |
| `Csv.ParseEncodedRecord` | lib/csvToFlow.ts:382-413 | a record of RFC 4180 fields joined by commas parses back to the same fields |
| `Csv.StripBom` | lib/csvToFlow.ts:345 | exactly one leading byte-order mark is removed, and nothing else changes |
| `Csv.GatherLine` | lib/csvToFlow.ts:357-361 | gathering a logical line consumes at least its own physical line and never runs past the end |
| `Csv.GatherLineShape` | lib/csvToFlow.ts:353-361 | a logical line is the line-break join of a run of physical lines; every shorter run has an odd quote count, and it stops on an even count or at the last line |
| `Csv.LogicalLinesJoin` | lib/csvToFlow.ts:353-361 | joining the logical lines gives back the physical text, so no line is lost or duplicated, and a quoted field spanning lines stays in one record |
| `Csv.BalancedLineStandsAlone` | lib/csvToFlow.ts:357 | a physical line with an even quote count is a logical line by itself |
| `Csv.Cells` | lib/csvToFlow.ts:367-369 | the cell under header `h` is the trimmed `h`-th value, or `""` when the line has fewer values |
| `Csv.MakeRow` | lib/csvToFlow.ts:366-369 | every value of a record is trimmed |
| `Csv.AssignKeys` | lib/csvToFlow.ts:367-369 | the record's keys are exactly the header names |
| `Csv.AssignEntry` | lib/csvToFlow.ts:367-369 | a header that is not repeated later maps to its own column's cell; with repeated headers the last column wins |
| `Csv.MakeRowEntry` | lib/csvToFlow.ts:365-369 | each header that is not repeated later maps to the trimmed value in its column, or `""` when the value is missing |
| `Csv.RecordsKeys` | lib/csvToFlow.ts:363-370 | every record has exactly one entry per header |
| `Csv.ParseCsv` | lib/csvToFlow.ts:343-374 | fewer than two lines give no records; every record has exactly the header names as keys and only trimmed values |
| `Csv.ParseCsvRows` | lib/csvToFlow.ts:353-371 | the records are, in order, one per non-blank logical line after the header; blank lines give none |
| `Csv.ParseCsvIgnoresBom` | lib/csvToFlow.ts:345 | a leading byte-order mark does not change the records |
| `Text.Trim` | lib/csvToFlow.ts:363-368 | the trimmed text is a middle slice with only white space cut off each end, and it is empty exactly when the text is all white space |
| `Text.JoinSplit` | lib/csvToFlow.ts:346 | splitting on line breaks and joining again gives back the text |
| `Text.SplitJoin` | lib/csvToFlow.ts:346 | splitting the join of separator-free parts gives back the parts |
| `Text.ToLower` | app/page.tsx:443-445 | lower-casing keeps every character in its place and maps A–Z to a–z, leaving every other character alone |
| `Text.ToUpper` | lib/csvToFlow.ts:146 | upper-casing keeps every character in its place and maps a–z to A–Z, leaving every other character alone |
| `Text.LowerIdempotent` | app/page.tsx:443-445 | lower-casing an already lower-cased term changes nothing |
| `Text.LowerOfUpper` | app/page.tsx:443-445 | a term typed in capitals lower-cases to the same term as when typed in small letters |
| `Collation.NumericLeTotalPreorder` | lib/csvToFlow.ts:55 | the numeric-aware id order is reflexive, total and transitive |
| `Collation.NumericExample` | lib/csvToFlow.ts:72 | digit runs compare by value: "9" sorts before "10" |
| `Collation.CodeUnitLeTotal` | components/ExportToolbar.tsx:367 | the level-label order used for the sort seed is total |
| `Collation.CodeUnitLeTransitive` | components/ExportToolbar.tsx:367 | the level-label order is transitive |
| `Collation.CodeUnitLeAntisymmetric` | components/ExportToolbar.tsx:367 | two labels that sort both ways are equal |
| `Sorting.Sort` | lib/csvToFlow.ts:89-91 | sorting keeps exactly the same items (a permutation) |
| `Sorting.SortSorted` | lib/csvToFlow.ts:89-91 | sorting with a total order gives an ordered list |
| `Sorting.SortKeepsDistinctBy` | lib/csvToFlow.ts:89-91 | sorting keeps the ids distinct |
| `Sorting.InsertStable` | components/ExportToolbar.tsx:363-377 | inserting an element moves it only past strictly smaller elements, so the elements it ties with keep their order |
| `Sorting.SortStable` | components/ExportToolbar.tsx:363-377 | the sort is stable: for a comparator transitive on the elements, the elements that tie with any one of them come out in their input order |
| `Hierarchy.Dedup` | lib/csvToFlow.ts:78-88 | the map keeps one item per id, that id's first occurrence, and every candidate id is represented |
| `Hierarchy.Extract` | lib/csvToFlow.ts:78-91 | the extracted list has distinct ids, first occurrences only, every candidate id, in numeric id order |
| `Hierarchy.CandidatesSound` | lib/csvToFlow.ts:79-80 | every candidate comes from a row that passes the level's filter |
| `Hierarchy.CandidatesComplete` | lib/csvToFlow.ts:79-80 | every row that passes the filter contributes a candidate |
| `Hierarchy.ExtractSound` | lib/csvToFlow.ts:77-92 | every extracted item is built from a matching row |
| `Hierarchy.ExtractComplete` | lib/csvToFlow.ts:77-92 | every matching row's id is present in the extracted list |
| `Hierarchy.ExtractL2List` | lib/csvToFlow.ts:48-56 | distinct L2 ids, first-row names, every row's L2 id present, sorted numerically |
| `Hierarchy.ExtractL3ByL2` | lib/csvToFlow.ts:59-74 | distinct L3 ids all under the given L2, first-row data, complete for that L2, sorted numerically |
| `Hierarchy.ExtractL4ByL3` | lib/csvToFlow.ts:77-92 | distinct non-empty L4 ids under the given L3, first-row data, complete, sorted numerically; rows with an empty L4 id are skipped |
| `Hierarchy.ExtractL5ByL4` | lib/csvToFlow.ts:95-110 | distinct non-empty L5 ids under the given L4, first-row data, complete, sorted numerically; rows with an empty L5 id are skipped |
| `NodeFactory.CreateNode` | lib/csvToFlow.ts:134-151 | the counter goes up by one; the id is `level-itemId-counter` with the new counter in decimal; the node has the level as type, the given position, the item's name and id, the upper-cased level, and `""` for a missing description |
| `NodeFactory.AfterLastAppend` | lib/csvToFlow.ts:141 | the text after the last `-` of `prefix-t` is `t` when `t` has no `-` |
| `NodeFactory.IdEndsWithCounter` | lib/csvToFlow.ts:139-141 | a node id ends with the new counter value in decimal, which reads back as that number |
| `NodeFactory.DifferentCountersDifferentIds` | lib/csvToFlow.ts:139-141 | calls with different counters give different ids, whatever the items |
| `NodeFactory.CreateAll` | lib/csvToFlow.ts:131-151 | successive calls thread the counter: the `i`-th node is made with counter `start + i`, and the counter ends `n` higher |
| `NodeFactory.CreateAllDistinctIds` | lib/csvToFlow.ts:131-151 | successive calls never return the same id |
| `Text.NatToStringRoundTrip` | lib/csvToFlow.ts:141 | the decimal digits written for a counter read back as that counter |
| `FlowBuilder.L4Column` | lib/csvToFlow.ts:243-271 | one L4 node per item, the `k`-th at column 2 and row `k`, each with an edge from the L3 node |
| `FlowBuilder.L5Block` | lib/csvToFlow.ts:287-321 | the L5 nodes of one group sit in column 3, 60 apart from the parent's height, each with an edge from the parent |
| `FlowBuilder.FindParent` | lib/csvToFlow.ts:283-285 | the parent lookup finds the L4 node placed for that id, and finds nothing for an id with no L4 node |
| `FlowBuilder.L5StepPlacement` | lib/csvToFlow.ts:282-322 | a group whose L4 node is absent is skipped; otherwise its de-duplicated L5 items are appended under that L4 node |
| `FlowBuilder.L5StepLayout` | lib/csvToFlow.ts:282-322 | a group step keeps the L2/L3/L4 layout and never changes a node already placed |
| `FlowBuilder.L5StepTree` | lib/csvToFlow.ts:306-319 | after a group step every node but the first still has exactly one incoming edge, from a node placed before it |
| `FlowBuilder.L5PhaseFacts` | lib/csvToFlow.ts:282-322 | the L5 loop keeps the layout and the tree shape, and only appends nodes |
| `FlowBuilder.BaseFlowFacts` | lib/csvToFlow.ts:203-271 | before the L5 loop the flow is one L2 node, one L3 node and the L4 column, each with one incoming edge from an earlier node |
| `FlowBuilder.CenterFacts` | lib/csvToFlow.ts:324-335 | centring moves only the L2 and L3 nodes, to 60 + 45(n−1) with n ≥ 1 L4 nodes, and leaves them at 60 otherwise |
| `FlowBuilder.CenterMid` | lib/csvToFlow.ts:325-329 | the first and last L4 nodes are found by id, and their midpoint is 60 + 45(n−1) |
| `FlowBuilder.TreeShapedEndpoints` | lib/csvToFlow.ts:220-319 | in a flow where each node after the first has one incoming edge from an earlier node, every edge joins two returned nodes |
| `FlowBuilder.CenterKeepsShape` | lib/csvToFlow.ts:324-337 | re-centring keeps the layout, the edges and their endpoints |
| `FlowBuilder.AssembleShape` | lib/csvToFlow.ts:198-337 | the assembled flow has the L2, L3 and L4 layout, L5 nodes only in column 3, 1 + #L4 + #L5 edges all between returned nodes, and centred ancestors |
| `FlowBuilder.BuildFlowShape` | lib/csvToFlow.ts:191-338 | for an L3 id with at least one row, the result is one L2 and one L3 node at x = 60 and 380, one L4 node per distinct non-empty L4 id at x = 700 and y = 60 + 90k in sorted order, edges only between returned nodes, 1 + #L4 + #L5 edges, and ancestors centred |
| `FlowBuilder.BuildFlowEmpty` | lib/csvToFlow.ts:198-199 | the result is empty exactly when no row has the L3 id |
| `FlowBuilder.L3RowsNonEmpty` | lib/csvToFlow.ts:198-199 | the L3 rows are non-empty exactly when some row has the L3 id |
| `ExportFit.SizeOf` | components/ExportToolbar.tsx:149-156 | every level's slide size, unknown levels read as L4, is positive and at most 2.3 × 0.6 |
| `ExportFit.MinOf` | components/ExportToolbar.tsx:213-217 | the minimum centre is one of the centres and below all of them |
| `ExportFit.MaxOf` | components/ExportToolbar.tsx:213-217 | the maximum centre is one of the centres and above all of them |
| `ExportFit.Range` | components/ExportToolbar.tsx:218-219 | the range is positive, the spread when that is positive, and 1 when the spread is zero |
| `ExportFit.Scale` | components/ExportToolbar.tsx:218-223 | one positive scale is used for both axes; both ranges (a zero spread counting as 1) fit their areas under it, and one of them fills its area exactly, which makes it `min(areaW / rangeX, areaH / rangeY)` |
| `ExportFit.ScaleIsTight` | components/ExportToolbar.tsx:218-223 | no larger scale fits: any scale under which both ranges (a zero spread counting as 1) fit is at most it; when both spreads are positive one axis fills its area exactly |
| `ExportFit.FitOfCenters` | components/ExportToolbar.tsx:209-223 | the fit's origin is the minimum centre, its scale is the `Scale` of the centres' spreads, and every centre's offset fits the area |
| `ExportFit.MinCornerMapsToOrigin` | components/ExportToolbar.tsx:224-227 | the minimum centre maps to (PAD_X + maxNW/2, PAD_TOP + maxNH/2) |
| `ExportFit.UniformScale` | components/ExportToolbar.tsx:224-227 | slide distances are canvas distances times the same scale on both axes |
| `ExportFit.ToPptMonotone` | components/ExportToolbar.tsx:224-227 | the mapping preserves order on each axis |
| `ExportFit.BoxesOnSlide` | components/ExportToolbar.tsx:220-237 | every node box lies within [0.5, 12.83] × [0.75, 6.6] on the slide |
| `Anchors.BestPair` | components/ExportToolbar.tsx:279-289 | the loop returns the first pair, in top, bottom, left, right order, of minimum distance among pairs whose sides differ |
| `Anchors.FirstMinUnique` | components/ExportToolbar.tsx:279-289 | the chosen pair is unique |
| `Anchors.Fallback` | components/ExportToolbar.tsx:291-300 | with \|dy\| ≥ \|dx\| it joins bottom to top or top to bottom by the sign of dy; otherwise right to left or left to right by the sign of dx |
| `Anchors.FallbackIsPortPair` | components/ExportToolbar.tsx:291-300 | the fallback's ends are ports of the two boxes on different sides |
| `Anchors.GetAnchorPoints` | components/ExportToolbar.tsx:260-303 | the anchor joins a source port and a target port on different sides: the closest first pair, or the fallback when that distance is zero |
| `Anchors.SideBySide` | components/ExportToolbar.tsx:260-302 | boxes (0,0,100,50) and (200,0,100,50) are joined from (100,25) to (200,25) |
| `TopoSort.SuccsCount` | components/ExportToolbar.tsx:357-358 | the successor list holds each target once per edge from the node |
| `TopoSort.RemainingStep` | components/ExportToolbar.tsx:378 | emitting a node lowers each successor's count by the number of edges from it |
| `TopoSort.RemainingZero` | components/ExportToolbar.tsx:378-379 | a node's count is zero exactly when every edge into it comes from an emitted node |
| `TopoSort.SeedOrderTotal` | components/ExportToolbar.tsx:363-369 | the seed order (level label, then height) is total |
| `TopoSort.YOrderTotal` | components/ExportToolbar.tsx:374-377 | the successor order (height) is total |
| `TopoSort.SeedFacts` | components/ExportToolbar.tsx:361-369 | the seed is exactly the zero-in-degree node ids, each once, ordered by level label then height |
| `TopoSort.SeedLeTransitive` | components/ExportToolbar.tsx:363-369 | between nodes on the canvas the seed order (level label, then height) is transitive |
| `TopoSort.SeedStable` | components/ExportToolbar.tsx:361-369 | seed ids with the same level label and height stay in canvas order |
| `TopoSort.Released` | components/ExportToolbar.tsx:374-377 | the successors are released once per edge, in ascending height |
| `TopoSort.ReleasedStable` | components/ExportToolbar.tsx:374-377 | successors at the same height are released in edge order |
| `TopoSort.ReleaseAllFacts` | components/ExportToolbar.tsx:374-380 | releasing a list of successors lowers each count by the number of times the id occurs in it; an id is queued exactly when its count was positive and it is released at least that many times, and it is queued at most once |
| `TopoSort.ReleaseOne` | components/ExportToolbar.tsx:378-379 | one release lowers the id's count by one and queues the id exactly when that count reaches zero, keeping the counts equal to what each id is still owed |
| `TopoSort.ReleaseTrace` | components/ExportToolbar.tsx:374-380 | releasing the first successor and then the rest ends in the same counts and queue as releasing them all |
| `TopoSort.ReleaseNext` | components/ExportToolbar.tsx:374-380 | one turn of the inner loop keeps the counts equal to what each id is owed and stays on the course of releasing all successors |
| `TopoSort.Release` | components/ExportToolbar.tsx:374-380 | the inner loop leaves the counts as releasing every successor in turn says, and appends exactly the newly ready ids to the queue, in the order their counts reached zero |
| `TopoSort.Missing` | components/ExportToolbar.tsx:382 | the nodes appended after the loop are exactly those not yet emitted |
| `TopoSort.Count` | components/ExportToolbar.tsx:354-360 | the successor lists and in-degrees count every edge, including edges from an unknown source |
| `TopoSort.CountEdge` | components/ExportToolbar.tsx:357-360 | one edge appends its target to its source's successors and adds one to its target's in-degree, and changes nothing else |
| `TopoSort.Step` | components/ExportToolbar.tsx:371-381 | one turn emits the queue's head, and the rest of the queue is followed by exactly the nodes its height-sorted successors made ready, in that order |
| `TopoSort.FifoKeepsQueue` | components/ExportToolbar.tsx:371-381 | first in, first out: the nodes already queued are emitted before any node queued later, in queue order |
| `TopoSort.FifoTurn` | components/ExportToolbar.tsx:371-381 | a turn of the loop emits the next node of the first-in first-out order |
| `TopoSort.StepRespects` | components/ExportToolbar.tsx:371-381 | the node a turn emits has every incoming edge from a node already emitted |
| `TopoSort.Drain` | components/ExportToolbar.tsx:370-381 | the loop emits distinct known nodes, starting with the seed, each after all its predecessors, in exactly the first-in first-out order; every node left out has an edge from a node never emitted |
| `TopoSort.AppendMissing` | components/ExportToolbar.tsx:382 | the unreached nodes are appended in canvas order |
| `TopoSort.OrderFacts` | components/ExportToolbar.tsx:382 | after the append every node id appears exactly once and nothing else appears |
| `TopoSort.Kahn` | components/ExportToolbar.tsx:353-382 | the order holds every node id exactly once; it starts with the sorted seed; the loop's part is exactly the first-in first-out order from the in-degrees and the seed; for an edge whose ends are both emitted by the loop, the source comes first; the rest follows in canvas order |
| `Serpentine.MaxSteps` | components/ExportToolbar.tsx:396 | at most 24 steps are drawn, and all of them when there are at most 24 |
| `Serpentine.CellInGrid` | components/ExportToolbar.tsx:403-406 | step `i` sits at row `i / 4` in a column in [0, 4) |
| `Serpentine.CellInjective` | components/ExportToolbar.tsx:403-406 | distinct steps get distinct cells |
| `Serpentine.SameRowAdjacent` | components/ExportToolbar.tsx:429-434 | consecutive steps in one row are in adjacent columns, rightwards on even rows and leftwards on odd rows |
| `Serpentine.RowChangeBelow` | components/ExportToolbar.tsx:429-434 | at a row change the next step is directly below, in the same column |
| `Serpentine.ArrowJoinsSteps` | components/ExportToolbar.tsx:427-455 | each connector spans exactly the gap between a step's box and the next, in the direction of travel |
| `Serpentine.Overflow` | components/ExportToolbar.tsx:457-459 | the overflow note counts the steps not drawn, and appears exactly when there are more than 24 |
| `Serpentine.NoteBelowGrid` | components/ExportToolbar.tsx:457-460 | the note sits at least a row gap below every drawn box |
| `Sheets.InitialValid` | app/page.tsx:74-79 | the starting state (one blank sheet, active, empty canvas) is well-formed: a non-empty tab list with unique ids whose active id is one of them |
| `Sheets.Select` | app/page.tsx:88-102 | selecting the active sheet changes nothing; otherwise the current canvas is stored under the old id, the new id's stored or empty canvas is loaded, the selection is cleared, and the tab list and the sheet counter stay as they were |
| `Sheets.SelectRoundTrip` | app/page.tsx:88-102 | selecting another sheet and then the first one again restores the first sheet's canvas |
| `Sheets.SelectValid` | app/page.tsx:88-102 | selecting an existing sheet keeps the tab list non-empty with unique ids and an existing active sheet |
| `Sheets.Add` | app/page.tsx:105-133 | the current canvas is saved and a sheet with the fresh id is appended and made active with an empty canvas; swimlane sheets get the four default lanes and blank sheets none |
| `Sheets.AddValid` | app/page.tsx:105-133 | adding a sheet with a fresh id keeps the state well-formed and keeps the old canvas stored |
| `Sheets.Without` | app/page.tsx:139 | the remaining tabs are exactly those with another id |
| `Sheets.Delete` | app/page.tsx:136-152 | with one sheet nothing happens; otherwise exactly that sheet and its stored canvas go, and if it was active the first remaining sheet is loaded; the selection and the sheet counter stay as they were |
| `Sheets.DeleteValid` | app/page.tsx:136-152 | in a well-formed state deletion never empties the list, removes exactly one tab when the id exists, and keeps the state well-formed |
| `Sheets.WithoutLength` | app/page.tsx:139 | filtering out an id drops exactly as many tabs as carry it |
| `Sheets.CountIdUnique` | app/page.tsx:139 | with unique ids an id is carried by at most one tab, and by one exactly when it is present |
| `Sheets.Rename` | app/page.tsx:155-160 | renaming changes only the names of tabs with that id, in place; order, other fields and other tabs are unchanged |
| `Sheets.RenameValid` | app/page.tsx:155-160 | renaming keeps the state well-formed |
| `Sheets.RenameBack` | app/page.tsx:155-160 | renaming a sheet and then back to its name restores the state |
| `Sheets.FindSheet` | app/page.tsx:167 | the lookup fails exactly when no tab has the id, and otherwise returns a tab with it |
| `Sheets.Duplicate` | app/page.tsx:163-185 | an unknown source only saves the current canvas; otherwise a copy of that tab named with " (복사)" and the fresh id is appended, gets the source's stored canvas, and becomes active, the sheet counter goes up by one, and the selection stays as it was |
| `Sheets.DuplicateValid` | app/page.tsx:163-185 | duplicating with a fresh id keeps the state well-formed |
| `CanvasEdits.ArrowColor` | app/page.tsx:334 | the arrow colour is the edge's stroke when it is a non-empty string, else `#d95578` |
| `CanvasEdits.Toggle` | app/page.tsx:332-346 | the start marker's presence flips, `data.bidirectional` records the new state, other data keys are kept, and nothing else about the edge changes |
| `CanvasEdits.ToggleEdge` | app/page.tsx:330-348 | only edges with the clicked id change |
| `CanvasEdits.ToggleTwice` | app/page.tsx:332-346 | a one-way edge toggled twice is one-way again and otherwise unchanged, except that its data now records it as one-way |
| `CanvasEdits.ToggleTwiceTwoWay` | app/page.tsx:332-346 | a two-way edge toggled twice is two-way again, with a closed arrow in its colour |
| `CanvasEdits.ToggleEdgeTwice` | app/page.tsx:327-351 | toggling the same id twice restores a one-way edge already marked one-way, and never touches other edges |
| `CanvasEdits.MetaEntries` | components/NodeDetailPanel.tsx:21-27 | the saved metadata holds exactly the fields that were given |
| `CanvasEdits.ApplyMeta` | app/page.tsx:367-373 | given fields overwrite, every other data key is kept, and nothing else about the node changes |
| `CanvasEdits.UpdateNodeMeta` | app/page.tsx:362-379 | only nodes with the given id change |
| `CanvasEdits.UpdateNodeMetaIdempotent` | app/page.tsx:362-379 | saving the same metadata twice is the same as saving it once |
| `CanvasEdits.GetNodeMeta` | components/NodeDetailPanel.tsx:35-44 | every field is read, as the node's string value or `""` |
| `CanvasEdits.MetaRoundTrip` | components/NodeDetailPanel.tsx:35-44 | the panel reads back exactly the fields saved, and saving what it reads changes nothing |
| `CanvasEdits.FilterL4` | app/page.tsx:441-447 | a blank term returns the list unchanged; otherwise the result is the order-preserving sublist of items whose lower-cased name contains the lower-cased term or whose id contains it |
| `CanvasEdits.NarrowingSearch` | app/page.tsx:441-447 | every task found for a term is also found for any non-blank part of it |
| `Markers.DefaultMarker` | components/ChatPanel.tsx:12-17 | a defaulted end marker is a 20×20 closed arrow in the edge's own stroke colour, or `#d95578` |
| `Markers.Complete` | components/ChatPanel.tsx:8-18 | existing truthy type, style and end marker are kept, missing ones are defaulted, and every other field is unchanged |
| `Markers.CompleteStyles` | components/ChatPanel.tsx:9-17 | a completed edge has a type, a style and an end marker, and completion leaves an edge alone exactly when it already has all three |
| `Markers.EnsureArrowMarkers` | components/ChatPanel.tsx:7-19 | the output has the same length and order, each edge completed |
| `Markers.EnsureArrowMarkersFacts` | components/ChatPanel.tsx:7-19 | every output edge is complete, applying it twice equals applying it once, and a complete list comes back unchanged |
| `Markers.Connect` | app/page.tsx:303-324 | a drawn connection joins the given ends, animated, with no start marker |
| `Markers.ConnectIsComplete` | app/page.tsx:303-324 | a drawn connection already has the defaults, so completing it changes nothing |

## Left out

- Network and model I/O are not modelled: the assistant request in `app/api/generate/route.ts`
  and the `fetch` in the chat panel. An applied workflow is just a new list of nodes and edges.
- The export sinks are not modelled: slide shapes, tables and text styling, PNG/SVG capture,
  the JSON file save and the JSON load handler. Only the geometry and ordering that feed them
  are.
- The arrow-drawing loop of the diagram slide and its colour table are not modelled. Neither
  are the edge table slide, the legends and the title slide.
- `extractL3List` is not modelled: the page never calls it. `summarizeL3ForAI` is not modelled
  either: it only builds the text that prefills the chat prompt and feeds no diagram.
- `handleViewFullTree`, `handleClearCanvas`, `handleApplyWorkflow` and `handleSelectL3` are not
  modelled. They only assign a built flow or an extracted list to page state.
- React mechanics are not modelled: hooks, refs, stale closures, `setTimeout`/`fitView`, and the
  UI-only components (tab bar menus, node renderers, the swimlane overlay).
- `Math.random` x-jitter and the `Date.now()` sheet ids are nondeterministic. The ids are
  parameters; the random position of a clicked node is a parameter of `CreateNode`.
- `Markers.Connect`: React Flow's `addEdge` is not part of this model. The edge id it generates
  is a parameter, and its duplicate-connection check is not modelled.
- IEEE floating point, `NaN` and `Infinity` are not modelled. Geometry is exact `real`.
  `Math.hypot` is replaced by the squared distance, which picks the same pair.
- `Anchors.GetAnchorPoints`: the `bestDist === Infinity` branch is unreachable with 12
  qualifying pairs and is not modelled separately. The pairs are visited through one flat
  index 0..15 instead of two nested loops, in the same order.
- `Collation.NumericLe` stands in for `localeCompare(..., { numeric: true })`. It compares digit
  runs by value and other characters by a simple class and code order, not by the Unicode
  collation algorithm. The level compare of the topological seed uses plain code-unit order.
- `TopoSort.Kahn` requires distinct node ids. With repeated ids the in-degree table of the
  source merges them.
- `TopoSort.Kahn` lists ids in canvas order. `Object.entries` would list integer-like ids first,
  in numeric order, and that ordering is not modelled.
- `TopoSort.Kahn` takes edges to unknown targets as never counted. The source reads
  `undefined`, and `NaN` never equals 0.
- Serpentine: a sorted id with no node is not skipped (the `continue` in the step loop),
  because every id of the order is a node id.
- `Sheets.Delete` requires that deleting the active sheet leaves at least one other tab. The
  source would read `remaining[0].id` of an empty list and throw. That needs every tab to carry
  the deleted id, which a well-formed state excludes.
- `Hierarchy.RowOf`: a row missing a column reads it as `""` (JavaScript would give
  `undefined`). Values that are not strings are not modelled.
- `ExportFit.LevelOf`: a level that is not a string is read as "L4". JavaScript would use a
  truthy non-string as the key, find no size and also fall back to L4.
- `CanvasEdits.FilterL4`: case mapping is ASCII-only. `Text.ToLower` changes only A–Z, while
  JavaScript's `toLowerCase` maps all of Unicode, so a name such as "Über" is not found by the
  term "über" here.
- `CanvasEdits.NarrowingSearch` holds for the ASCII case mapping only. Under JavaScript's full
  mapping the context-dependent final sigma breaks it (name "ΑΣ", term "ΑΣ", part "Σ").
- `Text.ToLower` and `Text.ToUpper` map ASCII letters only. The level labels "l2" to "l5" are
  ASCII, so upper-casing them is exact.
- `CanvasEdits.GetNodeMeta`: a truthy value that is not a string, such as `true`, is read as
  `""`. JavaScript would return the value itself.
- `CanvasEdits.ApplyMeta`: an absent field leaves the node's value alone. A field set
  explicitly to `undefined` in the source would overwrite it with `undefined`.
- The tab bar's trim-and-non-empty guard on new sheet names is not modelled. `Sheets.Rename`
  accepts any name, as the page handler does.

=== FILE: anchors.dfy ===
/** `getAnchorPoints` in the PowerPoint export: where an arrow between two node boxes starts and
    ends. Each box offers four ports, the midpoints of its top, bottom, left and right sides; the
    arrow joins the closest source/target port pair whose sides differ, and falls back to the
    dominant axis between the centres when that closest distance is zero. Distances are compared
    squared, which picks the same pair as `Math.hypot`. */
module Anchors {
  import opened ExportFit

  datatype Dir = Top | Bottom | Left | Right

  datatype Point = Point(x: real, y: real)

  datatype Port = Port(at: Point, dir: Dir)

  /** The arrow's start on the source box and end on the target box. */
  datatype Anchor = Anchor(start: Point, end: Point)

  function Cx(b: Box): real { b.x + b.w / 2.0 }
  function Cy(b: Box): real { b.y + b.h / 2.0 }

  function Abs(a: real): real { if a < 0.0 then -a else a }

  /** The four side midpoints, in the order the search visits them. */
  function Ports(b: Box): seq<Port> {
    [Port(Point(Cx(b), b.y), Top), Port(Point(Cx(b), b.y + b.h), Bottom),
     Port(Point(b.x, Cy(b)), Left), Port(Point(b.x + b.w, Cy(b)), Right)]
  }

  /** Pair `k` of the nested search: source port `k / 4` with target port `k % 4`. */
  function PairAnchor(src: Box, tgt: Box, k: int): Anchor
    requires 0 <= k < 16
  {
    Anchor(Ports(src)[k / 4].at, Ports(tgt)[k % 4].at)
  }

  /** The search skips pairs whose two ports face the same way. */
  predicate Allowed(src: Box, tgt: Box, k: int)
    requires 0 <= k < 16
  {
    Ports(src)[k / 4].dir != Ports(tgt)[k % 4].dir
  }

  function Sq(a: real): real { a * a }

  /** Squared length of pair `k`. */
  function Dist2(src: Box, tgt: Box, k: int): real
    requires 0 <= k < 16
  {
    var a := PairAnchor(src, tgt, k);
    Sq(a.end.x - a.start.x) + Sq(a.end.y - a.start.y)
  }

  /** Pair `k` is allowed, no allowed pair is shorter, and every earlier allowed pair is longer:
      the pair that the strict `d < bestDist` update keeps. */
  predicate FirstMin(src: Box, tgt: Box, k: int) {
    && 0 <= k < 16 && Allowed(src, tgt, k)
    && (forall m :: 0 <= m < 16 && Allowed(src, tgt, m) ==> Dist2(src, tgt, k) <= Dist2(src, tgt, m))
    && (forall m :: 0 <= m < k && Allowed(src, tgt, m) ==> Dist2(src, tgt, k) < Dist2(src, tgt, m))
  }

  /** The anchor joins a source port and a target port facing different ways. */
  predicate IsPortPair(src: Box, tgt: Box, a: Anchor) {
    exists k :: 0 <= k < 16 && Allowed(src, tgt, k) && a == PairAnchor(src, tgt, k)
  }

  /** After visiting the first `n` of the pairs, whose lengths are `ds` and which are allowed
      where `al` holds: `found` says whether any was allowed, and if so `k` is the first shortest
      allowed pair among them and `best` its length. */
  predicate BestSoFar(ds: seq<real>, al: seq<bool>, n: int, found: bool, k: int, best: real)
    requires |ds| == |al| == 16
  {
    && 0 <= n <= 16
    && (found <==> exists m :: 0 <= m < n && al[m])
    && (found ==> 0 <= k < n && al[k] && best == ds[k])
    && (found ==> forall m :: 0 <= m < n && al[m] ==> best <= ds[m])
    && (found ==> forall m :: 0 <= m < k && al[m] ==> best < ds[m])
  }

  /** The search over the 16 pairs; `found` stands for `bestDist` still being `Infinity`. */
  method BestPair(src: Box, tgt: Box) returns (k: int, best: real)
    ensures FirstMin(src, tgt, k) && best == Dist2(src, tgt, k)
  {
    ghost var ds := seq(16, m requires 0 <= m < 16 => Dist2(src, tgt, m));
    ghost var al := seq(16, m requires 0 <= m < 16 => Allowed(src, tgt, m));
    var found := false;
    k, best := 0, 0.0;
    var n := 0;
    while n < 16
      invariant BestSoFar(ds, al, n, found, k, best)
    {
      found, k, best := Visit(ds, al, n, found, k, best, Allowed(src, tgt, n), Dist2(src, tgt, n));
      n := n + 1;
    }
    BestIsFirstMin(src, tgt, ds, al, found, k, best);
  }

  /** The search's result over all 16 pairs is the first shortest allowed pair. */
  lemma BestIsFirstMin(src: Box, tgt: Box, ds: seq<real>, al: seq<bool>, found: bool, k: int, best: real)
    requires |ds| == |al| == 16
    requires forall m :: 0 <= m < 16 ==> ds[m] == Dist2(src, tgt, m) && al[m] == Allowed(src, tgt, m)
    requires BestSoFar(ds, al, 16, found, k, best)
    ensures FirstMin(src, tgt, k) && best == Dist2(src, tgt, k)
  {
    assert al[1];
    forall m | 0 <= m < 16 && Allowed(src, tgt, m) ensures best <= Dist2(src, tgt, m) {
      assert al[m];
    }
    forall m | 0 <= m < k && Allowed(src, tgt, m) ensures best < Dist2(src, tgt, m) {
      assert al[m];
    }
  }

  /** One pair of the search: an allowed pair strictly shorter than the best so far, or the first
      allowed pair, becomes the best. */
  method Visit(ghost ds: seq<real>, ghost al: seq<bool>, n: int, found0: bool, k0: int, best0: real, allowed: bool, d: real)
    returns (found: bool, k: int, best: real)
    requires |ds| == |al| == 16 && 0 <= n < 16 && allowed == al[n] && d == ds[n]
    requires BestSoFar(ds, al, n, found0, k0, best0)
    ensures BestSoFar(ds, al, n + 1, found, k, best)
  {
    found, k, best := found0, k0, best0;
    if allowed && (!found || d < best) {
      found, k, best := true, n, d;
    }
  }

  /** The dominant-axis fallback: the vertical ports when |dy| >= |dx|, chosen by the sign of
      dy, else the horizontal ports chosen by the sign of dx. */
  function Fallback(src: Box, tgt: Box): (a: Anchor)
    ensures var dx, dy := Cx(tgt) - Cx(src), Cy(tgt) - Cy(src);
      if Abs(dy) >= Abs(dx) then
        a == (if dy > 0.0 then PairAnchor(src, tgt, 4) else PairAnchor(src, tgt, 1))
      else
        a == (if dx > 0.0 then PairAnchor(src, tgt, 14) else PairAnchor(src, tgt, 11))
  {
    var dx, dy := Cx(tgt) - Cx(src), Cy(tgt) - Cy(src);
    if Abs(dy) >= Abs(dx) then
      if dy > 0.0 then Anchor(Point(Cx(src), src.y + src.h), Point(Cx(tgt), tgt.y))
      else Anchor(Point(Cx(src), src.y), Point(Cx(tgt), tgt.y + tgt.h))
    else if dx > 0.0 then Anchor(Point(src.x + src.w, Cy(src)), Point(tgt.x, Cy(tgt)))
    else Anchor(Point(src.x, Cy(src)), Point(tgt.x + tgt.w, Cy(tgt)))
  }

  /** The fallback also joins two ports facing different ways (in fact opposite ways). */
  lemma FallbackIsPortPair(src: Box, tgt: Box)
    ensures IsPortPair(src, tgt, Fallback(src, tgt))
  {
    var dx, dy := Cx(tgt) - Cx(src), Cy(tgt) - Cy(src);
    var k := if Abs(dy) >= Abs(dx) then (if dy > 0.0 then 4 else 1) else (if dx > 0.0 then 14 else 11);
    assert Allowed(src, tgt, k) && Fallback(src, tgt) == PairAnchor(src, tgt, k);
  }

  /** `getAnchorPoints`: the first shortest allowed pair, unless its length is zero, in which
      case the fallback. Either way the arrow joins two ports facing different ways. */
  method GetAnchorPoints(src: Box, tgt: Box) returns (a: Anchor)
    ensures IsPortPair(src, tgt, a)
    ensures exists k :: FirstMin(src, tgt, k)
    ensures forall k :: FirstMin(src, tgt, k) && Dist2(src, tgt, k) != 0.0 ==> a == PairAnchor(src, tgt, k)
    ensures forall k :: FirstMin(src, tgt, k) && Dist2(src, tgt, k) == 0.0 ==> a == Fallback(src, tgt)
  {
    var k, best := BestPair(src, tgt);
    forall m | FirstMin(src, tgt, m) ensures m == k {
      FirstMinUnique(src, tgt, m, k);
    }
    if best == 0.0 {
      FallbackIsPortPair(src, tgt);
      a := Fallback(src, tgt);
    } else {
      a := PairAnchor(src, tgt, k);
    }
  }

  /** Ties go to the first pair in search order, so the chosen pair is unique. */
  lemma FirstMinUnique(src: Box, tgt: Box, k1: int, k2: int)
    requires FirstMin(src, tgt, k1) && FirstMin(src, tgt, k2)
    ensures k1 == k2
  {
  }

  /** Two 100 x 50 boxes side by side, 100 apart. */
  const SideSrc: Box := Box(0.0, 0.0, 100.0, 50.0)
  const SideTgt: Box := Box(200.0, 0.0, 100.0, 50.0)

  /** For the boxes side by side, the arrow runs from the source's right midpoint (100, 25) to
      the target's left midpoint (200, 25). */
  lemma SideBySide()
    ensures FirstMin(SideSrc, SideTgt, 14) && Dist2(SideSrc, SideTgt, 14) != 0.0
    ensures PairAnchor(SideSrc, SideTgt, 14) == Anchor(Point(100.0, 25.0), Point(200.0, 25.0))
  {
    SidePorts();
    forall m | 0 <= m < 16 && Allowed(SideSrc, SideTgt, m)
      ensures 10000.0 <= Dist2(SideSrc, SideTgt, m) && (m < 14 ==> 10000.0 < Dist2(SideSrc, SideTgt, m))
    {
      SideLength(m);
    }
  }

  lemma SidePorts()
    ensures Ports(SideSrc) == [Port(Point(50.0, 0.0), Top), Port(Point(50.0, 50.0), Bottom),
                               Port(Point(0.0, 25.0), Left), Port(Point(100.0, 25.0), Right)]
    ensures Ports(SideTgt) == [Port(Point(250.0, 0.0), Top), Port(Point(250.0, 50.0), Bottom),
                               Port(Point(200.0, 25.0), Left), Port(Point(300.0, 25.0), Right)]
  {
  }

  /** Every allowed pair is at least 100 long, and the pairs before the right-to-left one are
      longer. */
  lemma SideLength(m: int)
    requires 0 <= m < 16 && Allowed(SideSrc, SideTgt, m)
    ensures 10000.0 <= Dist2(SideSrc, SideTgt, m) && (m < 14 ==> 10000.0 < Dist2(SideSrc, SideTgt, m))
  {
    SidePorts();
    var a := PairAnchor(SideSrc, SideTgt, m);
    var dx := a.end.x - a.start.x;
    assert dx >= 100.0 && (m < 14 ==> dx > 100.0 || a.end.y != a.start.y);
    SqGrows(dx, 100.0);
    SqPositive(a.end.y - a.start.y);
  }

  lemma SqGrows(a: real, b: real)
    requires a >= b >= 0.0
    ensures a * a >= b * b && (a > b ==> a * a > b * b)
  {
    var d := a - b;
    assert a * a == b * b + d * (a + b);
    if a > b { assert d * (a + b) > 0.0; }
  }

  lemma SqPositive(a: real)
    ensures a * a >= 0.0 && (a != 0.0 ==> a * a > 0.0)
  {
  }
}

=== FILE: canvasedits.dfy ===
/** Edits the builder page makes to the canvas in response to the user: right-clicking an edge
    toggles it between one-way and two-way, saving the detail panel merges metadata into a node's
    data record, and the search box narrows the list of L4 tasks. */
module CanvasEdits {
  import opened Common
  import opened Text
  import opened Graph
  import opened Hierarchy

  const DefaultColor: string := "#d95578"

  /** The key under which an edge records its direction. */
  const BidirectionalKey: string := "bidirectional"

  /* ───── Edge direction toggle ───── */

  /** The arrowhead colour: the edge's stroke when it is a non-empty string, else the default. */
  function ArrowColor(e: Edge): (c: string)
    ensures c != ""
    ensures StrTruthy(StrokeOf(e)) ==> c == StrokeOf(e).value
  {
    if StrTruthy(StrokeOf(e)) then StrokeOf(e).value else DefaultColor
  }

  /** One edge after a right-click: a truthy start marker is removed and the edge marked one-way;
      otherwise a closed arrow in the edge's colour is added at the start and the edge marked
      two-way. Other data keys are kept. */
  function Toggle(e: Edge): (r: Edge)
    ensures MarkerTruthy(r.markerStart) <==> !MarkerTruthy(e.markerStart)
    ensures r.data.Some? && BidirectionalKey in r.data.value
    ensures r.data.value[BidirectionalKey] == Flag(MarkerTruthy(r.markerStart))
    ensures forall k :: k != BidirectionalKey ==>
              (k in r.data.value <==> e.data.Some? && k in e.data.value)
    ensures forall k :: k != BidirectionalKey && k in r.data.value ==> r.data.value[k] == e.data.value[k]
    ensures r.(markerStart := e.markerStart, data := e.data) == e
  {
    var d := e.data.GetOr(map[]);
    if MarkerTruthy(e.markerStart) then
      e.(markerStart := None, data := Some(d[BidirectionalKey := Flag(false)]))
    else
      e.(markerStart := Some(ArrowClosed(20, 20, ArrowColor(e))), data := Some(d[BidirectionalKey := Flag(true)]))
  }

  /** `onEdgeContextMenu`: every edge carrying the clicked id is toggled; the others are kept. */
  function ToggleEdge(edges: seq<Edge>, id: string): (r: seq<Edge>)
    ensures |r| == |edges|
    ensures forall j :: 0 <= j < |r| ==> r[j] == if edges[j].id == id then Toggle(edges[j]) else edges[j]
  {
    Map(edges, (e: Edge) => if e.id == id then Toggle(e) else e)
  }

  /** A one-way edge toggled twice is back where it started, except that its data now records it
      as one-way; when the data already said so, nothing changes at all. */
  lemma ToggleTwice(e: Edge)
    requires e.markerStart.None?
    ensures Toggle(Toggle(e)) == e.(data := Some(e.data.GetOr(map[])[BidirectionalKey := Flag(false)]))
    ensures e.data.Some? && BidirectionalKey in e.data.value && e.data.value[BidirectionalKey] == Flag(false)
            ==> Toggle(Toggle(e)) == e
  {
    var d := e.data.GetOr(map[]);
    var once := Toggle(e);
    assert once.data == Some(d[BidirectionalKey := Flag(true)]);
    assert d[BidirectionalKey := Flag(true)][BidirectionalKey := Flag(false)] == d[BidirectionalKey := Flag(false)];
    if e.data.Some? && BidirectionalKey in e.data.value && e.data.value[BidirectionalKey] == Flag(false) {
      assert d[BidirectionalKey := Flag(false)] == d;
    }
  }

  /** A two-way edge toggled twice is two-way again, now with a closed arrow in its colour. */
  lemma ToggleTwiceTwoWay(e: Edge)
    requires MarkerTruthy(e.markerStart)
    ensures Toggle(Toggle(e)).markerStart == Some(ArrowClosed(20, 20, ArrowColor(e)))
    ensures Toggle(Toggle(e)).data.value[BidirectionalKey] == Flag(true)
  {
    assert StrokeOf(Toggle(e)) == StrokeOf(e);
  }

  /** Toggling the same edge twice touches no other edge, and restores every one-way edge whose
      data already marks it one-way. */
  lemma ToggleEdgeTwice(edges: seq<Edge>, id: string, j: int)
    requires 0 <= j < |edges|
    requires edges[j].markerStart.None?
    requires edges[j].data.Some? && BidirectionalKey in edges[j].data.value
    requires edges[j].data.value[BidirectionalKey] == Flag(false)
    ensures ToggleEdge(ToggleEdge(edges, id), id)[j] == edges[j]
  {
    if edges[j].id == id {
      ToggleTwice(edges[j]);
    }
  }

  /* ───── Node metadata ───── */

  /** The detail panel's fields; an absent field leaves the node's value alone. */
  datatype NodeMeta = NodeMeta(
    memo: Option<string>, role: Option<string>, inputData: Option<string>,
    outputData: Option<string>, system: Option<string>)

  const MetaKeys: seq<string> := ["memo", "role", "inputData", "outputData", "system"]

  /** The fields of `meta` as data entries. */
  function Field(meta: NodeMeta, key: string): Option<string> {
    if key == "memo" then meta.memo
    else if key == "role" then meta.role
    else if key == "inputData" then meta.inputData
    else if key == "outputData" then meta.outputData
    else if key == "system" then meta.system
    else None
  }

  function MetaEntries(meta: NodeMeta): (m: Data)
    ensures forall k :: k in m <==> Field(meta, k).Some?
    ensures forall k :: k in m ==> m[k] == Str(Field(meta, k).value)
  {
    map k | k in MetaKeys && Field(meta, k).Some? :: Str(Field(meta, k).value)
  }

  /** `{ ...n.data, ...meta }`: the fields present in `meta` overwrite, every other key stays. */
  function ApplyMeta(n: Node, meta: NodeMeta): (r: Node)
    ensures r.(data := n.data) == n
    ensures forall k :: k in r.data <==> k in n.data || Field(meta, k).Some?
    ensures forall k :: Field(meta, k).Some? ==> r.data[k] == Str(Field(meta, k).value)
    ensures forall k :: Field(meta, k).None? && k in n.data ==> r.data[k] == n.data[k]
  {
    n.(data := n.data + MetaEntries(meta))
  }

  /** `updateNodeMeta`: every node carrying the id gets the metadata; the others are kept. */
  function UpdateNodeMeta(nodes: seq<Node>, id: string, meta: NodeMeta): (r: seq<Node>)
    ensures |r| == |nodes|
    ensures forall j :: 0 <= j < |r| ==> r[j] == if nodes[j].id == id then ApplyMeta(nodes[j], meta) else nodes[j]
  {
    Map(nodes, (n: Node) => if n.id == id then ApplyMeta(n, meta) else n)
  }

  /** Saving the same metadata twice is the same as saving it once. */
  lemma UpdateNodeMetaIdempotent(nodes: seq<Node>, id: string, meta: NodeMeta)
    ensures UpdateNodeMeta(UpdateNodeMeta(nodes, id, meta), id, meta) == UpdateNodeMeta(nodes, id, meta)
  {
    var once := UpdateNodeMeta(nodes, id, meta);
    var twice := UpdateNodeMeta(once, id, meta);
    forall j | 0 <= j < |nodes| ensures twice[j] == once[j] {
      if nodes[j].id == id {
        ApplyMetaTwice(nodes[j], meta);
      }
    }
  }

  lemma ApplyMetaTwice(n: Node, meta: NodeMeta)
    ensures ApplyMeta(ApplyMeta(n, meta), meta) == ApplyMeta(n, meta)
  {
    assert ApplyMeta(ApplyMeta(n, meta), meta).data == ApplyMeta(n, meta).data;
  }

  /** One field as the panel reads it: a string value, or "" when absent or not a string. */
  function ReadField(d: Data, key: string): string {
    if key in d && d[key].Str? then d[key].s else ""
  }

  /** `getNodeMeta`: the panel's initial fields, every one present. */
  function GetNodeMeta(n: Node): (m: NodeMeta)
    ensures forall k :: k in MetaKeys ==> Field(m, k) == Some(ReadField(n.data, k))
  {
    NodeMeta(Some(ReadField(n.data, "memo")), Some(ReadField(n.data, "role")),
             Some(ReadField(n.data, "inputData")), Some(ReadField(n.data, "outputData")),
             Some(ReadField(n.data, "system")))
  }

  /** Every field given. */
  predicate Full(meta: NodeMeta) {
    meta.memo.Some? && meta.role.Some? && meta.inputData.Some? && meta.outputData.Some? && meta.system.Some?
  }

  /** The panel reads back exactly what was saved, and saving what it reads back changes nothing. */
  lemma MetaRoundTrip(n: Node, meta: NodeMeta)
    requires Full(meta)
    ensures GetNodeMeta(ApplyMeta(n, meta)) == meta
    ensures ApplyMeta(ApplyMeta(n, meta), GetNodeMeta(ApplyMeta(n, meta))) == ApplyMeta(n, meta)
  {
    ReadApplied(n, meta, "memo");
    ReadApplied(n, meta, "role");
    ReadApplied(n, meta, "inputData");
    ReadApplied(n, meta, "outputData");
    ReadApplied(n, meta, "system");
    ApplyMetaTwice(n, meta);
  }

  /** A field that was saved reads back as saved. */
  lemma ReadApplied(n: Node, meta: NodeMeta, key: string)
    requires Field(meta, key).Some?
    ensures ReadField(ApplyMeta(n, meta).data, key) == Field(meta, key).value
  {
  }

  /* ───── L4 search ───── */

  /** An L4 task matches the lower-cased term by its lower-cased name or by its id as written. */
  predicate SearchHit(t: string, item: L4Item) {
    Contains(ToLower(item.name), t) || Contains(item.id, t)
  }

  /** `filteredL4`: the whole list for a blank term, else the hits in list order. */
  function FilterL4(items: seq<L4Item>, term: string): (r: seq<L4Item>)
    ensures Trim(term) == "" ==> r == items
    ensures Trim(term) != "" ==> forall it :: it in r <==> it in items && SearchHit(ToLower(term), it)
    ensures SubsequenceOf(r, items)
  {
    if Trim(term) == "" then SubsequenceRefl(items); items
    else Filter(items, (it: L4Item) => SearchHit(ToLower(term), it))
  }

  lemma {:induction false} SubsequenceRefl<T>(s: seq<T>)
    ensures SubsequenceOf(s, s)
    decreases |s|
  {
    if |s| > 0 {
      SubsequenceRefl(s[1..]);
    }
  }

  /** Typing more narrows the results: every task found for a term is also found for any
      non-blank part of it. */
  lemma NarrowingSearch(items: seq<L4Item>, short: string, long: string)
    requires Contains(long, short) && Trim(short) != ""
    ensures forall it :: it in FilterL4(items, long) ==> it in FilterL4(items, short)
  {
    assert Trim(long) != "";
    LowerContains(long, short);
    forall it | it in FilterL4(items, long) ensures it in FilterL4(items, short) {
      if Contains(ToLower(it.name), ToLower(long)) {
        ContainsTransitive(ToLower(it.name), ToLower(long), ToLower(short));
      } else {
        ContainsTransitive(it.id, ToLower(long), ToLower(short));
      }
    }
  }

  /** Lower-casing keeps infixes. */
  lemma LowerContains(s: string, t: string)
    requires Contains(s, t)
    ensures Contains(ToLower(s), ToLower(t))
  {
    var i :| 0 <= i <= |s| - |t| && OccursAt(s, t, i);
    assert ToLower(s)[i..i + |t|] == ToLower(t);
    assert OccursAt(ToLower(s), ToLower(t), i);
  }

  /** An infix of an infix is an infix. */
  lemma ContainsTransitive(a: string, b: string, c: string)
    requires Contains(a, b) && Contains(b, c)
    ensures Contains(a, c)
  {
    var i :| 0 <= i <= |a| - |b| && OccursAt(a, b, i);
    var j :| 0 <= j <= |b| - |c| && OccursAt(b, c, j);
    assert forall k :: 0 <= k < |c| ==> a[i + j + k] == b[j + k] == c[k];
    assert a[i + j..i + j + |c|] == c;
    assert OccursAt(a, c, i + j);
  }
}

=== FILE: collation.dfy ===
/** A digit-run collation standing in for `a.localeCompare(b, undefined, { numeric: true })`,
    and the plain code-unit order standing in for the default `a.localeCompare(b)`.

    The numeric comparison cuts a string into tokens: each maximal run of decimal digits is one
    token compared by its numeric value, every other character is a token of its own. Tokens
    compare first by class (punctuation and spaces, then numbers, then letters and every other
    character), then by value, letters ignoring ASCII case; strings compare token by token, and a
    proper prefix comes first. So "2.1.9" sorts before "2.1.10", and "01" ties with "1". */
module Collation {
  import opened Text

  datatype Token = Number(value: nat) | Symbol(c: char)

  /** Length of the run of digits at the start of `s`. */
  function DigitRun(s: string): (n: nat)
    ensures n <= |s|
    ensures AllDigits(s[..n])
    ensures n < |s| ==> !IsDigit(s[n])
    decreases |s|
  {
    if |s| == 0 || !IsDigit(s[0]) then 0
    else
      var n := 1 + DigitRun(s[1..]);
      assert s[..n] == [s[0]] + s[1..][..n - 1];
      n
  }

  function Tokens(s: string): seq<Token>
    decreases |s|
  {
    if |s| == 0 then []
    else if IsDigit(s[0]) then
      var n := DigitRun(s);
      [Number(DigitsValue(s[..n]))] + Tokens(s[n..])
    else [Symbol(s[0])] + Tokens(s[1..])
  }

  predicate IsPunctuation(c: char) {
    c < '\U{0080}' && !IsDigit(c) && !('a' <= LowerChar(c) <= 'z')
  }

  function Class(t: Token): int {
    match t
    case Number(_) => 1
    case Symbol(c) => if IsPunctuation(c) then 0 else 2
  }

  function Weight(t: Token): int {
    match t
    case Number(v) => v
    case Symbol(c) => LowerChar(c) as int
  }

  predicate TokenLess(a: Token, b: Token) {
    Class(a) < Class(b) || (Class(a) == Class(b) && Weight(a) < Weight(b))
  }

  predicate TokenSame(a: Token, b: Token) {
    Class(a) == Class(b) && Weight(a) == Weight(b)
  }

  /** Lexicographic order on token sequences; a proper prefix comes first. */
  predicate TokensLe(xs: seq<Token>, ys: seq<Token>)
    decreases |xs|
  {
    |xs| == 0
    || (|ys| > 0
        && (TokenLess(xs[0], ys[0]) || (TokenSame(xs[0], ys[0]) && TokensLe(xs[1..], ys[1..]))))
  }

  /** `a.localeCompare(b, undefined, { numeric: true }) <= 0`. */
  predicate NumericLe(a: string, b: string) {
    TokensLe(Tokens(a), Tokens(b))
  }

  lemma {:induction false} TokensLeReflexive(xs: seq<Token>)
    ensures TokensLe(xs, xs)
    decreases |xs|
  {
    if |xs| > 0 { TokensLeReflexive(xs[1..]); }
  }

  lemma {:induction false} TokensLeTotal(xs: seq<Token>, ys: seq<Token>)
    ensures TokensLe(xs, ys) || TokensLe(ys, xs)
    decreases |xs|
  {
    if |xs| > 0 && |ys| > 0 { TokensLeTotal(xs[1..], ys[1..]); }
  }

  lemma {:induction false} TokensLeTransitive(xs: seq<Token>, ys: seq<Token>, zs: seq<Token>)
    requires TokensLe(xs, ys) && TokensLe(ys, zs)
    ensures TokensLe(xs, zs)
    decreases |xs|
  {
    if |xs| > 0 && TokenSame(xs[0], ys[0]) && TokenSame(ys[0], zs[0]) {
      TokensLeTransitive(xs[1..], ys[1..], zs[1..]);
    }
  }

  /** The numeric comparison is a total preorder, so sorting by it is well defined. */
  lemma NumericLeTotalPreorder()
    ensures forall a :: NumericLe(a, a)
    ensures forall a, b :: NumericLe(a, b) || NumericLe(b, a)
    ensures forall a, b, c :: NumericLe(a, b) && NumericLe(b, c) ==> NumericLe(a, c)
  {
    forall a ensures NumericLe(a, a) { TokensLeReflexive(Tokens(a)); }
    forall a, b ensures NumericLe(a, b) || NumericLe(b, a) { TokensLeTotal(Tokens(a), Tokens(b)); }
    forall a, b, c | NumericLe(a, b) && NumericLe(b, c) ensures NumericLe(a, c) {
      TokensLeTransitive(Tokens(a), Tokens(b), Tokens(c));
    }
  }

  /** Digit runs compare by value: "9" sorts strictly before "10". */
  lemma NumericExample()
    ensures NumericLe("9", "10") && !NumericLe("10", "9")
  {
    assert DigitRun("9") == 1;
    assert DigitRun("10") == 2 by {
      assert DigitRun("10"[1..]) == 1;
      assert "10"[1..][1..] == "";
    }
    assert "9"[..1] == "9";
    assert "10"[..2] == "10";
    assert DigitsValue("10") == 10 by {
      assert "10"[..1] == "1";
      assert DigitsValue("1") == 1 by { assert "1"[..0] == ""; }
    }
    assert DigitsValue("9") == 9 by { assert "9"[..0] == ""; }
    assert Tokens("9") == [Number(9)] by { assert "9"[1..] == ""; }
    assert Tokens("10") == [Number(10)] by { assert "10"[2..] == ""; }
  }

  /** `a.localeCompare(b) <= 0` for the level labels it is used on: code-unit lexicographic order. */
  predicate CodeUnitLe(a: string, b: string)
    decreases |a|
  {
    |a| == 0 || (|b| > 0 && (a[0] < b[0] || (a[0] == b[0] && CodeUnitLe(a[1..], b[1..]))))
  }

  lemma {:induction false} CodeUnitLeTotal(a: string, b: string)
    ensures CodeUnitLe(a, b) || CodeUnitLe(b, a)
    decreases |a|
  {
    if |a| > 0 && |b| > 0 { CodeUnitLeTotal(a[1..], b[1..]); }
  }

  lemma {:induction false} CodeUnitLeTransitive(a: string, b: string, c: string)
    requires CodeUnitLe(a, b) && CodeUnitLe(b, c)
    ensures CodeUnitLe(a, c)
    decreases |a|
  {
    if |a| > 0 && a[0] == b[0] && b[0] == c[0] {
      CodeUnitLeTransitive(a[1..], b[1..], c[1..]);
    }
  }

  /** Two strings that are each `<=` the other are equal: the code-unit order is antisymmetric. */
  lemma {:induction false} CodeUnitLeAntisymmetric(a: string, b: string)
    requires CodeUnitLe(a, b) && CodeUnitLe(b, a)
    ensures a == b
    decreases |a|
  {
    if |a| > 0 {
      CodeUnitLeAntisymmetric(a[1..], b[1..]);
      assert a == [a[0]] + a[1..] && b == [b[0]] + b[1..];
    }
  }
}

=== FILE: common.dfy ===
/** Small shared vocabulary: optional values and facts about distinct sequences. */
module Common {

  /** A value that may be absent (JavaScript's `undefined`). */
  datatype Option<+T> = None | Some(value: T) {

    /** The carried value, or `default` when absent (JavaScript's `x ?? default`). */
    function GetOr(default: T): T {
      match this
      case Some(v) => v
      case None => default
    }
  }

  /** No element occurs twice. */
  predicate Distinct<T(==)>(s: seq<T>) {
    forall i, j :: 0 <= i < j < |s| ==> s[i] != s[j]
  }

  /** No two elements share a key. */
  predicate DistinctBy<T, K(==)>(s: seq<T>, key: T -> K) {
    forall i, j :: 0 <= i < j < |s| ==> key(s[i]) != key(s[j])
  }

  /** `s` can be obtained from `t` by deleting elements: an order-preserving sublist. */
  ghost predicate SubsequenceOf<T>(s: seq<T>, t: seq<T>)
    decreases |t|
  {
    |s| == 0 || (|t| > 0 && ((s[0] == t[0] && SubsequenceOf(s[1..], t[1..])) || SubsequenceOf(s, t[1..])))
  }

  /** `s.filter(p)`: the elements satisfying `p`, in their original order. */
  function Filter<T(!new)>(s: seq<T>, p: T -> bool): (r: seq<T>)
    ensures |r| <= |s|
    ensures forall x :: x in r <==> x in s && p(x)
    ensures SubsequenceOf(r, s)
  {
    if |s| == 0 then []
    else if p(s[0]) then [s[0]] + Filter(s[1..], p)
    else Filter(s[1..], p)
  }

  /** `s.map(f)`. */
  function Map<T, U>(s: seq<T>, f: T -> U): (r: seq<U>)
    ensures |r| == |s|
    ensures forall k :: 0 <= k < |s| ==> r[k] == f(s[k])
  {
    seq(|s|, k requires 0 <= k < |s| => f(s[k]))
  }

  /** A distinct sequence has as many elements as its set of elements. */
  lemma {:induction false} DistinctCardinality<T>(s: seq<T>)
    requires Distinct(s)
    ensures |set x | x in s| == |s|
  {
    if |s| > 0 {
      var t := s[1..];
      assert Distinct(t) by {
        forall i, j | 0 <= i < j < |t| ensures t[i] != t[j] {
          assert t[i] == s[i + 1] && t[j] == s[j + 1];
        }
      }
      DistinctCardinality(t);
      var st := set x | x in t;
      var ss := set x | x in s;
      assert s[0] !in st by {
        forall j | 0 <= j < |t| ensures t[j] != s[0] {
          assert t[j] == s[j + 1];
        }
      }
      assert ss == st + {s[0]} by {
        forall x | x in ss ensures x in st + {s[0]} {
          var k :| 0 <= k < |s| && s[k] == x;
          if k > 0 { assert t[k - 1] == x; }
        }
      }
    }
  }

  /** A distinct sequence drawn from a finite set is no longer than that set. */
  lemma DistinctBounded<T>(s: seq<T>, bound: set<T>)
    requires Distinct(s)
    requires forall x :: x in s ==> x in bound
    ensures |s| <= |bound|
  {
    DistinctCardinality(s);
    var ss := set x | x in s;
    assert ss <= bound;
    SubsetCardinality(ss, bound);
  }

  lemma SubsetCardinality<T>(a: set<T>, b: set<T>)
    requires a <= b
    ensures |a| <= |b|
  {
    assert b == a + (b - a);
  }
}

=== FILE: csv.dfy ===
/** The CSV reader of the hierarchy loader: a quote-aware line parser (`parseCSVLine`),
    a quote counter (`countQuotes`) and the document reader (`parseCsv`) that joins physical
    lines into logical ones while a quoted field is still open, and turns every non-blank
    logical line into a record keyed by the header names. */
module Csv {
  import opened Common
  import opened Text

  const Quote: char := '"'
  const Comma: char := ','
  const Newline: char := '\n'
  const Bom: char := '\U{FEFF}'

  /* ---------------------------------------------------------------- countQuotes */

  /** Number of `"` characters in `s`. */
  function CountQuotes(s: string): nat
    decreases |s|
  {
    if |s| == 0 then 0
    else CountQuotes(s[..|s| - 1]) + (if s[|s| - 1] == Quote then 1 else 0)
  }

  /** The count is the multiplicity of `"` in the line. */
  lemma {:induction false} CountQuotesIsMultiplicity(s: string)
    ensures CountQuotes(s) == multiset(s)[Quote]
    decreases |s|
  {
    if |s| > 0 {
      CountQuotesIsMultiplicity(s[..|s| - 1]);
      assert s == s[..|s| - 1] + [s[|s| - 1]];
    }
  }

  /* ---------------------------------------------------------------- parseCSVLine */

  /** The field-splitting state machine run over the rest `s` of a line: `inQuotes` says whether
      a quoted section is open, `current` is the field read so far. Outside quotes a `"` opens a
      quoted section and `,` ends the field; inside, `""` stands for one `"` and a lone `"` closes
      the section. At the end of the line the current field is emitted. */
  function Scan(s: string, inQuotes: bool, current: string): (fields: seq<string>)
    ensures |fields| >= 1
    decreases |s|
  {
    if |s| == 0 then [current]
    else if inQuotes then
      if s[0] == Quote then
        if |s| > 1 && s[1] == Quote then Scan(s[2..], true, current + [Quote])
        else Scan(s[1..], false, current)
      else Scan(s[1..], true, current + [s[0]])
    else if s[0] == Quote then Scan(s[1..], true, current)
    else if s[0] == Comma then [current] + Scan(s[1..], false, "")
    else Scan(s[1..], false, current + [s[0]])
  }

  /** `parseCSVLine(line)`: the fields of one logical line. */
  function ParseLine(line: string): (fields: seq<string>)
    ensures |fields| >= 1
  {
    Scan(line, false, "")
  }

  lemma {:induction false} ScanWithoutQuotes(s: string, current: string)
    requires Quote !in s
    ensures Scan(s, false, current) == [current + Split(s, Comma)[0]] + Split(s, Comma)[1..]
    decreases |s|
  {
    if |s| > 0 {
      var sp := Split(s[1..], Comma);
      assert s[0] in s;
      assert Quote !in s[1..];
      if s[0] == Comma {
        ScanWithoutQuotes(s[1..], "");
        assert Scan(s, false, current) == [current] + Scan(s[1..], false, "");
        assert "" + sp[0] == sp[0];
        assert [sp[0]] + sp[1..] == sp;
        assert Split(s, Comma) == [""] + sp;
        assert ([""] + sp)[1..] == sp;
        assert current + "" == current;
      } else {
        ScanWithoutQuotes(s[1..], current + [s[0]]);
        assert current + [s[0]] + sp[0] == current + ([s[0]] + sp[0]);
      }
    } else {
      assert current + "" == current;
    }
  }

  /** A line with no `"` parses to exactly its comma-separated pieces. */
  lemma ParseLineWithoutQuotes(line: string)
    requires Quote !in line
    ensures ParseLine(line) == Split(line, Comma)
  {
    ScanWithoutQuotes(line, "");
    var sp := Split(line, Comma);
    assert "" + sp[0] == sp[0];
    assert [sp[0]] + sp[1..] == sp;
  }

  /** The body of a quoted field: every `"` doubled (section 2, rule 7 of RFC 4180). */
  function Escape(f: string): string
    decreases |f|
  {
    if |f| == 0 then ""
    else (if f[0] == Quote then [Quote, Quote] else [f[0]]) + Escape(f[1..])
  }

  /** A field that contains a quote, a comma or a line break must be enclosed in quotes
      (section 2, rule 6 of RFC 4180). */
  predicate NeedsQuotes(f: string) {
    Quote in f || Comma in f || Newline in f || '\r' in f
  }

  function EncodeField(f: string): string {
    if NeedsQuotes(f) then [Quote] + Escape(f) + [Quote] else f
  }

  /** One record written as RFC 4180 prescribes. */
  function EncodeRecord(fields: seq<string>): string
    requires |fields| >= 1
  {
    Join(Map(fields, EncodeField), Comma)
  }

  lemma {:induction false} ScanEscaped(f: string, rest: string, current: string)
    requires |rest| == 0 || rest[0] != Quote
    ensures Scan(Escape(f) + [Quote] + rest, true, current) == Scan(rest, false, current + f)
    decreases |f|
  {
    var s := Escape(f) + [Quote] + rest;
    if |f| == 0 {
      assert s == [Quote] + rest;
      assert s[1..] == rest;
      assert current + f == current;
    } else if f[0] == Quote {
      assert s == [Quote, Quote] + (Escape(f[1..]) + [Quote] + rest);
      assert s[2..] == Escape(f[1..]) + [Quote] + rest;
      ScanEscaped(f[1..], rest, current + [Quote]);
      assert current + [Quote] + f[1..] == current + f;
    } else {
      assert s == [f[0]] + (Escape(f[1..]) + [Quote] + rest);
      assert s[1..] == Escape(f[1..]) + [Quote] + rest;
      ScanEscaped(f[1..], rest, current + [f[0]]);
      assert current + [f[0]] + f[1..] == current + f;
    }
  }

  lemma {:induction false} ScanPlain(f: string, rest: string, current: string)
    requires Quote !in f && Comma !in f
    ensures Scan(f + rest, false, current) == Scan(rest, false, current + f)
    decreases |f|
  {
    if |f| == 0 {
      assert f + rest == rest;
      assert current + f == current;
    } else {
      assert (f + rest)[1..] == f[1..] + rest;
      assert Quote !in f[1..] && Comma !in f[1..];
      ScanPlain(f[1..], rest, current + [f[0]]);
      assert current + [f[0]] + f[1..] == current + f;
    }
  }

  lemma ScanField(f: string, rest: string)
    requires |rest| == 0 || rest[0] == Comma
    ensures Scan(EncodeField(f) + rest, false, "") == Scan(rest, false, f)
  {
    if NeedsQuotes(f) {
      var s := [Quote] + Escape(f) + [Quote] + rest;
      assert s[1..] == Escape(f) + [Quote] + rest;
      ScanEscaped(f, rest, "");
      assert "" + f == f;
    } else {
      ScanPlain(f, rest, "");
      assert "" + f == f;
    }
  }

  /** Fields written as RFC 4180 prescribes read back exactly, whatever they contain. */
  lemma {:induction false} ParseEncodedRecord(fields: seq<string>)
    requires |fields| >= 1
    ensures ParseLine(EncodeRecord(fields)) == fields
    decreases |fields|
  {
    var enc := Map(fields, EncodeField);
    if |fields| == 1 {
      ScanField(fields[0], "");
      assert EncodeField(fields[0]) + "" == EncodeField(fields[0]);
    } else {
      var tail := fields[1..];
      ParseEncodedRecord(tail);
      var restText := [Comma] + EncodeRecord(tail);
      EncodeRecordCons(fields);
      ScanField(fields[0], restText);
      ScanComma(fields[0], EncodeRecord(tail));
      assert fields == [fields[0]] + tail;
    }
  }

  /** A record of two or more fields is its first field, a comma, and the rest. */
  lemma EncodeRecordCons(fields: seq<string>)
    requires |fields| >= 2
    ensures EncodeRecord(fields) == EncodeField(fields[0]) + ([Comma] + EncodeRecord(fields[1..]))
  {
    assert Map(fields[1..], EncodeField) == Map(fields, EncodeField)[1..];
  }

  /** A comma outside quotes ends the field read so far. */
  lemma ScanComma(f: string, rest: string)
    ensures Scan([Comma] + rest, false, f) == [f] + ParseLine(rest)
  {
    assert ([Comma] + rest)[1..] == rest;
  }

  /* ---------------------------------------------------------------- parseCsv */

  /** `text.replace(/^\uFEFF/, "")`: one leading byte-order mark is dropped. */
  function StripBom(text: string): (r: string)
    ensures |text| > 0 && text[0] == Bom ==> r == text[1..]
    ensures (|text| == 0 || text[0] != Bom) ==> r == text
  {
    if |text| > 0 && text[0] == Bom then text[1..] else text
  }

  /** Starting at physical line `i` with the text `acc` gathered so far, appends the following
      physical lines (separated by a line break) while `acc` holds an odd number of quotes; returns
      the logical line and the index of the first physical line not consumed. */
  function GatherLine(lines: seq<string>, i: nat, acc: string): (r: (string, nat))
    requires i < |lines|
    ensures i < r.1 <= |lines|
    decreases |lines| - i
  {
    if CountQuotes(acc) % 2 != 0 && i + 1 < |lines| then
      GatherLine(lines, i + 1, acc + [Newline] + lines[i + 1])
    else (acc, i + 1)
  }

  /** The logical lines starting at physical line `i`. */
  function LogicalLines(lines: seq<string>, i: nat): seq<string>
    requires i <= |lines|
    decreases |lines| - i
  {
    if i == |lines| then []
    else
      var g := GatherLine(lines, i, lines[i]);
      [g.0] + LogicalLines(lines, g.1)
  }

  /** A logical line is the line-break join of a run of physical lines `lines[i..next]`; every
      shorter run of that group has an odd quote count, and the whole group has an even count
      unless it runs to the end of the input. */
  lemma {:induction false} GatherLineShape(lines: seq<string>, i0: nat, i: nat, acc: string)
    requires i0 <= i < |lines|
    requires acc == Join(lines[i0..i + 1], Newline)
    requires OpenBefore(lines, i0, i + 1)
    ensures var g := GatherLine(lines, i, acc);
      && g.0 == Join(lines[i0..g.1], Newline)
      && OpenBefore(lines, i0, g.1)
      && (g.1 < |lines| ==> CountQuotes(g.0) % 2 == 0)
    decreases |lines| - i
  {
    var g := GatherLine(lines, i, acc);
    if CountQuotes(acc) % 2 != 0 && i + 1 < |lines| {
      var acc' := acc + [Newline] + lines[i + 1];
      JoinSnoc(lines[i0..i + 1], lines[i + 1]);
      assert lines[i0..i + 2] == lines[i0..i + 1] + [lines[i + 1]];
      assert acc' == Join(lines[i0..i + 2], Newline);
      assert OpenBefore(lines, i0, i + 2) by {
        forall m | i0 < m < i + 2 ensures QuotesOpen(lines, i0, m) {
          if m == i + 1 { assert Join(lines[i0..m], Newline) == acc; }
        }
      }
      GatherLineShape(lines, i0, i + 1, acc');
      assert g == GatherLine(lines, i + 1, acc');
    } else {
      assert g == (acc, i + 1);
    }
  }

  /** The line-break join of `lines[i0..m]` holds an odd number of quotes: a quoted field is open. */
  predicate QuotesOpen(lines: seq<string>, i0: nat, m: nat)
    requires i0 < m <= |lines|
  {
    CountQuotes(Join(lines[i0..m], Newline)) % 2 != 0
  }

  /** Every run `lines[i0..m]` shorter than `lines[i0..j]` leaves a quoted field open. */
  predicate OpenBefore(lines: seq<string>, i0: nat, j: nat)
    requires i0 < j <= |lines|
  {
    forall m :: i0 < m < j ==> QuotesOpen(lines, i0, m)
  }

  lemma {:induction false} JoinSnoc(parts: seq<string>, last: string)
    requires |parts| >= 1
    ensures Join(parts + [last], Newline) == Join(parts, Newline) + [Newline] + last
    decreases |parts|
  {
    if |parts| == 1 {
      assert (parts + [last])[1..] == [last];
    } else {
      assert (parts + [last])[1..] == parts[1..] + [last];
      JoinSnoc(parts[1..], last);
    }
  }

  lemma {:induction false} JoinAppend(a: seq<string>, b: seq<string>)
    requires |a| >= 1 && |b| >= 1
    ensures Join(a + b, Newline) == Join(a, Newline) + [Newline] + Join(b, Newline)
    decreases |a|
  {
    if |a| == 1 {
      assert (a + b)[1..] == b;
    } else {
      assert (a + b)[1..] == a[1..] + b;
      JoinAppend(a[1..], b);
    }
  }

  /** Gathering loses and reorders nothing: the logical lines, joined by line breaks, are the
      physical lines joined by line breaks. */
  lemma {:induction false} LogicalLinesJoin(lines: seq<string>, i: nat)
    requires i < |lines|
    ensures |LogicalLines(lines, i)| >= 1
    ensures Join(LogicalLines(lines, i), Newline) == Join(lines[i..], Newline)
    decreases |lines| - i
  {
    var g := GatherLine(lines, i, lines[i]);
    assert lines[i..i + 1] == [lines[i]];
    GatherLineShape(lines, i, i, lines[i]);
    if g.1 < |lines| {
      LogicalLinesJoin(lines, g.1);
      assert lines[i..] == lines[i..g.1] + lines[g.1..];
      JoinAppend(lines[i..g.1], lines[g.1..]);
    } else {
      assert lines[i..] == lines[i..g.1];
    }
  }

  /** A physical line with an even number of quotes is a logical line of its own. */
  lemma BalancedLineStandsAlone(lines: seq<string>, i: nat)
    requires i < |lines|
    requires CountQuotes(lines[i]) % 2 == 0
    ensures LogicalLines(lines, i)[0] == lines[i]
  {
  }

  /** `values[h] ?? ""`. */
  function ValueAt(values: seq<string>, h: nat): string {
    if h < |values| then values[h] else ""
  }

  /** `(values[h] ?? "").trim()` for each of the first `n` columns. */
  function Cells(values: seq<string>, n: nat): (c: seq<string>)
    ensures |c| == n && forall h :: 0 <= h < n ==> c[h] == Trim(ValueAt(values, h))
  {
    seq(n, h requires 0 <= h < n => Trim(ValueAt(values, h)))
  }

  /** `row[headers[h]] = cells[h]` for the first `n` columns in order, so a repeated header
      keeps its last value. */
  function Assign(headers: seq<string>, cells: seq<string>, n: nat): map<string, string>
    requires n <= |headers| && n <= |cells|
  {
    if n == 0 then map[]
    else Assign(headers, cells, n - 1)[headers[n - 1] := cells[n - 1]]
  }

  /** The record built for one line: one entry per header, holding the trimmed value in its
      column. */
  function MakeRow(headers: seq<string>, values: seq<string>): (row: map<string, string>)
    ensures forall k :: k in row ==> IsTrimmed(row[k])
  {
    var cells := Cells(values, |headers|);
    AssignFrom(headers, cells, |headers|);
    Assign(headers, cells, |headers|)
  }

  /** Every entry is one of the cells assigned. */
  lemma {:induction false} AssignFrom(headers: seq<string>, cells: seq<string>, n: nat)
    requires n <= |headers| && n <= |cells|
    ensures forall k :: k in Assign(headers, cells, n) ==> Assign(headers, cells, n)[k] in cells[..n]
    decreases n
  {
    if n > 0 {
      AssignFrom(headers, cells, n - 1);
      assert forall c :: c in cells[..n - 1] ==> c in cells[..n];
    }
  }

  /** The keys are exactly the first `n` header names. */
  lemma {:induction false} AssignKeys(headers: seq<string>, cells: seq<string>, n: nat)
    requires n <= |headers| && n <= |cells|
    ensures Assign(headers, cells, n).Keys == set h | 0 <= h < n :: headers[h]
    decreases n
  {
    if n > 0 {
      AssignKeys(headers, cells, n - 1);
      assert (set h | 0 <= h < n :: headers[h]) == (set h | 0 <= h < n - 1 :: headers[h]) + {headers[n - 1]};
    }
  }

  /** A header's entry is the cell of the last column with that name. */
  lemma {:induction false} AssignEntry(headers: seq<string>, cells: seq<string>, n: nat, h: nat)
    requires h < n <= |headers| && n <= |cells|
    requires forall h' :: h < h' < n ==> headers[h'] != headers[h]
    ensures headers[h] in Assign(headers, cells, n) && Assign(headers, cells, n)[headers[h]] == cells[h]
    decreases n
  {
    if h < n - 1 {
      AssignEntry(headers, cells, n - 1, h);
    }
  }

  /** Each header's entry is the trimmed value in its column; for a repeated header the last
      column with that name wins, and a missing value reads as "". */
  lemma MakeRowEntry(headers: seq<string>, values: seq<string>, h: nat)
    requires h < |headers|
    requires forall h' :: h < h' < |headers| ==> headers[h'] != headers[h]
    ensures headers[h] in MakeRow(headers, values)
    ensures MakeRow(headers, values)[headers[h]] == Trim(ValueAt(values, h))
  {
    AssignEntry(headers, Cells(values, |headers|), |headers|, h);
  }

  /** A blank logical line (empty after trimming) produces no record. */
  predicate IsBlank(line: string) {
    Trim(line) == ""
  }

  predicate NotBlank(line: string) {
    !IsBlank(line)
  }

  /** One record per non-blank logical line, in order. */
  function RecordsOf(headers: seq<string>, logical: seq<string>): seq<map<string, string>> {
    Map(Filter(logical, NotBlank), l => MakeRow(headers, ParseLine(l)))
  }

  /** Every record has exactly the header names as keys. */
  lemma RecordsKeys(headers: seq<string>, logical: seq<string>)
    ensures forall r :: r in RecordsOf(headers, logical) ==> r.Keys == set h | 0 <= h < |headers| :: headers[h]
  {
    forall r | r in RecordsOf(headers, logical) ensures r.Keys == set h | 0 <= h < |headers| :: headers[h] {
      var kept := Filter(logical, NotBlank);
      var i :| 0 <= i < |kept| && r == MakeRow(headers, ParseLine(kept[i]));
      AssignKeys(headers, Cells(ParseLine(kept[i]), |headers|), |headers|);
    }
  }

  /** `parseCsv(text)`. */
  function ParseCsv(text: string): (rows: seq<map<string, string>>)
    ensures |Split(StripBom(text), Newline)| < 2 ==> rows == []
    ensures forall r :: r in rows ==>
      r.Keys == (set h | 0 <= h < |ParseLine(Split(StripBom(text), Newline)[0])| :: ParseLine(Split(StripBom(text), Newline)[0])[h])
    ensures forall r, k :: r in rows && k in r ==> IsTrimmed(r[k])
  {
    var lines := Split(StripBom(text), Newline);
    if |lines| < 2 then []
    else
      var headers := ParseLine(lines[0]);
      RecordsKeys(headers, LogicalLines(lines, 1));
      RecordsOf(headers, LogicalLines(lines, 1))
  }

  /** The records are, in order, one per logical line after the header that is not blank:
      a blank line gives none, and no other line is dropped. */
  lemma ParseCsvRows(text: string)
    requires |Split(StripBom(text), Newline)| >= 2
    ensures var lines := Split(StripBom(text), Newline);
      var kept := Filter(LogicalLines(lines, 1), NotBlank);
      && (forall l :: l in kept <==> l in LogicalLines(lines, 1) && !IsBlank(l))
      && |ParseCsv(text)| == |kept|
      && forall i :: 0 <= i < |kept| ==> ParseCsv(text)[i] == MakeRow(ParseLine(lines[0]), ParseLine(kept[i]))
  {
    var lines := Split(StripBom(text), Newline);
    assert ParseCsv(text) == RecordsOf(ParseLine(lines[0]), LogicalLines(lines, 1));
  }

  /** A leading byte-order mark does not change the records read. */
  lemma ParseCsvIgnoresBom(text: string)
    requires |text| == 0 || text[0] != Bom
    ensures ParseCsv([Bom] + text) == ParseCsv(text)
  {
    assert ([Bom] + text)[1..] == text;
  }
}

=== FILE: exportfit.dfy ===
/** The slide placement of the diagram in the PowerPoint export: every node's centre is moved by
    one translation and one uniform scale so that the set of centres fits the free area of a
    13.33 x 7.5 inch slide, and each node is drawn as a box of its level's size around the
    mapped centre. Distances are exact reals (inches on the slide, pixels on the canvas). */
module ExportFit {
  import opened Graph

  /** Canvas size in pixels and slide size in inches of a node of one level. */
  datatype Size = Size(pxW: real, pxH: real, pptW: real, pptH: real)

  /** `getLevel`: the node's `data.level`, or "L4" when it is missing or empty. A value that is
      not a string is read as "L4" too. */
  function LevelOf(n: Node): string {
    if "level" in n.data && n.data["level"].Str? && n.data["level"].s != "" then n.data["level"].s else "L4"
  }

  /** `LS[level] || DEF`: the size table, with the L4 size for any other level. */
  function SizeOf(level: string): (s: Size)
    ensures 0.0 < s.pptW <= MaxNW && 0.0 < s.pptH <= MaxNH
    ensures s.pxW > 0.0 && s.pxH > 0.0
  {
    if level == "L2" then Size(300.0, 76.0, 2.3, 0.6)
    else if level == "L3" then Size(260.0, 68.0, 2.1, 0.55)
    else if level == "L5" then Size(200.0, 50.0, 1.6, 0.45)
    else Size(235.0, 60.0, 1.9, 0.5)
  }

  const SlideW: real := 13.33
  const SlideH: real := 7.5
  const PadX: real := 0.5
  const PadTop: real := 0.75
  /** Space kept free under the diagram for the legend bar. */
  const PadBottom: real := 0.9
  const MaxNW: real := 2.3
  const MaxNH: real := 0.6
  const AreaW: real := SlideW - 2.0 * PadX - MaxNW
  const AreaH: real := SlideH - PadTop - PadBottom - MaxNH

  /** Canvas centre of a node: its top-left position plus half its pixel size. */
  function CenterX(n: Node): real { n.x + SizeOf(LevelOf(n)).pxW / 2.0 }
  function CenterY(n: Node): real { n.y + SizeOf(LevelOf(n)).pxH / 2.0 }

  function Min(a: real, b: real): real { if a <= b then a else b }
  function Max(a: real, b: real): real { if a >= b then a else b }

  /** The smallest of the values (the loop that starts from `Infinity`). */
  function MinOf(s: seq<real>): (m: real)
    requires |s| > 0
    ensures forall i :: 0 <= i < |s| ==> m <= s[i]
    ensures exists i :: 0 <= i < |s| && m == s[i]
  {
    if |s| == 1 then s[0]
    else
      var m := MinOf(s[..|s| - 1]);
      assert forall i :: 0 <= i < |s| - 1 ==> s[..|s| - 1][i] == s[i];
      Min(m, s[|s| - 1])
  }

  /** The largest of the values (the loop that starts from `-Infinity`). */
  function MaxOf(s: seq<real>): (m: real)
    requires |s| > 0
    ensures forall i :: 0 <= i < |s| ==> s[i] <= m
    ensures exists i :: 0 <= i < |s| && m == s[i]
  {
    if |s| == 1 then s[0]
    else
      var m := MaxOf(s[..|s| - 1]);
      assert forall i :: 0 <= i < |s| - 1 ==> s[..|s| - 1][i] == s[i];
      Max(m, s[|s| - 1])
  }

  /** `rfCenters`, one axis at a time. */
  function CentersX(nodes: seq<Node>): (r: seq<real>)
    ensures |r| == |nodes| && forall i :: 0 <= i < |nodes| ==> r[i] == CenterX(nodes[i])
  {
    seq(|nodes|, i requires 0 <= i < |nodes| => CenterX(nodes[i]))
  }

  function CentersY(nodes: seq<Node>): (r: seq<real>)
    ensures |r| == |nodes| && forall i :: 0 <= i < |nodes| ==> r[i] == CenterY(nodes[i])
  {
    seq(|nodes|, i requires 0 <= i < |nodes| => CenterY(nodes[i]))
  }

  /** `(max - min) || 1`: a zero extent counts as one pixel. */
  function Range(lo: real, hi: real): (r: real)
    requires lo <= hi
    ensures r > 0.0
    ensures hi - lo <= r
    ensures hi > lo ==> r == hi - lo
    ensures hi == lo ==> r == 1.0
  {
    if hi - lo == 0.0 then 1.0 else hi - lo
  }

  /** The translation and the single scale factor shared by both axes. */
  datatype Fit = Fit(minX: real, minY: real, sc: real)

  /** `sc = Math.min(pptAreaW / cRangeX, pptAreaH / cRangeY)` for the extents `dx` and `dy` of
      the centres: the largest scale under which both extents fit the free area. */
  function Scale(dx: real, dy: real): (sc: real)
    requires dx >= 0.0 && dy >= 0.0
    ensures sc > 0.0
    ensures dx * sc <= AreaW && dy * sc <= AreaH
    ensures Range(0.0, dx) * sc <= AreaW && Range(0.0, dy) * sc <= AreaH
    ensures Range(0.0, dx) * sc == AreaW || Range(0.0, dy) * sc == AreaH
  {
    var rx := Range(0.0, dx);
    var ry := Range(0.0, dy);
    Quotient(AreaW, rx);
    Quotient(AreaH, ry);
    var sc := Min(AreaW / rx, AreaH / ry);
    ScaleFits(dx, rx, AreaW, sc);
    ScaleFits(dy, ry, AreaH, sc);
    ScaleFits(rx, rx, AreaW, sc);
    ScaleFits(ry, ry, AreaH, sc);
    sc
  }

  /** No larger scale would do: any scale under which both ranges (a zero extent counting as
      one) fit is at most `Scale`. When both extents are positive, one of them fills its side
      exactly. */
  lemma {:induction false} ScaleIsTight(dx: real, dy: real, s: real)
    requires dx >= 0.0 && dy >= 0.0
    requires Range(0.0, dx) * s <= AreaW && Range(0.0, dy) * s <= AreaH
    ensures s <= Scale(dx, dy)
    ensures dx > 0.0 && dy > 0.0 ==> dx * Scale(dx, dy) == AreaW || dy * Scale(dx, dy) == AreaH
  {
    var sc, rx, ry := Scale(dx, dy), Range(0.0, dx), Range(0.0, dy);
    if rx * sc == AreaW {
      assert rx * s <= rx * sc;
    } else {
      assert ry * s <= ry * sc;
    }
  }

  /** Every value, taken relative to `lo` and scaled by `sc`, lands in [0, area]. */
  predicate OffsetsWithin(xs: seq<real>, lo: real, sc: real, area: real) {
    forall i :: 0 <= i < |xs| ==> 0.0 <= (xs[i] - lo) * sc <= area
  }

  /** The fit of a non-empty diagram (the export stops earlier on an empty canvas). */
  function FitOf(nodes: seq<Node>): Fit
    requires |nodes| > 0
  {
    FitOfCenters(CentersX(nodes), CentersY(nodes))
  }

  /** The fit of the centres: the translation puts the smallest centre at the origin of the
      free area, and the positive scale puts every centre inside it. */
  function FitOfCenters(xs: seq<real>, ys: seq<real>): (f: Fit)
    requires |xs| > 0 && |ys| > 0
    ensures f.minX == MinOf(xs) && f.minY == MinOf(ys)
    ensures f.sc > 0.0
    ensures MinOf(xs) <= MaxOf(xs) && MinOf(ys) <= MaxOf(ys)
    ensures f.sc == Scale(MaxOf(xs) - MinOf(xs), MaxOf(ys) - MinOf(ys))
    ensures OffsetsWithin(xs, f.minX, f.sc, AreaW)
    ensures OffsetsWithin(ys, f.minY, f.sc, AreaH)
  {
    MinMaxBetween(xs);
    MinMaxBetween(ys);
    FitBetween(xs, ys, MinOf(xs), MaxOf(xs), MinOf(ys), MaxOf(ys))
  }

  /** The fit for centres known to lie in [lo, hi] x [lo', hi']. */
  function FitBetween(xs: seq<real>, ys: seq<real>, lo: real, hi: real, lo': real, hi': real): (f: Fit)
    requires Between(xs, lo, hi) && Between(ys, lo', hi') && lo <= hi && lo' <= hi'
    ensures f.minX == lo && f.minY == lo' && f.sc > 0.0
    ensures f.sc == Scale(hi - lo, hi' - lo')
    ensures OffsetsWithin(xs, lo, f.sc, AreaW) && OffsetsWithin(ys, lo', f.sc, AreaH)
  {
    var sc := Scale(hi - lo, hi' - lo');
    OffsetsFit(xs, lo, hi, sc, AreaW);
    OffsetsFit(ys, lo', hi', sc, AreaH);
    Fit(lo, lo', sc)
  }

  /** Every value lies in [lo, hi]. */
  predicate Between(xs: seq<real>, lo: real, hi: real) {
    forall i :: 0 <= i < |xs| ==> lo <= xs[i] <= hi
  }

  lemma MinMaxBetween(xs: seq<real>)
    requires |xs| > 0
    ensures Between(xs, MinOf(xs), MaxOf(xs)) && MinOf(xs) <= MaxOf(xs)
  {
  }

  lemma OffsetsFit(xs: seq<real>, lo: real, hi: real, sc: real, area: real)
    requires Between(xs, lo, hi)
    requires sc > 0.0 && (hi - lo) * sc <= area
    ensures OffsetsWithin(xs, lo, sc, area)
  {
    forall i | 0 <= i < |xs| ensures 0.0 <= (xs[i] - lo) * sc <= area {
      OffsetFits(xs[i] - lo, hi - lo, sc, area);
    }
  }

  /** A positive area over a positive extent gives a positive scale that fills the area exactly. */
  lemma Quotient(area: real, r: real)
    requires area > 0.0 && r > 0.0
    ensures area / r > 0.0 && r * (area / r) == area
  {
  }

  /** With `sc <= area / r` and `0 <= d <= r`, the scaled extent `d * sc` fits in `area`. */
  lemma ScaleFits(d: real, r: real, area: real, sc: real)
    requires 0.0 <= d <= r && r > 0.0 && area > 0.0 && 0.0 < sc <= area / r
    ensures d * sc <= area
  {
    Quotient(area, r);
    assert d * sc <= r * sc;
    assert r * sc <= r * (area / r);
  }

  /** A canvas coordinate taken relative to `lo` and scaled. */
  function Offset(c: real, lo: real, sc: real): real {
    (c - lo) * sc
  }

  /** `toPptCenter`: the slide position of a canvas centre. */
  function ToPpt(f: Fit, cx: real, cy: real): (real, real) {
    (PadX + MaxNW / 2.0 + Offset(cx, f.minX, f.sc), PadTop + MaxNH / 2.0 + Offset(cy, f.minY, f.sc))
  }

  datatype Box = Box(x: real, y: real, w: real, h: real)

  /** A box of size `s` centred on `c`. */
  function BoxAround(c: (real, real), s: Size): (b: Box) {
    Box(c.0 - s.pptW / 2.0, c.1 - s.pptH / 2.0, s.pptW, s.pptH)
  }

  /** The node's box on the slide, centred on its mapped centre. */
  function NodeBox(f: Fit, n: Node): (b: Box) {
    BoxAround(ToPpt(f, CenterX(n), CenterY(n)), SizeOf(LevelOf(n)))
  }

  /** The smallest canvas centre lands at (PAD_X + maxNW/2, PAD_TOP + maxNH/2). */
  lemma MinCornerMapsToOrigin(nodes: seq<Node>)
    requires |nodes| > 0
    ensures ToPpt(FitOf(nodes), MinOf(CentersX(nodes)), MinOf(CentersY(nodes))) == (PadX + MaxNW / 2.0, PadTop + MaxNH / 2.0)
  {
    var f := FitOf(nodes);
    assert f.minX == MinOf(CentersX(nodes)) && f.minY == MinOf(CentersY(nodes));
    ZeroOffset(f);
  }

  lemma ZeroOffset(f: Fit)
    ensures ToPpt(f, f.minX, f.minY) == (PadX + MaxNW / 2.0, PadTop + MaxNH / 2.0)
  {
    OffsetZero(f.minX, f.sc);
    OffsetZero(f.minY, f.sc);
  }

  lemma OffsetZero(lo: real, sc: real)
    ensures Offset(lo, lo, sc) == 0.0
  {
  }

  /** One factor for both axes: every canvas offset is multiplied by the same `sc`. */
  lemma UniformScale(f: Fit, x1: real, y1: real, x2: real, y2: real)
    ensures ToPpt(f, x2, y2).0 - ToPpt(f, x1, y1).0 == (x2 - x1) * f.sc
    ensures ToPpt(f, x2, y2).1 - ToPpt(f, x1, y1).1 == (y2 - y1) * f.sc
  {
    assert (x2 - f.minX) * f.sc - (x1 - f.minX) * f.sc == (x2 - x1) * f.sc;
    assert (y2 - f.minY) * f.sc - (y1 - f.minY) * f.sc == (y2 - y1) * f.sc;
  }

  /** With a positive scale the mapping keeps the order of centres on each axis, strictly. */
  lemma ToPptMonotone(f: Fit, x1: real, y1: real, x2: real, y2: real)
    requires f.sc > 0.0
    ensures x1 < x2 <==> ToPpt(f, x1, y1).0 < ToPpt(f, x2, y2).0
    ensures y1 < y2 <==> ToPpt(f, x1, y1).1 < ToPpt(f, x2, y2).1
  {
    UniformScale(f, x1, y1, x2, y2);
    if x1 < x2 { assert (x2 - x1) * f.sc > 0.0; }
    if x2 <= x1 { assert (x1 - x2) * f.sc >= 0.0; }
    if y1 < y2 { assert (y2 - y1) * f.sc > 0.0; }
    if y2 <= y1 { assert (y1 - y2) * f.sc >= 0.0; }
  }

  /** Every node's box lies on the slide inside [0.5, 12.83] x [0.75, 6.6]. */
  lemma BoxesOnSlide(nodes: seq<Node>, i: int)
    requires 0 <= i < |nodes|
    ensures OnSlide(NodeBox(FitOf(nodes), nodes[i]))
  {
    var xs, ys := CentersX(nodes), CentersY(nodes);
    var s := SizeOf(LevelOf(nodes[i]));
    CenterOnSlide(FitOfCenters(xs, ys), xs, ys, i, s);
  }

  /** Inside [0.5, 12.83] x [0.75, 6.6]: the slide less its margins and the legend strip. */
  predicate OnSlide(b: Box) {
    0.5 <= b.x && b.x + b.w <= 12.83 && 0.75 <= b.y && b.y + b.h <= 6.6
  }

  lemma CenterOnSlide(f: Fit, xs: seq<real>, ys: seq<real>, i: int, s: Size)
    requires OffsetsWithin(xs, f.minX, f.sc, AreaW) && OffsetsWithin(ys, f.minY, f.sc, AreaH)
    requires 0 <= i < |xs| && i < |ys|
    requires 0.0 < s.pptW <= MaxNW && 0.0 < s.pptH <= MaxNH
    ensures OnSlide(BoxAround(ToPpt(f, xs[i], ys[i]), s))
  {
    OffsetAt(xs, f.minX, f.sc, AreaW, i);
    OffsetAt(ys, f.minY, f.sc, AreaH, i);
    BoxWithin(f, xs[i], ys[i], s);
  }

  lemma OffsetAt(xs: seq<real>, lo: real, sc: real, area: real, i: int)
    requires OffsetsWithin(xs, lo, sc, area) && 0 <= i < |xs|
    ensures 0.0 <= (xs[i] - lo) * sc <= area
  {
  }

  /** A box no larger than the largest node size, centred on a mapped centre inside the free
      area, lies on the slide. */
  lemma BoxWithin(f: Fit, cx: real, cy: real, s: Size)
    requires 0.0 <= (cx - f.minX) * f.sc <= AreaW && 0.0 <= (cy - f.minY) * f.sc <= AreaH
    requires 0.0 < s.pptW <= MaxNW && 0.0 < s.pptH <= MaxNH
    ensures OnSlide(BoxAround(ToPpt(f, cx, cy), s))
  {
    var dx := (cx - f.minX) * f.sc;
    var dy := (cy - f.minY) * f.sc;
    var b := BoxAround(ToPpt(f, cx, cy), s);
    assert b.x == PadX + MaxNW / 2.0 + dx - s.pptW / 2.0 && b.w == s.pptW;
    assert b.y == PadTop + MaxNH / 2.0 + dy - s.pptH / 2.0 && b.h == s.pptH;
  }

  lemma OffsetFits(d: real, range: real, sc: real, area: real)
    requires 0.0 <= d <= range && sc > 0.0 && range * sc <= area
    ensures 0.0 <= d * sc <= area
  {
    assert d * sc <= range * sc;
  }
}

=== FILE: flowbuilder.dfy ===
/** `buildFlowFromL3`: the full tree diagram of one L3 process. The L2 and L3 nodes sit in the
    first two columns, the L3's L4 children in the third column one row apart in numeric id
    order, and each L4's L5 children in the fourth column starting level with their parent.
    Every child gets one edge from its parent, and the L2 and L3 nodes are finally moved to the
    midpoint of the first and last L4. */
module FlowBuilder {
  import opened Common
  import opened Hierarchy
  import opened Graph

  const StartX: int := 60
  const StartY: int := 60
  const ColGap: int := 320
  const RowGap: int := 90
  /** Vertical distance between sibling L5 nodes. */
  const L5Gap: int := 60

  datatype Flow = Flow(nodes: seq<Node>, edges: seq<Edge>)

  /** `p` starts `s`. */
  predicate Prefixed(s: string, p: string) {
    |p| <= |s| && s[..|p|] == p
  }

  function RowSelf(r: Row): Row { r }
  function L4IdOf(r: Row): string { r.l4Id }
  function Self(s: string): string { s }
  function NodeId(n: Node): string { n.id }

  /** The parent-to-child edge of the tree, in the style of the child's level. */
  function TreeEdge(source: string, target: string, color: string, width: real, arrow: nat, animated: bool): Edge {
    Edge("e-" + source + "-" + target, source, target, Some("smoothstep"), Some(animated),
         Some(Style(Some(color), Some(width))), None, Some(ArrowClosed(arrow, arrow, color)), None, None)
  }

  function L2Node(first: Row): Node {
    Node("l2-" + first.l2Id, "l2", StartX as real, StartY as real,
         map["label" := Str(first.l2Name), "level" := Str("L2"), "id" := Str(first.l2Id)])
  }

  function L3Node(first: Row): Node {
    Node("l3-" + first.l3Id, "l3", (StartX + ColGap) as real, StartY as real,
         map["label" := Str(first.l3Name), "level" := Str("L3"), "id" := Str(first.l3Id)])
  }

  /** The `k`-th L4 in id order. */
  function L4Node(it: L4Item, k: nat): Node {
    Node("l4-" + it.id, "l4", (StartX + 2 * ColGap) as real, (StartY + k * RowGap) as real,
         map["label" := Str(it.name), "level" := Str("L4"), "id" := Str(it.id), "description" := Str(it.description)])
  }

  function L5Node(it: L5Item, y: real): Node {
    Node("l5-" + it.id, "l5", (StartX + 3 * ColGap) as real, y,
         map["label" := Str(it.name), "level" := Str("L5"), "id" := Str(it.id), "description" := Str(it.description)])
  }

  /** The L4 column and the L3-to-L4 edges. */
  function L4Column(l3NodeId: string, l4s: seq<L4Item>): (r: Flow)
    ensures |r.nodes| == |l4s| == |r.edges|
    ensures forall k :: 0 <= k < |l4s| ==> r.nodes[k] == L4Node(l4s[k], k)
    ensures forall k :: 0 <= k < |l4s| ==> r.edges[k].source == l3NodeId && r.edges[k].target == r.nodes[k].id
  {
    var ns := seq(|l4s|, k requires 0 <= k < |l4s| => L4Node(l4s[k], k));
    var es := seq(|l4s|, k requires 0 <= k < |l4s| =>
                TreeEdge(l3NodeId, ns[k].id, "#d95578", 2.0, 18, false));
    Flow(ns, es)
  }

  /** One L4's L5 children, `L5Gap` apart starting level with the parent. */
  function L5Block(items: seq<L5Item>, parent: Node): (r: Flow)
    ensures |r.nodes| == |items| == |r.edges|
    ensures forall j :: 0 <= j < |items| ==>
              r.nodes[j].id == "l5-" + items[j].id && r.nodes[j].kind == "l5"
              && r.nodes[j].x == (StartX + 3 * ColGap) as real
              && r.nodes[j].y == parent.y + (j * L5Gap) as real
    ensures forall j :: 0 <= j < |items| ==> r.edges[j].source == parent.id && r.edges[j].target == r.nodes[j].id
  {
    var ns := seq(|items|, j requires 0 <= j < |items| => L5Node(items[j], parent.y + (j * L5Gap) as real));
    var es := seq(|items|, j requires 0 <= j < |items| =>
                TreeEdge(parent.id, ns[j].id, "#f2a0af", 1.5, 16, false));
    Flow(ns, es)
  }

  /** The `L4_ID`s of the L3's rows that carry an `L5_ID`, in order of first appearance
      (the keys of the `l5ByL4` map). */
  function GroupKeys(rows: seq<Row>, l3Id: string): seq<string> {
    Dedup(Candidates(rows, L5InL3(l3Id), L4IdOf), Self)
  }

  /** The L5 items of one group, first row per `L5_ID`, in row order (not sorted). */
  function GroupItems(rows: seq<Row>, l3Id: string, g: string): seq<L5Item> {
    Dedup(Candidates(rows, L5InGroup(l3Id, g), L5Of), L5Key)
  }

  /** Nodes laid out as the builder lays them out: L2, L3, the L4 column, then only L5 nodes. */
  predicate Layout(nodes: seq<Node>, l4s: seq<L4Item>) {
    |nodes| >= 2 + |l4s|
    && Prefixed(nodes[0].id, "l2-") && nodes[0].kind == "l2"
    && Prefixed(nodes[1].id, "l3-") && nodes[1].kind == "l3"
    && (forall k :: 0 <= k < |l4s| ==> nodes[2 + k] == L4Node(l4s[k], k))
    && (forall i :: 2 + |l4s| <= i < |nodes| ==> L5Placed(nodes[i]))
  }

  /** Every node but the first has exactly its incoming edge, from a node placed before it. */
  predicate TreeShaped(f: Flow) {
    |f.nodes| == |f.edges| + 1
    && forall i :: 1 <= i < |f.nodes| ==>
         f.edges[i - 1].target == f.nodes[i].id && IsNodeId(f.nodes[..i], f.edges[i - 1].source)
  }

  lemma TreeShapedEndpoints(f: Flow)
    requires TreeShaped(f)
    ensures EndpointsIn(f.edges, f.nodes)
  {
    forall j | 0 <= j < |f.edges| ensures IsNodeId(f.nodes, f.edges[j].source) && IsNodeId(f.nodes, f.edges[j].target) {
      var p :| 0 <= p < j + 1 && f.nodes[..j + 1][p].id == f.edges[j].source;
      assert f.nodes[p].id == f.edges[j].source;
      assert f.nodes[j + 1].id == f.edges[j].target;
    }
  }

  /** The parent lookup `nodes.find((n) => n.id === "l4-" + g)` finds the L4 node of `g`, and
      nothing when the L3 has no L4 with that id. */
  lemma FindParent(nodes: seq<Node>, l4s: seq<L4Item>, g: string)
    requires Layout(nodes, l4s) && DistinctBy(l4s, L4Key)
    ensures !HasKey(l4s, L4Key, g) ==> FindNode(nodes, "l4-" + g).None?
    ensures forall k :: 0 <= k < |l4s| && l4s[k].id == g ==> FindNode(nodes, "l4-" + g) == Some(nodes[2 + k])
  {
    var id := "l4-" + g;
    var r := FindIndex(nodes, id);
    if r.Some? {
      var i := r.value;
      assert nodes[i].id[..3] == id[..3] == "l4-";
      if 2 <= i < 2 + |l4s| {
        var k := i - 2;
        assert nodes[i].id == "l4-" + l4s[k].id;
        assert l4s[k].id == id[3..] == g;
        assert L4Key(l4s[k]) == g;
      }
    } else {
      forall k | 0 <= k < |l4s| ensures l4s[k].id != g {
        assert nodes[2 + k].id == "l4-" + l4s[k].id;
      }
    }
  }

  /** The L5 loop: for each group key, find the parent among the nodes built so far, and append
      the group's nodes and edges; a group without a parent node is skipped. */
  function L5Phase(groups: seq<string>, rows: seq<Row>, l3Id: string, acc: Flow): Flow
    decreases |groups|
  {
    if |groups| == 0 then acc
    else L5Phase(groups[1..], rows, l3Id, L5Step(groups[0], rows, l3Id, acc))
  }

  function L5Step(g: string, rows: seq<Row>, l3Id: string, acc: Flow): Flow {
    var parent := FindNode(acc.nodes, "l4-" + g);
    if parent.None? then acc
    else
      var b := L5Block(GroupItems(rows, l3Id, g), parent.value);
      Flow(acc.nodes + b.nodes, acc.edges + b.edges)
  }

  /** One group: skipped when its L4 is not in the diagram, otherwise its deduplicated L5s are
      appended below that L4 node, `L5Gap` apart. */
  lemma L5StepPlacement(g: string, rows: seq<Row>, l3Id: string, acc: Flow, l4s: seq<L4Item>)
    requires Layout(acc.nodes, l4s) && DistinctBy(l4s, L4Key)
    ensures !HasKey(l4s, L4Key, g) ==> L5Step(g, rows, l3Id, acc) == acc
    ensures forall k :: 0 <= k < |l4s| && l4s[k].id == g ==>
              L5Step(g, rows, l3Id, acc).nodes == acc.nodes + L5Block(GroupItems(rows, l3Id, g), L4Node(l4s[k], k)).nodes
    ensures DistinctBy(GroupItems(rows, l3Id, g), L5Key)
  {
    FindParent(acc.nodes, l4s, g);
  }

  /** A group step keeps the layout and never changes a node already placed. */
  lemma L5StepLayout(g: string, rows: seq<Row>, l3Id: string, acc: Flow, l4s: seq<L4Item>)
    requires Layout(acc.nodes, l4s) && DistinctBy(l4s, L4Key)
    ensures var r := L5Step(g, rows, l3Id, acc);
      |acc.nodes| <= |r.nodes| && r.nodes[..|acc.nodes|] == acc.nodes && Layout(r.nodes, l4s)
  {
    var parent := FindNode(acc.nodes, "l4-" + g);
    if parent.Some? {
      var b := L5Block(GroupItems(rows, l3Id, g), parent.value);
      forall j | 0 <= j < |b.nodes| ensures L5Placed(b.nodes[j]) {
        assert b.nodes[j].id[..3] == "l5-";
      }
      AppendL5Layout(acc.nodes, l4s, b.nodes);
    }
  }

  /** A node placed in the L5 column. */
  predicate L5Placed(n: Node) {
    Prefixed(n.id, "l5-") && n.kind == "l5" && n.x == (StartX + 3 * ColGap) as real
  }

  /** Appending L5 nodes keeps the layout and the nodes already placed. */
  lemma AppendL5Layout(nodes: seq<Node>, l4s: seq<L4Item>, b: seq<Node>)
    requires Layout(nodes, l4s)
    requires forall j :: 0 <= j < |b| ==> L5Placed(b[j])
    ensures (nodes + b)[..|nodes|] == nodes && Layout(nodes + b, l4s)
  {
    var r := nodes + b;
    forall i | 2 + |l4s| <= i < |r| ensures L5Placed(r[i]) {
      if i >= |nodes| {
        assert r[i] == b[i - |nodes|];
      }
    }
    assert r[..|nodes|] == nodes;
  }

  /** A group step keeps the tree shape: each new L5 gets the one edge from its L4 parent. */
  lemma L5StepTree(g: string, rows: seq<Row>, l3Id: string, acc: Flow)
    requires TreeShaped(acc)
    ensures TreeShaped(L5Step(g, rows, l3Id, acc))
  {
    var parent := FindNode(acc.nodes, "l4-" + g);
    if parent.Some? {
      var p := parent.value;
      var b := L5Block(GroupItems(rows, l3Id, g), p);
      assert IsNodeId(acc.nodes, p.id);
      var q :| 0 <= q < |acc.nodes| && acc.nodes[q].id == p.id;
      AppendUnder(acc, b, q);
    }
  }

  /** Appending nodes that each come with one edge from an already placed node keeps the tree
      shape. */
  lemma AppendUnder(acc: Flow, b: Flow, q: int)
    requires TreeShaped(acc) && 0 <= q < |acc.nodes| && |b.nodes| == |b.edges|
    requires forall j :: 0 <= j < |b.edges| ==> b.edges[j].source == acc.nodes[q].id && b.edges[j].target == b.nodes[j].id
    ensures TreeShaped(Flow(acc.nodes + b.nodes, acc.edges + b.edges))
  {
    var r := Flow(acc.nodes + b.nodes, acc.edges + b.edges);
    var n := |acc.nodes|;
    forall i | 1 <= i < |r.nodes|
      ensures r.edges[i - 1].target == r.nodes[i].id && IsNodeId(r.nodes[..i], r.edges[i - 1].source)
    {
      if i < n {
        assert r.nodes[..i] == acc.nodes[..i];
        assert r.edges[i - 1] == acc.edges[i - 1];
      } else {
        assert r.edges[i - 1] == b.edges[i - n];
        assert r.nodes[i] == b.nodes[i - n];
        assert r.nodes[..i][q] == acc.nodes[q];
      }
    }
  }

  /** The loop keeps the layout and the tree shape, and never changes a node already placed. */
  lemma {:induction false} L5PhaseFacts(groups: seq<string>, rows: seq<Row>, l3Id: string, acc: Flow, l4s: seq<L4Item>)
    requires Layout(acc.nodes, l4s) && DistinctBy(l4s, L4Key) && TreeShaped(acc)
    ensures var r := L5Phase(groups, rows, l3Id, acc);
      Layout(r.nodes, l4s) && TreeShaped(r) && |acc.nodes| <= |r.nodes| && r.nodes[..|acc.nodes|] == acc.nodes
    decreases |groups|
  {
    if |groups| > 0 {
      var acc' := L5Step(groups[0], rows, l3Id, acc);
      L5StepLayout(groups[0], rows, l3Id, acc, l4s);
      L5StepTree(groups[0], rows, l3Id, acc);
      L5PhaseFacts(groups[1..], rows, l3Id, acc', l4s);
      var r := L5Phase(groups, rows, l3Id, acc);
      assert r.nodes[..|acc.nodes|] == r.nodes[..|acc'.nodes|][..|acc.nodes|];
    }
  }

  /** Y centring: with at least one L4, the L3 and then the L2 node move to the midpoint of the
      first and last L4 node. */
  function Center(f: Flow, l2NodeId: string, l3NodeId: string, l4Ids: seq<string>): Flow {
    if |l4Ids| == 0 then f
    else
      var firstL4 := FindNode(f.nodes, l4Ids[0]);
      var lastL4 := FindNode(f.nodes, l4Ids[|l4Ids| - 1]);
      if firstL4.None? || lastL4.None? then f
      else
        var midY := (firstL4.value.y + lastL4.value.y) / 2.0;
        Flow(SetY(SetY(f.nodes, l3NodeId, midY), l2NodeId, midY), f.edges)
  }

  /** The nodes and edges before the L5 loop: L2, L3 and the L4 column with their edges. */
  function BaseFlow(first: Row, l4s: seq<L4Item>): Flow {
    var l2n := L2Node(first);
    var l3n := L3Node(first);
    var col := L4Column(l3n.id, l4s);
    Flow([l2n, l3n] + col.nodes, [TreeEdge(l2n.id, l3n.id, "#a62121", 2.5, 20, true)] + col.edges)
  }

  /** `l4Ids`: the ids of the L4 nodes, in the order they were placed. */
  function L4NodeIds(l4s: seq<L4Item>): (r: seq<string>)
    ensures |r| == |l4s| && forall k :: 0 <= k < |l4s| ==> r[k] == "l4-" + l4s[k].id
  {
    Map(L4Column("", l4s).nodes, NodeId)
  }

  /** `buildFlowFromL3(rows, selectedL3Id)`. */
  function BuildFlowFromL3(rows: seq<Row>, l3Id: string): Flow {
    var l3Rows := Candidates(rows, InL3(l3Id), RowSelf);
    if |l3Rows| == 0 then Flow([], [])
    else
      var first := l3Rows[0];
      var l4s := ExtractL4ByL3(rows, l3Id);
      var withL5 := L5Phase(GroupKeys(rows, l3Id), rows, l3Id, BaseFlow(first, l4s));
      Center(withL5, "l2-" + first.l2Id, "l3-" + first.l3Id, L4NodeIds(l4s))
  }

  /** The height the L2 and L3 nodes end at: the midpoint of the first and last L4 of `n`. */
  function CenterY(n: nat): real {
    if n == 0 then StartY as real else (StartY + (n - 1) * RowGap / 2) as real
  }

  /** Centring moves only the L2 and L3 nodes, to the midpoint of the first and last L4. */
  lemma CenterFacts(f: Flow, l4s: seq<L4Item>, l4Ids: seq<string>)
    requires Layout(f.nodes, l4s) && DistinctBy(l4s, L4Key)
    requires f.nodes[0].y == StartY as real && f.nodes[1].y == StartY as real
    requires |l4Ids| == |l4s| && forall k :: 0 <= k < |l4s| ==> l4Ids[k] == "l4-" + l4s[k].id
    ensures var c := Center(f, f.nodes[0].id, f.nodes[1].id, l4Ids);
      && c.edges == f.edges && |c.nodes| == |f.nodes|
      && c.nodes[0] == f.nodes[0].(y := CenterY(|l4s|))
      && c.nodes[1] == f.nodes[1].(y := CenterY(|l4s|))
      && forall i :: 2 <= i < |f.nodes| ==> c.nodes[i] == f.nodes[i]
  {
    var n := |l4s|;
    if n > 0 {
      CenterMid(f, l4s, l4Ids);
      assert f.nodes[0].id[..3] == "l2-" && f.nodes[1].id[..3] == "l3-";
      SetRoots(f.nodes, CenterY(n));
    }
  }

  /** The first and last L4 nodes are found by their ids, and their midpoint is `CenterY`. */
  lemma CenterMid(f: Flow, l4s: seq<L4Item>, l4Ids: seq<string>)
    requires Layout(f.nodes, l4s) && DistinctBy(l4s, L4Key) && |l4s| > 0
    requires |l4Ids| == |l4s| && forall k :: 0 <= k < |l4s| ==> l4Ids[k] == "l4-" + l4s[k].id
    ensures FindNode(f.nodes, l4Ids[0]) == Some(f.nodes[2])
    ensures FindNode(f.nodes, l4Ids[|l4Ids| - 1]) == Some(f.nodes[2 + (|l4s| - 1)])
    ensures (f.nodes[2].y + f.nodes[2 + (|l4s| - 1)].y) / 2.0 == CenterY(|l4s|)
  {
    var n := |l4s|;
    FindParent(f.nodes, l4s, l4s[0].id);
    FindParent(f.nodes, l4s, l4s[n - 1].id);
    assert f.nodes[2].y == StartY as real;
    assert f.nodes[2 + (n - 1)].y == (StartY + (n - 1) * RowGap) as real;
  }

  /** Setting the height of the node with the second id and then of the node with the first id
      moves exactly the first two nodes, when their ids differ. */
  lemma SetRoots(nodes: seq<Node>, y: real)
    requires |nodes| >= 2 && nodes[0].id != nodes[1].id
    ensures var r := SetY(SetY(nodes, nodes[1].id, y), nodes[0].id, y);
      && |r| == |nodes| && r[0] == nodes[0].(y := y) && r[1] == nodes[1].(y := y)
      && forall i :: 2 <= i < |nodes| ==> r[i] == nodes[i]
  {
    assert FirstWithId(nodes, nodes[1].id, 1);
    var s1 := SetY(nodes, nodes[1].id, y);
    assert FirstWithId(s1, nodes[0].id, 0);
    forall i | 2 <= i < |nodes| ensures s1[i] == nodes[i] {
      assert !FirstWithId(nodes, nodes[1].id, i);
    }
  }

  /** A first row for the L3 exists exactly when some row carries the L3 id. */
  lemma L3RowsNonEmpty(rows: seq<Row>, l3Id: string)
    ensures |Candidates(rows, InL3(l3Id), RowSelf)| > 0 <==> exists i :: 0 <= i < |rows| && rows[i].l3Id == l3Id
  {
    if |Candidates(rows, InL3(l3Id), RowSelf)| > 0 {
      CandidatesSound(rows, InL3(l3Id), RowSelf, 0);
    }
    if i :| 0 <= i < |rows| && rows[i].l3Id == l3Id {
      CandidatesComplete(rows, InL3(l3Id), RowSelf, i);
    }
  }

  /** Before the L5 loop the nodes are laid out and form a tree rooted at the L2 node. */
  lemma BaseFlowFacts(first: Row, l4s: seq<L4Item>)
    ensures var base := BaseFlow(first, l4s);
      && Layout(base.nodes, l4s) && TreeShaped(base)
      && base.nodes[0] == L2Node(first) && base.nodes[1] == L3Node(first)
  {
    var l2n := L2Node(first);
    var l3n := L3Node(first);
    var col := L4Column(l3n.id, l4s);
    var base := BaseFlow(first, l4s);
    assert l2n.id[..3] == "l2-" && l3n.id[..3] == "l3-";
    forall k | 0 <= k < |l4s| ensures base.nodes[2 + k] == L4Node(l4s[k], k) {
      assert base.nodes[2 + k] == col.nodes[k];
    }
    forall i | 1 <= i < |base.nodes|
      ensures base.edges[i - 1].target == base.nodes[i].id && IsNodeId(base.nodes[..i], base.edges[i - 1].source)
    {
      if i == 1 {
        assert base.nodes[..i][0] == l2n;
      } else {
        assert base.edges[i - 1] == col.edges[i - 2];
        assert base.nodes[i] == col.nodes[i - 2];
        assert base.nodes[..i][1] == l3n;
      }
    }
  }

  /** Moving nodes vertically keeps the tree shape: ids and edges are unchanged. */
  lemma SameIdsTreeShaped(f: Flow, g: Flow)
    requires TreeShaped(f) && g.edges == f.edges && |g.nodes| == |f.nodes|
    requires forall i :: 0 <= i < |f.nodes| ==> g.nodes[i].id == f.nodes[i].id
    ensures TreeShaped(g)
  {
    forall i | 1 <= i < |g.nodes|
      ensures g.edges[i - 1].target == g.nodes[i].id && IsNodeId(g.nodes[..i], g.edges[i - 1].source)
    {
      var p :| 0 <= p < i && f.nodes[..i][p].id == f.edges[i - 1].source;
      assert g.nodes[..i][p].id == f.nodes[p].id;
    }
  }

  /** The assembled diagram for a first row, an L4 list with distinct ids and any group keys. */
  predicate Shaped(f: Flow, l4s: seq<L4Item>) {
    && Layout(f.nodes, l4s)
    && TreeShaped(f)
    && EndpointsIn(f.edges, f.nodes)
    && |f.edges| == 1 + |l4s| + (|f.nodes| - 2 - |l4s|)
    && f.nodes[0].y == CenterY(|l4s|) && f.nodes[1].y == CenterY(|l4s|)
    && f.nodes[0].x == StartX as real && f.nodes[1].x == (StartX + ColGap) as real
  }

  lemma AssembleShape(first: Row, l4s: seq<L4Item>, groups: seq<string>, rows: seq<Row>, l3Id: string)
    requires DistinctBy(l4s, L4Key)
    ensures Shaped(Center(L5Phase(groups, rows, l3Id, BaseFlow(first, l4s)),
                          "l2-" + first.l2Id, "l3-" + first.l3Id, L4NodeIds(l4s)), l4s)
  {
    var base := BaseFlow(first, l4s);
    BaseFlowFacts(first, l4s);
    var withL5 := L5Phase(groups, rows, l3Id, base);
    L5PhaseFacts(groups, rows, l3Id, base, l4s);
    assert withL5.nodes[0] == L2Node(first) && withL5.nodes[1] == L3Node(first) by {
      assert withL5.nodes[..|base.nodes|][0] == base.nodes[0];
      assert withL5.nodes[..|base.nodes|][1] == base.nodes[1];
    }
    CenterFacts(withL5, l4s, L4NodeIds(l4s));
    var f := Center(withL5, "l2-" + first.l2Id, "l3-" + first.l3Id, L4NodeIds(l4s));
    CenterKeepsShape(withL5, f, l4s);
  }

  lemma CenterKeepsShape(withL5: Flow, f: Flow, l4s: seq<L4Item>)
    requires Layout(withL5.nodes, l4s) && TreeShaped(withL5)
    requires f.edges == withL5.edges && |f.nodes| == |withL5.nodes|
    requires f.nodes[0] == withL5.nodes[0].(y := CenterY(|l4s|))
    requires f.nodes[1] == withL5.nodes[1].(y := CenterY(|l4s|))
    requires forall i :: 2 <= i < |f.nodes| ==> f.nodes[i] == withL5.nodes[i]
    requires withL5.nodes[0].x == StartX as real && withL5.nodes[1].x == (StartX + ColGap) as real
    ensures Shaped(f, l4s)
  {
    forall k | 0 <= k < |l4s| ensures f.nodes[2 + k] == L4Node(l4s[k], k) {
      assert f.nodes[2 + k] == withL5.nodes[2 + k];
    }
    assert Layout(f.nodes, l4s);
    SameIdsTreeShaped(withL5, f);
    TreeShapedEndpoints(f);
  }

  /** The diagram of an L3 that has rows: an L2 node, an L3 node, one L4 node per distinct
      non-empty L4 id in numeric id order at x=700 and y=60+90k, then only L5 nodes at x=1020;
      every node but the L2 has exactly one incoming edge, from a node placed before it, so
      there is one edge fewer than nodes and every edge joins two nodes; and the L2 and L3
      nodes sit at the midpoint of the first and last L4, or at y=60 when there is none. */
  lemma BuildFlowShape(rows: seq<Row>, l3Id: string)
    requires exists i :: 0 <= i < |rows| && rows[i].l3Id == l3Id
    ensures Shaped(BuildFlowFromL3(rows, l3Id), ExtractL4ByL3(rows, l3Id))
  {
    L3RowsNonEmpty(rows, l3Id);
    var first := Candidates(rows, InL3(l3Id), RowSelf)[0];
    AssembleShape(first, ExtractL4ByL3(rows, l3Id), GroupKeys(rows, l3Id), rows, l3Id);
  }

  /** With no row for the L3 the diagram is empty, and otherwise it is not. */
  lemma BuildFlowEmpty(rows: seq<Row>, l3Id: string)
    ensures BuildFlowFromL3(rows, l3Id) == Flow([], []) <==> forall i :: 0 <= i < |rows| ==> rows[i].l3Id != l3Id
  {
    L3RowsNonEmpty(rows, l3Id);
    if exists i :: 0 <= i < |rows| && rows[i].l3Id == l3Id {
      BuildFlowShape(rows, l3Id);
    }
  }
}

=== FILE: graph.dfy ===
/** The React Flow records the application passes around: nodes with a position and a data
    record, and edges with optional styling. Only the fields the application reads or writes are
    kept; positions are exact reals. */
module Graph {
  import opened Common

  /** A value in a node's or edge's free-form `data` record. */
  datatype Value = Str(s: string) | Flag(b: bool)

  type Data = map<string, Value>

  datatype Node = Node(id: string, kind: string, x: real, y: real, data: Data)

  datatype Style = Style(stroke: Option<string>, strokeWidth: Option<real>)

  /** An edge marker: the `{ type: ArrowClosed, width, height, color }` object, or a marker
      given by name (React Flow also accepts a plain string there). */
  datatype Marker = ArrowClosed(width: nat, height: nat, color: string) | Named(name: string)

  datatype Edge = Edge(
    id: string, source: string, target: string,
    kind: Option<string>, animated: Option<bool>, style: Option<Style>,
    markerStart: Option<Marker>, markerEnd: Option<Marker>,
    edgeLabel: Option<string>, data: Option<Data>)

  /** JavaScript truthiness of an optional string: absent and "" are both falsy. */
  predicate StrTruthy(s: Option<string>) {
    s.Some? && s.value != ""
  }

  /** JavaScript truthiness of an optional marker: the empty marker name is falsy. */
  predicate MarkerTruthy(m: Option<Marker>) {
    m.Some? && m.value != Named("")
  }

  /** `(e.style as Record<string, unknown>)?.stroke`, absent when there is no style. */
  function StrokeOf(e: Edge): Option<string> {
    if e.style.Some? then e.style.value.stroke else None
  }

  /** Some node carries this id. */
  predicate IsNodeId(nodes: seq<Node>, id: string) {
    exists i :: 0 <= i < |nodes| && nodes[i].id == id
  }

  /** Index of the first node with this id. */
  function FindIndex(nodes: seq<Node>, id: string): (r: Option<nat>)
    ensures r.None? <==> !IsNodeId(nodes, id)
    ensures r.Some? ==> r.value < |nodes| && nodes[r.value].id == id
                        && forall i :: 0 <= i < r.value ==> nodes[i].id != id
    decreases |nodes|
  {
    if |nodes| == 0 then None
    else if nodes[0].id == id then Some(0)
    else
      var r := FindIndex(nodes[1..], id);
      assert forall i :: 1 <= i < |nodes| ==> nodes[i] == nodes[1..][i - 1];
      if r.None? then None else Some(r.value + 1)
  }

  /** `nodes.find((n) => n.id === id)`: the first node with that id. */
  function FindNode(nodes: seq<Node>, id: string): (r: Option<Node>)
    ensures r.None? <==> !IsNodeId(nodes, id)
    ensures r.Some? ==> r.value.id == id
  {
    var i := FindIndex(nodes, id);
    if i.None? then None else Some(nodes[i.value])
  }

  /** `nodes[i]` is the first node carrying `id`. */
  predicate FirstWithId(nodes: seq<Node>, id: string, i: int) {
    0 <= i < |nodes| && nodes[i].id == id && forall i' :: 0 <= i' < i ==> nodes[i'].id != id
  }

  /** Moves the first node with this id to height `y` (the code mutates the object `find` returned). */
  function SetY(nodes: seq<Node>, id: string, y: real): (r: seq<Node>)
    ensures |r| == |nodes|
    ensures forall i :: 0 <= i < |r| ==> r[i] == if FirstWithId(nodes, id, i) then nodes[i].(y := y) else nodes[i]
  {
    var i := FindIndex(nodes, id);
    if i.None? then nodes else nodes[i.value := nodes[i.value].(y := y)]
  }

  /** Every edge joins two ids of the given nodes. */
  predicate EndpointsIn(edges: seq<Edge>, nodes: seq<Node>) {
    forall j :: 0 <= j < |edges| ==> IsNodeId(nodes, edges[j].source) && IsNodeId(nodes, edges[j].target)
  }
}

=== FILE: hierarchy.dfy ===
/** The four-level hierarchy read from the CSV records, and the deduplicating level extractors
    `extractL2List`, `extractL3ByL2`, `extractL4ByL3`, `extractL5ByL4`: each keeps the rows that
    match its filter, keeps the first row seen for every id (a JavaScript `Map` keyed by id, which
    remembers insertion order), and sorts the result by id with the numeric collation. */
module Hierarchy {
  import opened Common
  import opened Sorting
  import opened Collation

  /** One CSV record, reduced to the ten columns the application reads. */
  datatype Row = Row(
    l2Id: string, l2Name: string,
    l3Id: string, l3Name: string,
    l4Id: string, l4Name: string, l4Description: string,
    l5Id: string, l5Name: string, l5Description: string)

  /** A column of a parsed record; a column the header line did not name reads as "". */
  function Column(record: map<string, string>, name: string): string {
    if name in record then record[name] else ""
  }

  /** The `CsvRow` view of a parsed record. */
  function RowOf(record: map<string, string>): Row {
    Row(Column(record, "L2_ID"), Column(record, "두산 L2"),
        Column(record, "L3_ID"), Column(record, "L3_Name"),
        Column(record, "L4_ID"), Column(record, "L4_Name"), Column(record, "L4_Description"),
        Column(record, "L5_ID"), Column(record, "L5_Name"), Column(record, "L5_Description"))
  }

  datatype L2Item = L2Item(id: string, name: string)
  datatype L3Item = L3Item(id: string, name: string, l2Id: string, l2Name: string)
  datatype L4Item = L4Item(id: string, name: string, description: string, l3Id: string)
  datatype L5Item = L5Item(id: string, name: string, description: string, l4Id: string)

  /** `y` is an element of `xs` and no earlier element of `xs` has its key. */
  ghost predicate FirstOccurrence<T>(xs: seq<T>, key: T -> string, y: T) {
    exists k :: 0 <= k < |xs| && xs[k] == y && NoKeyBefore(xs, key, key(y), k)
  }

  predicate NoKeyBefore<T>(xs: seq<T>, key: T -> string, id: string, k: int)
    requires k <= |xs|
  {
    forall k' :: 0 <= k' < k ==> key(xs[k']) != id
  }

  predicate HasKey<T>(xs: seq<T>, key: T -> string, id: string) {
    exists j :: 0 <= j < |xs| && key(xs[j]) == id
  }

  /** The first element for every key, in order of first appearance. */
  function Dedup<T>(xs: seq<T>, key: T -> string): (r: seq<T>)
    ensures DistinctBy(r, key)
    ensures forall j :: 0 <= j < |r| ==> FirstOccurrence(xs, key, r[j])
    ensures forall k :: 0 <= k < |xs| ==> HasKey(r, key, key(xs[k]))
    decreases |xs|
  {
    if |xs| == 0 then []
    else
      var n := |xs| - 1;
      var d := Dedup(xs[..n], key);
      DedupKeep(xs, key, d, n);
      if HasKey(d, key, key(xs[n])) then d
      else
        DedupGrow(xs, key, d, xs[n]);
        d + [xs[n]]
  }

  /** What was kept from all but the last element stays first in, and covers, that prefix of
      the whole sequence. */
  lemma DedupKeep<T>(xs: seq<T>, key: T -> string, d: seq<T>, n: nat)
    requires n < |xs|
    requires forall j :: 0 <= j < |d| ==> FirstOccurrence(xs[..n], key, d[j])
    requires forall k :: 0 <= k < n ==> HasKey(d, key, key(xs[..n][k]))
    ensures forall j :: 0 <= j < |d| ==> FirstOccurrence(xs, key, d[j])
    ensures forall k :: 0 <= k < n ==> HasKey(d, key, key(xs[k]))
  {
    forall j | 0 <= j < |d| ensures FirstOccurrence(xs, key, d[j]) {
      var k :| 0 <= k < n && xs[..n][k] == d[j] && NoKeyBefore(xs[..n], key, key(d[j]), k);
      assert xs[k] == d[j] && NoKeyBefore(xs, key, key(d[j]), k);
    }
    forall k | 0 <= k < n ensures HasKey(d, key, key(xs[k])) {
      assert xs[..n][k] == xs[k];
    }
  }

  /** A last element with a new key is kept, after the others. */
  lemma DedupGrow<T>(xs: seq<T>, key: T -> string, d: seq<T>, x: T)
    requires |xs| > 0 && x == xs[|xs| - 1] && DistinctBy(d, key)
    requires forall j :: 0 <= j < |d| ==> FirstOccurrence(xs, key, d[j])
    requires forall k :: 0 <= k < |xs| - 1 ==> HasKey(d, key, key(xs[k]))
    requires !HasKey(d, key, key(x))
    ensures DistinctBy(d + [x], key)
    ensures forall j :: 0 <= j < |d + [x]| ==> FirstOccurrence(xs, key, (d + [x])[j])
    ensures forall k :: 0 <= k < |xs| ==> HasKey(d + [x], key, key(xs[k]))
  {
    var n := |xs| - 1;
    var r := d + [x];
    assert NoKeyBefore(xs, key, key(x), n) by {
      forall k' | 0 <= k' < n ensures key(xs[k']) != key(x) {
        assert HasKey(d, key, key(xs[k']));
      }
    }
    forall j | 0 <= j < |r| ensures FirstOccurrence(xs, key, r[j]) {
      if j < |d| {
        assert r[j] == d[j];
      } else {
        assert r[j] == xs[n];
      }
    }
    forall k | 0 <= k < |xs| ensures HasKey(r, key, key(xs[k])) {
      if k < n {
        var j :| 0 <= j < |d| && key(d[j]) == key(xs[k]);
        assert r[j] == d[j];
      } else {
        assert r[|d|] == x;
      }
    }
  }

  /** Adjacent ids are in numeric-collation order. */
  predicate SortedById<T>(r: seq<T>, id: T -> string) {
    forall i :: 0 < i < |r| ==> NumericLe(id(r[i - 1]), id(r[i]))
  }

  /** Deduplicate by id, then sort by id with the numeric collation. */
  function Extract<T(!new)>(candidates: seq<T>, id: T -> string): (r: seq<T>)
    ensures DistinctBy(r, id)
    ensures forall j :: 0 <= j < |r| ==> FirstOccurrence(candidates, id, r[j])
    ensures forall k :: 0 <= k < |candidates| ==> HasKey(r, id, id(candidates[k]))
    ensures SortedById(r, id)
  {
    var d := Dedup(candidates, id);
    var le := (a: T, b: T) => NumericLe(id(a), id(b));
    var r := Sort(d, le);
    SortKeepsDistinctBy(d, le, id);
    NumericLeTotalPreorder();
    SortSorted(d, le);
    assert forall i :: 0 < i < |r| ==> le(r[i - 1], r[i]);
    ReorderKeeps(candidates, id, d, r);
    r
  }

  /** A reordering of the deduplicated elements still holds first occurrences covering every key. */
  lemma ReorderKeeps<T>(candidates: seq<T>, id: T -> string, d: seq<T>, r: seq<T>)
    requires multiset(r) == multiset(d)
    requires forall j :: 0 <= j < |d| ==> FirstOccurrence(candidates, id, d[j])
    requires forall k :: 0 <= k < |candidates| ==> HasKey(d, id, id(candidates[k]))
    ensures forall j :: 0 <= j < |r| ==> FirstOccurrence(candidates, id, r[j])
    ensures forall k :: 0 <= k < |candidates| ==> HasKey(r, id, id(candidates[k]))
  {
    forall j | 0 <= j < |r| ensures FirstOccurrence(candidates, id, r[j]) {
      assert r[j] in multiset(d);
      var i :| 0 <= i < |d| && d[i] == r[j];
    }
    forall k | 0 <= k < |candidates| ensures HasKey(r, id, id(candidates[k])) {
      var i :| 0 <= i < |d| && id(d[i]) == id(candidates[k]);
      assert d[i] in multiset(r);
      var j :| 0 <= j < |r| && r[j] == d[i];
    }
  }

  function L2Key(it: L2Item): string { it.id }
  function L3Key(it: L3Item): string { it.id }
  function L4Key(it: L4Item): string { it.id }
  function L5Key(it: L5Item): string { it.id }

  function L2Of(r: Row): L2Item { L2Item(r.l2Id, r.l2Name) }
  function L3Of(r: Row): L3Item { L3Item(r.l3Id, r.l3Name, r.l2Id, r.l2Name) }
  function L4Of(r: Row): L4Item { L4Item(r.l4Id, r.l4Name, r.l4Description, r.l3Id) }
  function L5Of(r: Row): L5Item { L5Item(r.l5Id, r.l5Name, r.l5Description, r.l4Id) }

  /** Which rows an extractor reads. */
  datatype RowFilter =
    | AnyRow                     // extractL2List
    | UnderL2(l2Id: string)      // extractL3ByL2: `r.L2_ID === l2Id`
    | L4Under(l3Id: string)      // extractL4ByL3: `r.L3_ID === l3Id && r.L4_ID`
    | L5Under(l4Id: string)      // extractL5ByL4: `r.L4_ID === l4Id && r.L5_ID`
    | InL3(l3Id: string)         // buildFlowFromL3: `r.L3_ID === selectedL3Id`
    | L5InL3(l3Id: string)       // buildFlowFromL3, L5 grouping: a row of the L3 with an `L5_ID`
    | L5InGroup(l3Id: string, l4Id: string)  // ... and in the group of one `L4_ID`

  predicate Matches(flt: RowFilter, r: Row) {
    match flt
    case AnyRow => true
    case UnderL2(id) => r.l2Id == id
    case L4Under(id) => r.l3Id == id && r.l4Id != ""
    case L5Under(id) => r.l4Id == id && r.l5Id != ""
    case InL3(id) => r.l3Id == id
    case L5InL3(id) => r.l3Id == id && r.l5Id != ""
    case L5InGroup(id, g) => r.l3Id == id && r.l5Id != "" && r.l4Id == g
  }

  /** The items the extractor's loop offers to its map, in row order. */
  function Candidates<T>(rows: seq<Row>, flt: RowFilter, f: Row -> T): seq<T>
    decreases |rows|
  {
    if |rows| == 0 then []
    else if Matches(flt, rows[0]) then [f(rows[0])] + Candidates(rows[1..], flt, f)
    else Candidates(rows[1..], flt, f)
  }

  /** Every candidate is built from a matching row. */
  lemma {:induction false} CandidatesSound<T>(rows: seq<Row>, flt: RowFilter, f: Row -> T, k: int)
    requires 0 <= k < |Candidates(rows, flt, f)|
    ensures exists i :: 0 <= i < |rows| && Matches(flt, rows[i]) && Candidates(rows, flt, f)[k] == f(rows[i])
    decreases |rows|
  {
    var rest := Candidates(rows[1..], flt, f);
    if Matches(flt, rows[0]) && k == 0 {
      assert Matches(flt, rows[0]);
    } else {
      var k' := if Matches(flt, rows[0]) then k - 1 else k;
      assert Candidates(rows, flt, f)[k] == rest[k'];
      CandidatesSound(rows[1..], flt, f, k');
      var i :| 0 <= i < |rows[1..]| && Matches(flt, rows[1..][i]) && rest[k'] == f(rows[1..][i]);
      assert rows[i + 1] == rows[1..][i];
    }
  }

  /** Every matching row offers a candidate. */
  lemma {:induction false} CandidatesComplete<T>(rows: seq<Row>, flt: RowFilter, f: Row -> T, i: int)
    requires 0 <= i < |rows| && Matches(flt, rows[i])
    ensures exists k :: 0 <= k < |Candidates(rows, flt, f)| && Candidates(rows, flt, f)[k] == f(rows[i])
    decreases |rows|
  {
    var c := Candidates(rows, flt, f);
    if i == 0 {
      assert c[0] == f(rows[0]);
    } else {
      var rest := Candidates(rows[1..], flt, f);
      assert rows[1..][i - 1] == rows[i];
      CandidatesComplete(rows[1..], flt, f, i - 1);
      var k :| 0 <= k < |rest| && rest[k] == f(rows[i]);
      if Matches(flt, rows[0]) {
        assert c[k + 1] == rest[k];
      } else {
        assert c[k] == rest[k];
      }
    }
  }

  /** Every matching row's id is the id of some extracted item. */
  lemma ExtractComplete<T(!new)>(rows: seq<Row>, flt: RowFilter, f: Row -> T, key: T -> string, i: int)
    requires 0 <= i < |rows| && Matches(flt, rows[i])
    ensures HasKey(Extract(Candidates(rows, flt, f), key), key, key(f(rows[i])))
  {
    var c := Candidates(rows, flt, f);
    CandidatesComplete(rows, flt, f, i);
    var k :| 0 <= k < |c| && c[k] == f(rows[i]);
    assert HasKey(Extract(c, key), key, key(c[k]));
  }

  /** Every extracted item is built from a matching row. */
  lemma ExtractSound<T(!new)>(rows: seq<Row>, flt: RowFilter, f: Row -> T, key: T -> string, j: int)
    requires 0 <= j < |Extract(Candidates(rows, flt, f), key)|
    ensures exists i :: 0 <= i < |rows| && Matches(flt, rows[i]) && Extract(Candidates(rows, flt, f), key)[j] == f(rows[i])
  {
    var c := Candidates(rows, flt, f);
    var r := Extract(c, key);
    assert FirstOccurrence(c, key, r[j]);
    var k :| 0 <= k < |c| && c[k] == r[j] && NoKeyBefore(c, key, key(r[j]), k);
    CandidatesSound(rows, flt, f, k);
  }

  /** `extractL2List(rows)`. */
  function ExtractL2List(rows: seq<Row>): (r: seq<L2Item>)
    ensures DistinctBy(r, L2Key)
    ensures forall j :: 0 <= j < |r| ==> FirstOccurrence(Candidates(rows, AnyRow, L2Of), L2Key, r[j])
    ensures forall i :: 0 <= i < |rows| ==> HasKey(r, L2Key, rows[i].l2Id)
    ensures SortedById(r, L2Key)
  {
    var r := Extract(Candidates(rows, AnyRow, L2Of), L2Key);
    forall i | 0 <= i < |rows| ensures HasKey(r, L2Key, rows[i].l2Id) {
      ExtractComplete(rows, AnyRow, L2Of, L2Key, i);
    }
    r
  }

  /** `extractL3ByL2(rows, l2Id)`. */
  function ExtractL3ByL2(rows: seq<Row>, l2Id: string): (r: seq<L3Item>)
    ensures DistinctBy(r, L3Key)
    ensures forall j :: 0 <= j < |r| ==> r[j].l2Id == l2Id
    ensures forall j :: 0 <= j < |r| ==> FirstOccurrence(Candidates(rows, UnderL2(l2Id), L3Of), L3Key, r[j])
    ensures forall i :: 0 <= i < |rows| && rows[i].l2Id == l2Id ==> HasKey(r, L3Key, rows[i].l3Id)
    ensures SortedById(r, L3Key)
  {
    var r := Extract(Candidates(rows, UnderL2(l2Id), L3Of), L3Key);
    forall i | 0 <= i < |rows| && rows[i].l2Id == l2Id ensures HasKey(r, L3Key, rows[i].l3Id) {
      ExtractComplete(rows, UnderL2(l2Id), L3Of, L3Key, i);
    }
    forall j | 0 <= j < |r| ensures r[j].l2Id == l2Id {
      ExtractSound(rows, UnderL2(l2Id), L3Of, L3Key, j);
    }
    r
  }

  /** `extractL4ByL3(rows, l3Id)`. */
  function ExtractL4ByL3(rows: seq<Row>, l3Id: string): (r: seq<L4Item>)
    ensures DistinctBy(r, L4Key)
    ensures forall j :: 0 <= j < |r| ==> r[j].id != "" && r[j].l3Id == l3Id
    ensures forall j :: 0 <= j < |r| ==> FirstOccurrence(Candidates(rows, L4Under(l3Id), L4Of), L4Key, r[j])
    ensures forall i :: 0 <= i < |rows| && rows[i].l3Id == l3Id && rows[i].l4Id != "" ==> HasKey(r, L4Key, rows[i].l4Id)
    ensures SortedById(r, L4Key)
  {
    var r := Extract(Candidates(rows, L4Under(l3Id), L4Of), L4Key);
    forall i | 0 <= i < |rows| && rows[i].l3Id == l3Id && rows[i].l4Id != "" ensures HasKey(r, L4Key, rows[i].l4Id) {
      ExtractComplete(rows, L4Under(l3Id), L4Of, L4Key, i);
    }
    forall j | 0 <= j < |r| ensures r[j].id != "" && r[j].l3Id == l3Id {
      ExtractSound(rows, L4Under(l3Id), L4Of, L4Key, j);
    }
    r
  }

  /** `extractL5ByL4(rows, l4Id)`. */
  function ExtractL5ByL4(rows: seq<Row>, l4Id: string): (r: seq<L5Item>)
    ensures DistinctBy(r, L5Key)
    ensures forall j :: 0 <= j < |r| ==> r[j].id != "" && r[j].l4Id == l4Id
    ensures forall j :: 0 <= j < |r| ==> FirstOccurrence(Candidates(rows, L5Under(l4Id), L5Of), L5Key, r[j])
    ensures forall i :: 0 <= i < |rows| && rows[i].l4Id == l4Id && rows[i].l5Id != "" ==> HasKey(r, L5Key, rows[i].l5Id)
    ensures SortedById(r, L5Key)
  {
    var r := Extract(Candidates(rows, L5Under(l4Id), L5Of), L5Key);
    forall i | 0 <= i < |rows| && rows[i].l4Id == l4Id && rows[i].l5Id != "" ensures HasKey(r, L5Key, rows[i].l5Id) {
      ExtractComplete(rows, L5Under(l4Id), L5Of, L5Key, i);
    }
    forall j | 0 <= j < |r| ensures r[j].id != "" && r[j].l4Id == l4Id {
      ExtractSound(rows, L5Under(l4Id), L5Of, L5Key, j);
    }
    r
  }
}

=== FILE: markers.dfy ===
/** Edge defaults. A workflow the chat assistant returns may leave out an edge's type, style or
    end marker; before applying it every edge is given the ones a hand-drawn connection has: a
    smooth-step path, a 2.5-wide stroke in the brand colour and a closed arrow at the end. */
module Markers {
  import opened Common
  import opened Graph

  const DefaultColor: string := "#d95578"
  const DefaultStyle: Style := Style(Some(DefaultColor), Some(2.5))

  /** The end arrow added to an edge without one, coloured by the edge's stroke when it has one. */
  function DefaultMarker(e: Edge): (m: Marker)
    ensures m.ArrowClosed? && m.width == 20 && m.height == 20 && m.color != ""
    ensures m.color == if StrTruthy(StrokeOf(e)) then StrokeOf(e).value else DefaultColor
  {
    ArrowClosed(20, 20, if StrTruthy(StrokeOf(e)) then StrokeOf(e).value else DefaultColor)
  }

  /** One edge with its missing (falsy) type, style and end marker filled in. The marker colour
      is read from the style the edge came with, before the default style is filled in. */
  function Complete(e: Edge): (r: Edge)
    ensures r.kind == if StrTruthy(e.kind) then e.kind else Some("smoothstep")
    ensures r.style == if e.style.Some? then e.style else Some(DefaultStyle)
    ensures r.markerEnd == if MarkerTruthy(e.markerEnd) then e.markerEnd else Some(DefaultMarker(e))
    ensures r.(kind := e.kind, style := e.style, markerEnd := e.markerEnd) == e
  {
    e.(kind := if StrTruthy(e.kind) then e.kind else Some("smoothstep"),
       style := if e.style.Some? then e.style else Some(DefaultStyle),
       markerEnd := if MarkerTruthy(e.markerEnd) then e.markerEnd else Some(DefaultMarker(e)))
  }

  /** The edge already has a truthy type, a style and a truthy end marker. */
  predicate Styled(e: Edge) {
    StrTruthy(e.kind) && e.style.Some? && MarkerTruthy(e.markerEnd)
  }

  /** Completing gives a styled edge, and leaves an edge alone exactly when it is already styled. */
  lemma CompleteStyles(e: Edge)
    ensures Styled(Complete(e))
    ensures Complete(e) == e <==> Styled(e)
  {
  }

  /** `ensureArrowMarkers`: every edge completed, in order. */
  function EnsureArrowMarkers(edges: seq<Edge>): (r: seq<Edge>)
    ensures |r| == |edges|
    ensures forall j :: 0 <= j < |r| ==> r[j] == Complete(edges[j])
  {
    Map(edges, Complete)
  }

  /** Every returned edge is styled, a second pass changes nothing, and a list that is already
      styled comes back as it was. */
  lemma EnsureArrowMarkersFacts(edges: seq<Edge>)
    ensures forall j :: 0 <= j < |edges| ==> Styled(EnsureArrowMarkers(edges)[j])
    ensures EnsureArrowMarkers(EnsureArrowMarkers(edges)) == EnsureArrowMarkers(edges)
    ensures (forall j :: 0 <= j < |edges| ==> Styled(edges[j])) ==> EnsureArrowMarkers(edges) == edges
  {
    var once := EnsureArrowMarkers(edges);
    forall j | 0 <= j < |edges| ensures Styled(once[j]) && Complete(once[j]) == once[j] {
      CompleteStyles(edges[j]);
      CompleteStyles(once[j]);
    }
    if forall j :: 0 <= j < |edges| ==> Styled(edges[j]) {
      forall j | 0 <= j < |edges| ensures once[j] == edges[j] {
        CompleteStyles(edges[j]);
      }
    }
  }

  /** `onConnect`: the edge a drag between two handles creates. */
  function Connect(id: string, source: string, target: string): (e: Edge)
    ensures e.id == id && e.source == source && e.target == target
    ensures e.animated == Some(true) && e.markerStart.None?
  {
    Edge(id, source, target, Some("smoothstep"), Some(true), Some(DefaultStyle),
         None, Some(ArrowClosed(20, 20, DefaultColor)), None, None)
  }

  /** A drawn connection already has the defaults the chat workflow is given: completing it
      changes nothing. */
  lemma ConnectIsComplete(id: string, source: string, target: string)
    ensures Styled(Connect(id, source, target))
    ensures Complete(Connect(id, source, target)) == Connect(id, source, target)
  {
    CompleteStyles(Connect(id, source, target));
  }
}

=== FILE: nodefactory.dfy ===
/** `createNodeFromItem`: a node for a dragged or clicked hierarchy item. The module-global
    `dropCounter` is an explicit parameter here: each call takes the counter and returns it
    incremented, and the new value ends the node id `level-itemId-counter`. */
module NodeFactory {
  import opened Common
  import opened Text
  import opened Graph

  datatype Level = L2 | L3 | L4 | L5

  /** The lower-case key used as node type and id prefix. */
  function Key(l: Level): string {
    match l
    case L2 => "l2"
    case L3 => "l3"
    case L4 => "l4"
    case L5 => "l5"
  }

  /** The level label shown on the node. */
  function Label(l: Level): string {
    match l
    case L2 => "L2"
    case L3 => "L3"
    case L4 => "L4"
    case L5 => "L5"
  }

  /** The `{ id, name, description? }` item handed to the factory. */
  datatype Item = Item(id: string, name: string, description: Option<string>)

  /** The text after the last `sep` (all of `s` when there is none). */
  function AfterLast(s: string, sep: char): (r: string)
    ensures sep !in r
    ensures |r| <= |s| && r == s[|s| - |r|..]
    ensures |r| < |s| ==> s[|s| - |r| - 1] == sep
    decreases |s|
  {
    if |s| == 0 then ""
    else if s[|s| - 1] == sep then ""
    else
      var r := AfterLast(s[..|s| - 1], sep);
      SuffixSnoc(s, r);
      r + [s[|s| - 1]]
  }

  /** A suffix of `s` without its last character, extended by that character, is a suffix of `s`. */
  lemma SuffixSnoc(s: string, r: string)
    requires |s| > 0 && |r| < |s| && r == s[..|s| - 1][|s| - 1 - |r|..]
    ensures r + [s[|s| - 1]] == s[|s| - |r| - 1..]
  {
    assert forall k :: 0 <= k < |r| ==> r[k] == s[|s| - 1 - |r| + k];
  }

  /** The tail after a final separator is read back exactly. */
  lemma {:induction false} AfterLastAppend(p: string, sep: char, t: string)
    requires sep !in t
    ensures AfterLast(p + [sep] + t, sep) == t
    decreases |t|
  {
    var s := p + [sep] + t;
    if |t| > 0 {
      var t' := t[..|t| - 1];
      assert sep !in t' by { assert forall k :: 0 <= k < |t'| ==> t'[k] == t[k]; }
      assert s[..|s| - 1] == p + [sep] + t';
      assert s[|s| - 1] == t[|t| - 1];
      AfterLastAppend(p, sep, t');
      assert t' + [t[|t| - 1]] == t;
    }
  }

  /** The node, and the counter after the call (`dropCounter++` happens before the id is built). */
  function CreateNode(level: Level, item: Item, x: real, y: real, counter: nat): (r: (Node, nat))
    ensures r.1 == counter + 1
    ensures r.0.id == Key(level) + "-" + item.id + "-" + NatToString(counter + 1)
    ensures r.0.kind == Key(level) && r.0.x == x && r.0.y == y
    ensures r.0.data.Keys == {"label", "level", "id", "description"}
    ensures r.0.data["label"] == Str(item.name) && r.0.data["id"] == Str(item.id)
    ensures r.0.data["level"] == Str(Label(level))
    ensures r.0.data["description"] == Str(item.description.GetOr(""))
  {
    var c := counter + 1;
    var id := Key(level) + "-" + item.id + "-" + NatToString(c);
    var data := map["label" := Str(item.name), "level" := Str(ToUpper(Key(level))),
                     "id" := Str(item.id), "description" := Str(item.description.GetOr(""))];
    assert ToUpper(Key(level)) == Label(level);
    (Node(id, Key(level), x, y, data), c)
  }

  /** The id ends in the new counter value, readable back from the text after its last '-'. */
  lemma IdEndsWithCounter(level: Level, item: Item, x: real, y: real, counter: nat)
    ensures AfterLast(CreateNode(level, item, x, y, counter).0.id, '-') == NatToString(counter + 1)
    ensures DigitsValue(AfterLast(CreateNode(level, item, x, y, counter).0.id, '-')) == counter + 1
  {
    var n := NatToString(counter + 1);
    assert '-' !in n by { assert forall k :: 0 <= k < |n| ==> IsDigit(n[k]); }
    AfterLastAppend(Key(level) + "-" + item.id, '-', n);
    NatToStringRoundTrip(counter + 1);
  }

  /** Calls made with different counters never return the same id, whatever the items. */
  lemma DifferentCountersDifferentIds(l1: Level, i1: Item, x1: real, y1: real, c1: nat,
                                      l2: Level, i2: Item, x2: real, y2: real, c2: nat)
    requires c1 != c2
    ensures CreateNode(l1, i1, x1, y1, c1).0.id != CreateNode(l2, i2, x2, y2, c2).0.id
  {
    IdEndsWithCounter(l1, i1, x1, y1, c1);
    IdEndsWithCounter(l2, i2, x2, y2, c2);
  }

  /** One drop request: level, item and drop position. */
  datatype Drop = Drop(level: Level, item: Item, x: real, y: real)

  /** A run of successive `createNodeFromItem` calls threading the counter. */
  function CreateAll(drops: seq<Drop>, counter: nat): (r: (seq<Node>, nat))
    ensures |r.0| == |drops| && r.1 == counter + |drops|
    ensures forall i :: 0 <= i < |drops| ==> r.0[i] == CreateNode(drops[i].level, drops[i].item, drops[i].x, drops[i].y, counter + i).0
    decreases |drops|
  {
    if |drops| == 0 then ([], counter)
    else
      var d := drops[0];
      var first := CreateNode(d.level, d.item, d.x, d.y, counter);
      var rest := CreateAll(drops[1..], first.1);
      assert forall i :: 1 <= i < |drops| ==> drops[i] == drops[1..][i - 1];
      ([first.0] + rest.0, rest.1)
  }

  /** Successive calls never return the same id. */
  lemma CreateAllDistinctIds(drops: seq<Drop>, counter: nat)
    ensures forall i, j :: 0 <= i < j < |drops| ==> CreateAll(drops, counter).0[i].id != CreateAll(drops, counter).0[j].id
  {
    forall i, j | 0 <= i < j < |drops| ensures CreateAll(drops, counter).0[i].id != CreateAll(drops, counter).0[j].id {
      CreatedPairDistinct(drops, counter, i, j);
    }
  }

  lemma CreatedPairDistinct(drops: seq<Drop>, counter: nat, i: nat, j: nat)
    requires i < j < |drops|
    ensures CreateAll(drops, counter).0[i].id != CreateAll(drops, counter).0[j].id
  {
    var di, dj := drops[i], drops[j];
    DifferentCountersDifferentIds(di.level, di.item, di.x, di.y, counter + i,
                                  dj.level, dj.item, dj.x, dj.y, counter + j);
  }
}

=== FILE: serpentine.dfy ===
/** The process-flow slide: the first 24 steps of the topological order are laid out four to a
    row, left to right on even rows and right to left on odd rows, with an arrow from each step
    to the next; a note below the grid counts the steps left over. Lengths are in inches. */
module Serpentine {

  const Cols: nat := 4
  const MaxShown: nat := 24
  const BW: real := 2.8
  const BH: real := 0.5
  const GX: real := 0.3
  const GY: real := 0.38
  const SX: real := 0.4
  const SY: real := 1.05

  /** `Math.min(sorted.length, 24)`: the number of steps drawn. */
  function MaxSteps(n: nat): (m: nat)
    ensures m <= n && m <= MaxShown && (m == n || m == MaxShown)
  {
    if n <= MaxShown then n else MaxShown
  }

  datatype Cell = Cell(row: nat, col: nat)

  /** Row `i / 4`; the column runs forwards on even rows and backwards on odd rows. */
  function CellOf(i: nat): Cell {
    var row := i / Cols;
    var colInRow := i % Cols;
    var isRev := row % 2 == 1;
    Cell(row, if isRev then Cols - 1 - colInRow else colInRow)
  }

  /** Top-left corner of the box of step `i`. */
  function BoxX(i: nat): real { SX + (CellOf(i).col as real) * (BW + GX) }
  function BoxY(i: nat): real { SY + (CellOf(i).row as real) * (BH + GY) }

  /** Every step has a column in [0, 4) and the row `i / 4`. */
  lemma CellInGrid(i: nat)
    ensures CellOf(i).row == i / Cols && CellOf(i).col < Cols
  {
  }

  /** Distinct steps get distinct cells. */
  lemma CellInjective(i: nat, j: nat)
    requires i != j
    ensures CellOf(i) != CellOf(j)
  {
    var ci, cj := CellOf(i), CellOf(j);
    if ci.row == cj.row {
      assert i / Cols == j / Cols;
      assert i % Cols != j % Cols by {
        assert i == Cols * (i / Cols) + i % Cols && j == Cols * (j / Cols) + j % Cols;
      }
    }
  }

  /** Consecutive steps in one row sit in adjacent columns: one to the right on even rows, one to
      the left on odd rows. */
  lemma SameRowAdjacent(i: nat)
    requires CellOf(i).row == CellOf(i + 1).row
    ensures CellOf(i).row % 2 == 0 ==> CellOf(i + 1).col == CellOf(i).col + 1
    ensures CellOf(i).row % 2 == 1 ==> CellOf(i + 1).col + 1 == CellOf(i).col
  {
    assert (i + 1) % Cols == i % Cols + 1 by {
      assert i == Cols * (i / Cols) + i % Cols;
      assert i + 1 == Cols * ((i + 1) / Cols) + (i + 1) % Cols;
    }
  }

  /** At a row change the next step is directly below, in the same column. */
  lemma RowChangeBelow(i: nat)
    requires CellOf(i).row != CellOf(i + 1).row
    ensures CellOf(i + 1).row == CellOf(i).row + 1 && CellOf(i + 1).col == CellOf(i).col
  {
    assert i % Cols == Cols - 1 && (i + 1) % Cols == 0 && (i + 1) / Cols == i / Cols + 1 by {
      assert i == Cols * (i / Cols) + i % Cols;
      assert i + 1 == Cols * ((i + 1) / Cols) + (i + 1) % Cols;
    }
  }

  /** The connector drawn after a step: a horizontal line of width `w` from `x` (reversed when
      `flip`), or a vertical line of height `h` going down from `(x, y)`. */
  datatype Arrow = Across(x: real, y: real, w: real, flip: bool) | Down(x: real, y: real, h: real)

  /** The arrow from step `i` to step `i + 1`, computed as the export does. */
  function ArrowAfter(i: nat): Arrow {
    var c, n := CellOf(i), CellOf(i + 1);
    var left, top := BoxX(i), BoxY(i);
    if n.row == c.row then
      if c.row % 2 != 1 then Across(left + BW, top + BH / 2.0, GX, false)
      else Across(BoxX(i + 1) + BW, top + BH / 2.0, GX, true)
    else Down(left + BW / 2.0, top + BH, GY)
  }

  /** Each arrow exactly spans the gap between the two boxes it joins, pointing from step `i` to
      step `i + 1`: across the column gap at mid-height within a row, down the row gap at
      mid-width at a row change. */
  lemma ArrowJoinsSteps(i: nat)
    ensures var a := ArrowAfter(i);
      match a
      case Across(x, y, w, flip) =>
        BoxY(i + 1) == BoxY(i) && y == BoxY(i) + BH / 2.0 && w == GX &&
        (if flip then x == BoxX(i + 1) + BW && x + w == BoxX(i)
         else x == BoxX(i) + BW && x + w == BoxX(i + 1))
      case Down(x, y, h) =>
        BoxX(i + 1) == BoxX(i) && x == BoxX(i) + BW / 2.0 && y == BoxY(i) + BH && y + h == BoxY(i + 1)
  {
    if CellOf(i + 1).row == CellOf(i).row {
      SameRowAdjacent(i);
    } else {
      RowChangeBelow(i);
    }
  }

  /** `lastRow = Math.ceil(maxSteps / COLS)`: the row the overflow note is written on. */
  function NoteRow(n: nat): nat {
    (MaxSteps(n) + Cols - 1) / Cols
  }

  /** The `... 외 k개 단계` note: how many steps were not drawn, when any were left out. */
  function Overflow(n: nat): (r: nat)
    ensures r == 0 <==> n <= MaxShown
    ensures MaxSteps(n) + r == n
  {
    if n > MaxSteps(n) then n - MaxSteps(n) else 0
  }

  /** The note lies below every drawn box, with at least a row gap between. */
  lemma NoteBelowGrid(n: nat, i: nat)
    requires i < MaxSteps(n)
    ensures BoxY(i) + BH + GY <= SY + (NoteRow(n) as real) * (BH + GY)
  {
    var m := MaxSteps(n);
    assert CellOf(i).row < NoteRow(n) by {
      assert i / Cols <= (m - 1) / Cols;
      assert (m - 1) / Cols < (m + Cols - 1) / Cols;
    }
    assert (CellOf(i).row as real) + 1.0 <= NoteRow(n) as real;
  }
}

=== FILE: sheets.dfy ===
/** The multi-sheet editor state of the main page: an ordered list of sheet tabs, the active
    sheet, the canvas on screen, and a store of the canvases of the other sheets. Switching,
    adding, deleting, renaming and duplicating sheets are functions from state to state; the
    fresh ids the page draws from the clock are parameters. */
module Sheets {
  import opened Common
  import opened Text
  import opened Graph

  datatype SheetKind = Blank | Swimlane

  /** A tab: `lanes` is present only on swimlane sheets. */
  datatype Sheet = Sheet(id: string, name: string, kind: SheetKind, lanes: Option<seq<string>>)

  datatype Canvas = Canvas(nodes: seq<Node>, edges: seq<Edge>)

  const Empty: Canvas := Canvas([], [])

  /** The four lanes a new swimlane sheet starts with. */
  const DefaultLanes: seq<string> := ["임원", "팀장", "HR 담당자", "구성원"]

  /** `sheets`, `activeSheetId`, `sheetDataRef`, the canvas `nodes`/`edges`, `sheetCountRef`,
      `nodeCountRef` and the selected node. */
  datatype State = State(
    sheets: seq<Sheet>, active: string, store: map<string, Canvas>, canvas: Canvas,
    sheetCount: nat, nodeCount: nat, selected: Option<string>)

  const Initial: State := State([Sheet("sheet-1", "시트 1", Blank, None)], "sheet-1", map[], Empty, 1, 0, None)

  predicate HasSheet(s: State, id: string) {
    exists k :: 0 <= k < |s.sheets| && s.sheets[k].id == id
  }

  /** What the page relies on: at least one tab, tab ids unique, and the active id one of them. */
  predicate Valid(s: State) {
    && |s.sheets| >= 1
    && UniqueIds(s.sheets)
    && HasSheet(s, s.active)
  }

  lemma InitialValid()
    ensures Valid(Initial)
  {
    assert Initial.sheets[0].id == Initial.active;
  }

  /** `sheetDataRef.current[id] || { nodes: [], edges: [] }`. */
  function Stored(store: map<string, Canvas>, id: string): Canvas {
    if id in store then store[id] else Empty
  }

  /** `handleSelectSheet`: store the canvas under the old id, load the new id's canvas. */
  function Select(s: State, id: string): (r: State)
    ensures id == s.active ==> r == s
    ensures id != s.active ==>
      && r.sheets == s.sheets && r.active == id
      && r.store == s.store[s.active := s.canvas]
      && r.canvas == Stored(r.store, id) && r.nodeCount == |r.canvas.nodes|
      && r.selected == None && r.sheetCount == s.sheetCount
  {
    if id == s.active then s
    else
      var store := s.store[s.active := s.canvas];
      var data := Stored(store, id);
      s.(store := store, canvas := data, nodeCount := |data.nodes|, active := id, selected := None)
  }

  /** Switching away and back restores the canvas exactly, and the store keeps it as well. */
  lemma SelectRoundTrip(s: State, id: string)
    ensures var back := Select(Select(s, id), s.active);
      back.canvas == s.canvas && back.active == s.active && back.sheets == s.sheets
      && (id != s.active ==> back.store[s.active] == s.canvas && back.store[id] == Select(s, id).canvas)
  {
  }

  lemma SelectValid(s: State, id: string)
    requires Valid(s) && HasSheet(s, id)
    ensures Valid(Select(s, id))
  {
  }

  /** The tab label: `4분할 시트 n` or `빈 시트 n`. */
  function SheetName(kind: SheetKind, n: nat): string {
    (if kind == Swimlane then "4분할 시트" else "빈 시트") + " " + NatToString(n)
  }

  /** `handleAddSheet`: store the current canvas, then append a new tab and make it active with
      an empty canvas. */
  function Add(s: State, kind: SheetKind, newId: string): (r: State)
    ensures |r.sheets| == |s.sheets| + 1 && r.sheets[..|s.sheets|] == s.sheets
    ensures var t := r.sheets[|s.sheets|];
      t.id == newId && t.kind == kind && t.name == SheetName(kind, s.sheetCount + 1)
      && (t.lanes.Some? <==> kind == Swimlane) && (kind == Swimlane ==> t.lanes.value == DefaultLanes)
    ensures r.active == newId && r.canvas == Empty && r.nodeCount == 0 && r.selected == None
    ensures r.store == s.store[s.active := s.canvas][newId := Empty]
    ensures r.sheetCount == s.sheetCount + 1
  {
    var store := s.store[s.active := s.canvas];
    var count := s.sheetCount + 1;
    var sheet := Sheet(newId, SheetName(kind, count), kind, if kind == Swimlane then Some(DefaultLanes) else None);
    State(s.sheets + [sheet], newId, store[newId := Empty], Empty, count, 0, None)
  }

  /** With a fresh id, adding keeps the state valid, and the canvas left behind is kept
      (unless the fresh id replaced it). */
  lemma AddValid(s: State, kind: SheetKind, newId: string)
    requires Valid(s) && !HasSheet(s, newId)
    ensures Valid(Add(s, kind, newId))
    ensures Stored(Add(s, kind, newId).store, s.active) == s.canvas
  {
    var r := Add(s, kind, newId);
    assert r.sheets[|s.sheets|].id == newId;
    forall i, j | 0 <= i < j < |r.sheets| ensures r.sheets[i].id != r.sheets[j].id {
      if j < |s.sheets| {
        assert r.sheets[i] == s.sheets[i] && r.sheets[j] == s.sheets[j];
      } else {
        assert r.sheets[i] == s.sheets[i];
      }
    }
    var k :| 0 <= k < |s.sheets| && s.sheets[k].id == s.active;
    assert s.active != newId;
  }

  /** `sheets.filter((s) => s.id !== id)`. */
  function Without(sheets: seq<Sheet>, id: string): (r: seq<Sheet>)
    ensures forall t :: t in r <==> t in sheets && t.id != id
    ensures |r| <= |sheets|
  {
    Filter(sheets, (t: Sheet) => t.id != id)
  }

  /** `handleDeleteSheet`. With one tab nothing happens. Otherwise the tab and its stored canvas
      go; when it was the active tab, the first remaining tab becomes active with its stored
      canvas. The code would throw if no tab remained while the deleted one was active; the
      requires rules out that case, which needs every tab to carry the deleted id. */
  function Delete(s: State, id: string): (r: State)
    requires !(|s.sheets| > 1 && s.active == id && |Without(s.sheets, id)| == 0)
    ensures |s.sheets| <= 1 ==> r == s
    ensures |s.sheets| > 1 ==>
      && r.sheets == Without(s.sheets, id)
      && r.store == s.store - {id}
      && r.selected == s.selected && r.sheetCount == s.sheetCount
      && (s.active != id ==> r.active == s.active && r.canvas == s.canvas && r.nodeCount == s.nodeCount)
      && (s.active == id ==> r.active == r.sheets[0].id && r.canvas == Stored(r.store, r.active)
                              && r.nodeCount == |r.canvas.nodes|)
  {
    if |s.sheets| <= 1 then s
    else
      var remaining := Without(s.sheets, id);
      var store := s.store - {id};
      if s.active == id then
        var next := remaining[0].id;
        var data := Stored(store, next);
        s.(sheets := remaining, store := store, canvas := data, nodeCount := |data.nodes|, active := next)
      else s.(sheets := remaining, store := store)
  }

  /** In a valid state the excluded case cannot arise, deleting keeps the state valid (so the tab
      list never becomes empty), and exactly one tab goes when the id is present. */
  lemma DeleteValid(s: State, id: string)
    requires Valid(s)
    ensures !(|s.sheets| > 1 && s.active == id && |Without(s.sheets, id)| == 0)
    ensures Valid(Delete(s, id))
    ensures |s.sheets| > 1 && HasSheet(s, id) ==> |Delete(s, id).sheets| == |s.sheets| - 1
  {
    if |s.sheets| > 1 {
      WithoutLength(s.sheets, id);
      CountIdUnique(s.sheets, id);
      WithoutUnique(s.sheets, id);
      var r := Delete(s, id);
      if s.active != id {
        var k :| 0 <= k < |s.sheets| && s.sheets[k].id == s.active;
        assert s.sheets[k] in r.sheets;
        var m :| 0 <= m < |r.sheets| && r.sheets[m] == s.sheets[k];
      } else {
        assert r.sheets[0].id == r.active;
      }
    }
  }

  /** Tab ids are unique. */
  predicate UniqueIds(sheets: seq<Sheet>) {
    forall i, j :: 0 <= i < j < |sheets| ==> sheets[i].id != sheets[j].id
  }

  /** How many tabs carry `id`. */
  function CountId(sheets: seq<Sheet>, id: string): nat
    decreases |sheets|
  {
    if |sheets| == 0 then 0 else (if sheets[0].id == id then 1 else 0) + CountId(sheets[1..], id)
  }

  lemma {:induction false} UniqueTail(sheets: seq<Sheet>)
    requires UniqueIds(sheets) && |sheets| > 0
    ensures UniqueIds(sheets[1..])
    ensures forall k :: 0 <= k < |sheets[1..]| ==> sheets[1..][k].id != sheets[0].id
  {
    var t := sheets[1..];
    forall i, j | 0 <= i < j < |t| ensures t[i].id != t[j].id {
      assert t[i] == sheets[i + 1] && t[j] == sheets[j + 1];
    }
    forall k | 0 <= k < |t| ensures t[k].id != sheets[0].id {
      assert t[k] == sheets[k + 1];
    }
  }

  /** `Without` drops exactly the tabs carrying `id`. */
  lemma {:induction false} WithoutLength(sheets: seq<Sheet>, id: string)
    ensures |Without(sheets, id)| + CountId(sheets, id) == |sheets|
    decreases |sheets|
  {
    if |sheets| > 0 {
      WithoutLength(sheets[1..], id);
    }
  }

  /** With unique ids at most one tab carries `id`, and one does exactly when some tab has it. */
  lemma {:induction false} CountIdUnique(sheets: seq<Sheet>, id: string)
    requires UniqueIds(sheets)
    ensures CountId(sheets, id) <= 1
    ensures CountId(sheets, id) == 1 <==> exists k :: 0 <= k < |sheets| && sheets[k].id == id
    decreases |sheets|
  {
    if |sheets| > 0 {
      var t := sheets[1..];
      UniqueTail(sheets);
      CountIdUnique(t, id);
      if exists k :: 0 <= k < |sheets| && sheets[k].id == id {
        var k :| 0 <= k < |sheets| && sheets[k].id == id;
        if k > 0 { assert t[k - 1].id == id; }
      }
      if exists k :: 0 <= k < |t| && t[k].id == id {
        var k :| 0 <= k < |t| && t[k].id == id;
        assert sheets[k + 1].id == id;
      }
    }
  }

  lemma {:induction false} WithoutUnique(sheets: seq<Sheet>, id: string)
    requires UniqueIds(sheets)
    ensures UniqueIds(Without(sheets, id))
    decreases |sheets|
  {
    if |sheets| > 0 {
      var t := sheets[1..];
      UniqueTail(sheets);
      WithoutUnique(t, id);
      var rt := Without(t, id);
      forall k | 0 <= k < |rt| ensures rt[k].id != sheets[0].id {
        assert rt[k] in t;
      }
    }
  }

  /** `handleRenameSheet`: the tab with that id gets the new name. */
  function Rename(s: State, id: string, name: string): (r: State)
    ensures |r.sheets| == |s.sheets|
    ensures forall k :: 0 <= k < |s.sheets| ==>
      r.sheets[k].id == s.sheets[k].id && r.sheets[k].kind == s.sheets[k].kind && r.sheets[k].lanes == s.sheets[k].lanes
      && r.sheets[k].name == (if s.sheets[k].id == id then name else s.sheets[k].name)
    ensures r.(sheets := s.sheets) == s
  {
    var sheets := seq(|s.sheets|, k requires 0 <= k < |s.sheets| =>
      if s.sheets[k].id == id then s.sheets[k].(name := name) else s.sheets[k]);
    s.(sheets := sheets)
  }

  /** Renaming changes names only, so validity carries over. */
  lemma RenameValid(s: State, id: string, name: string)
    requires Valid(s)
    ensures Valid(Rename(s, id, name))
  {
    var r := Rename(s, id, name);
    var k :| 0 <= k < |s.sheets| && s.sheets[k].id == s.active;
    assert r.sheets[k].id == r.active;
  }

  /** Renaming to something else and back to the old name restores the state. */
  lemma RenameBack(s: State, id: string, name: string, other: string)
    requires forall k :: 0 <= k < |s.sheets| && s.sheets[k].id == id ==> s.sheets[k].name == name
    ensures Rename(Rename(s, id, other), id, name) == s
  {
    var r := Rename(Rename(s, id, other), id, name);
    assert r.sheets == s.sheets;
  }

  /** `sheets.find((s) => s.id === id)`. */
  function FindSheet(sheets: seq<Sheet>, id: string): (r: Option<Sheet>)
    ensures r.None? <==> forall k :: 0 <= k < |sheets| ==> sheets[k].id != id
    ensures r.Some? ==> r.value in sheets && r.value.id == id
    decreases |sheets|
  {
    if |sheets| == 0 then None
    else if sheets[0].id == id then Some(sheets[0])
    else
      var r := FindSheet(sheets[1..], id);
      assert forall k :: 1 <= k < |sheets| ==> sheets[k] == sheets[1..][k - 1];
      r
  }

  /** `handleDuplicateSheet`: the current canvas is stored first, even when `id` names no tab;
      then a copy of the tab named `name (복사)` is appended with a copy of its stored canvas and
      made active. */
  function Duplicate(s: State, id: string, newId: string): (r: State)
    ensures FindSheet(s.sheets, id).None? ==> r == s.(store := s.store[s.active := s.canvas])
    ensures FindSheet(s.sheets, id).Some? ==>
      var src := FindSheet(s.sheets, id).value;
      var data := Stored(s.store[s.active := s.canvas], id);
      && r.sheets == s.sheets + [src.(id := newId, name := src.name + " (복사)")]
      && r.active == newId && r.canvas == data && r.nodeCount == |data.nodes|
      && r.store == s.store[s.active := s.canvas][newId := data]
      && r.sheetCount == s.sheetCount + 1 && r.selected == s.selected
  {
    var store := s.store[s.active := s.canvas];
    var found := FindSheet(s.sheets, id);
    if found.None? then s.(store := store)
    else
      var src := found.value;
      var copy := src.(id := newId, name := src.name + " (복사)");
      var data := Stored(store, id);
      s.(sheets := s.sheets + [copy], store := store[newId := data], canvas := data,
         nodeCount := |data.nodes|, active := newId, sheetCount := s.sheetCount + 1)
  }

  /** Duplicating the active tab puts the canvas on screen into the copy; duplicating with a fresh
      id keeps the state valid and the copy has the kind and lanes of its source. */
  lemma DuplicateValid(s: State, id: string, newId: string)
    requires Valid(s) && !HasSheet(s, newId)
    ensures Valid(Duplicate(s, id, newId))
    ensures id == s.active ==> Duplicate(s, id, newId).canvas == s.canvas
    ensures HasSheet(s, id) ==>
      var t := Duplicate(s, id, newId).sheets[|s.sheets|];
      t.kind == FindSheet(s.sheets, id).value.kind && t.lanes == FindSheet(s.sheets, id).value.lanes
  {
    var r := Duplicate(s, id, newId);
    var found := FindSheet(s.sheets, id);
    if found.Some? {
      assert r.sheets[|s.sheets|].id == newId;
      forall i, j | 0 <= i < j < |r.sheets| ensures r.sheets[i].id != r.sheets[j].id {
        if j < |s.sheets| {
          assert r.sheets[i] == s.sheets[i] && r.sheets[j] == s.sheets[j];
        } else {
          assert r.sheets[i] == s.sheets[i];
        }
      }
    }
    var k :| 0 <= k < |s.sheets| && s.sheets[k].id == s.active;
    if found.Some? {
      assert r.sheets[|s.sheets|].id == r.active;
    } else {
      assert r.sheets[k].id == r.active;
    }
  }
}

=== FILE: sorting.dfy ===
/** `Array.prototype.sort` with a comparator, as a stable insertion sort.
    A JavaScript comparator `cmp` is represented by `le(a, b) == (cmp(a, b) <= 0)`. */
module Sorting {
  import opened Common

  /** Any two elements are comparable. */
  ghost predicate Total<T(!new)>(le: (T, T) -> bool) {
    forall a, b :: le(a, b) || le(b, a)
  }

  ghost predicate Transitive<T(!new)>(le: (T, T) -> bool) {
    forall a, b, c :: le(a, b) && le(b, c) ==> le(a, c)
  }

  /** Every element is `le` its successor. */
  predicate Sorted<T>(s: seq<T>, le: (T, T) -> bool) {
    forall i :: 0 < i < |s| ==> le(s[i - 1], s[i])
  }

  /** Places `x` before the first element it is `le` to, so that `x` stays ahead of its equals. */
  function Insert<T>(x: T, s: seq<T>, le: (T, T) -> bool): (r: seq<T>)
    ensures |r| == |s| + 1
    ensures multiset(r) == multiset(s) + multiset{x}
    ensures r[0] == x || (|s| > 0 && r[0] == s[0])
  {
    if |s| == 0 || le(x, s[0]) then [x] + s
    else
      assert s == [s[0]] + s[1..];
      [s[0]] + Insert(x, s[1..], le)
  }

  /** The stable sort of `xs`: each element is inserted ahead of the equal elements that follow it. */
  function Sort<T>(xs: seq<T>, le: (T, T) -> bool): (r: seq<T>)
    ensures |r| == |xs|
    ensures multiset(r) == multiset(xs)
  {
    if |xs| == 0 then []
    else
      assert xs == [xs[0]] + xs[1..];
      Insert(xs[0], Sort(xs[1..], le), le)
  }

  lemma {:induction false} InsertSorted<T(!new)>(x: T, s: seq<T>, le: (T, T) -> bool)
    requires Total(le)
    requires Sorted(s, le)
    ensures Sorted(Insert(x, s, le), le)
    decreases |s|
  {
    if |s| > 0 && !le(x, s[0]) {
      var t := s[1..];
      assert Sorted(t, le) by {
        forall i | 0 < i < |t| ensures le(t[i - 1], t[i]) {
          assert t[i - 1] == s[i] && t[i] == s[i + 1];
        }
      }
      InsertSorted(x, t, le);
      var r := Insert(x, s, le);
      var q := Insert(x, t, le);
      assert r == [s[0]] + q;
      assert le(s[0], q[0]) by {
        assert le(s[0], x);
        if |t| > 0 { assert s[1] == t[0]; }
      }
      forall i | 0 < i < |r| ensures le(r[i - 1], r[i]) {
        if i > 1 { assert r[i - 1] == q[i - 2] && r[i] == q[i - 1]; }
      }
    }
  }

  /** With a total comparator the result is in order. */
  lemma {:induction false} SortSorted<T(!new)>(xs: seq<T>, le: (T, T) -> bool)
    requires Total(le)
    ensures Sorted(Sort(xs, le), le)
    decreases |xs|
  {
    if |xs| > 0 {
      SortSorted(xs[1..], le);
      InsertSorted(xs[0], Sort(xs[1..], le), le);
    }
  }

  /** `le` holds on every triple drawn from `s`. */
  ghost predicate TransitiveOn<T>(s: seq<T>, le: (T, T) -> bool) {
    forall i, j, k :: 0 <= i < |s| && 0 <= j < |s| && 0 <= k < |s| && le(s[i], s[j]) && le(s[j], s[k]) ==>
      le(s[i], s[k])
  }

  /** The elements `le` ranks level with `c`. */
  function Tied<T>(le: (T, T) -> bool, c: T): T -> bool {
    y => le(c, y) && le(y, c)
  }

  /** Transitivity on `w` carries over to any sequence drawn from `w`. */
  lemma TransitiveOnSub<T>(u: seq<T>, w: seq<T>, le: (T, T) -> bool)
    requires TransitiveOn(w, le)
    requires forall i :: 0 <= i < |u| ==> u[i] in w
    ensures TransitiveOn(u, le)
  {
    forall i, j, k | 0 <= i < |u| && 0 <= j < |u| && 0 <= k < |u| && le(u[i], u[j]) && le(u[j], u[k])
      ensures le(u[i], u[k])
    {
      var i' :| 0 <= i' < |w| && w[i'] == u[i];
      var j' :| 0 <= j' < |w| && w[j'] == u[j];
      var k' :| 0 <= k' < |w| && w[k'] == u[k];
    }
  }

  /** The elements an insertion step of the sort works on are drawn from `xs`. */
  lemma SortDrawn<T>(xs: seq<T>, le: (T, T) -> bool, c: T)
    requires |xs| > 0 && TransitiveOn([c] + xs, le)
    ensures TransitiveOn([c, xs[0]] + Sort(xs[1..], le), le)
  {
    var w, st := [c] + xs, Sort(xs[1..], le);
    var u := [c, xs[0]] + st;
    forall i | 0 <= i < |u| ensures u[i] in w {
      if i >= 2 {
        assert u[i] == st[i - 2] && u[i] in multiset(st);
        assert u[i] in xs[1..];
      }
    }
    TransitiveOnSub(u, w, le);
  }

  /** Inserting `x` keeps it ahead of the elements of `s` it ties with: an element is only moved
      past when it is strictly smaller. */
  lemma {:induction false} InsertStable<T(!new)>(x: T, s: seq<T>, le: (T, T) -> bool, c: T)
    requires TransitiveOn([c, x] + s, le)
    ensures Filter(Insert(x, s, le), Tied(le, c)) == Filter([x] + s, Tied(le, c))
    decreases |s|
  {
    if |s| > 0 && !le(x, s[0]) {
      var t := s[1..];
      var p := Tied(le, c);
      var w := [c, x] + s;
      assert w[0] == c && w[1] == x && w[2] == s[0];
      assert !(le(x, c) && le(c, s[0]));
      assert !(p(x) && p(s[0]));
      TransitiveOnSub([c, x] + t, w, le);
      InsertStable(x, t, le, c);
      assert Insert(x, s, le) == [s[0]] + Insert(x, t, le);
      assert s == [s[0]] + t;
      assert ([x] + s)[1..] == s && ([s[0]] + ([x] + t))[1..] == [x] + t;
      assert ([s[0]] + Insert(x, t, le))[1..] == Insert(x, t, le);
      assert ([x] + t)[1..] == t;
    }
  }

  /** The sort is stable: the elements that tie with any `c` keep their order, as long as `le`
      is transitive on `c` and the elements. */
  lemma {:induction false} SortStable<T(!new)>(xs: seq<T>, le: (T, T) -> bool, c: T)
    requires TransitiveOn([c] + xs, le)
    ensures Filter(Sort(xs, le), Tied(le, c)) == Filter(xs, Tied(le, c))
    decreases |xs|
  {
    if |xs| > 0 {
      var t := xs[1..];
      var st := Sort(t, le);
      TransitiveOnSub([c] + t, [c] + xs, le);
      SortStable(t, le, c);
      SortDrawn(xs, le, c);
      InsertStable(xs[0], st, le, c);
      assert xs == [xs[0]] + t;
      assert ([xs[0]] + st)[1..] == st;
    }
  }

  /** With a transitive comparator, adjacent order gives order between every pair. */
  lemma {:induction false} SortedPairs<T(!new)>(s: seq<T>, le: (T, T) -> bool, i: int, j: int)
    requires Transitive(le)
    requires Sorted(s, le)
    requires 0 <= i < j < |s|
    ensures le(s[i], s[j])
    decreases j - i
  {
    if i + 1 < j {
      SortedPairs(s, le, i, j - 1);
    }
  }

  lemma {:induction false} InsertKeepsDistinctBy<T, K>(x: T, s: seq<T>, le: (T, T) -> bool, key: T -> K)
    requires DistinctBy(s, key)
    requires forall k :: 0 <= k < |s| ==> key(s[k]) != key(x)
    ensures DistinctBy(Insert(x, s, le), key)
    decreases |s|
  {
    var r := Insert(x, s, le);
    if |s| == 0 || le(x, s[0]) {
      assert forall k :: 0 < k < |r| ==> r[k] == s[k - 1];
    } else {
      var t := s[1..];
      assert forall k :: 0 <= k < |t| ==> t[k] == s[k + 1];
      InsertKeepsDistinctBy(x, t, le, key);
      var q := Insert(x, t, le);
      assert forall k :: 0 < k < |r| ==> r[k] == q[k - 1];
      forall j | 0 < j < |r| ensures key(r[0]) != key(r[j]) {
        InsertElements(x, t, le, j - 1);
      }
    }
  }

  /** Every element of `Insert(x, s, le)` is `x` or an element of `s`. */
  lemma InsertElements<T>(x: T, s: seq<T>, le: (T, T) -> bool, k: int)
    requires 0 <= k <= |s|
    ensures Insert(x, s, le)[k] == x || exists m :: 0 <= m < |s| && s[m] == Insert(x, s, le)[k]
  {
    var y := Insert(x, s, le)[k];
    assert y in multiset(Insert(x, s, le));
    if y != x {
      assert y in multiset(s);
      assert y in s;
    }
  }

  /** Sorting keeps keys unique when they were unique. */
  lemma {:induction false} SortKeepsDistinctBy<T, K>(xs: seq<T>, le: (T, T) -> bool, key: T -> K)
    requires DistinctBy(xs, key)
    ensures DistinctBy(Sort(xs, le), key)
    decreases |xs|
  {
    if |xs| > 0 {
      var t := xs[1..];
      assert DistinctBy(t, key) by {
        forall i, j | 0 <= i < j < |t| ensures key(t[i]) != key(t[j]) {
          assert t[i] == xs[i + 1] && t[j] == xs[j + 1];
        }
      }
      SortKeepsDistinctBy(t, le, key);
      var st := Sort(t, le);
      forall k | 0 <= k < |st| ensures key(st[k]) != key(xs[0]) {
        assert st[k] in multiset(t);
        var m :| 0 <= m < |t| && t[m] == st[k];
        assert xs[m + 1] == st[k];
      }
      InsertKeepsDistinctBy(xs[0], st, le, key);
    }
  }
}

=== FILE: text.dfy ===
/** String helpers standing in for the JavaScript built-ins the application calls:
    `String.prototype.trim`, `split`/`join` on one separator character,
    `toLowerCase`/`toUpperCase`, `includes`, and decimal rendering of counters. */
module Text {

  /** The characters `String.prototype.trim` removes (ECMAScript WhiteSpace and LineTerminator). */
  predicate IsSpace(c: char) {
    c == ' ' || c == '\t' || c == '\n' || c == '\r' || c == '\U{000B}' || c == '\U{000C}'
    || c == '\U{00A0}' || c == '\U{1680}' || ('\U{2000}' <= c <= '\U{200A}')
    || c == '\U{2028}' || c == '\U{2029}' || c == '\U{202F}' || c == '\U{205F}'
    || c == '\U{3000}' || c == '\U{FEFF}'
  }

  /** Neither end of `s` is white space. */
  predicate IsTrimmed(s: string) {
    |s| == 0 || (!IsSpace(s[0]) && !IsSpace(s[|s| - 1]))
  }

  predicate AllSpace(s: string) {
    forall k :: 0 <= k < |s| ==> IsSpace(s[k])
  }

  /** Number of leading white-space characters. */
  function LeadingSpace(s: string): (n: nat)
    ensures n <= |s|
    ensures forall k :: 0 <= k < n ==> IsSpace(s[k])
    ensures n < |s| ==> !IsSpace(s[n])
  {
    if |s| == 0 || !IsSpace(s[0]) then 0
    else
      var n := 1 + LeadingSpace(s[1..]);
      assert forall k :: 1 <= k < n ==> s[k] == s[1..][k - 1];
      n
  }

  /** Number of trailing white-space characters. */
  function TrailingSpace(s: string): (n: nat)
    ensures n <= |s|
    ensures forall k :: |s| - n <= k < |s| ==> IsSpace(s[k])
    ensures n < |s| ==> !IsSpace(s[|s| - n - 1])
  {
    if |s| == 0 || !IsSpace(s[|s| - 1]) then 0
    else
      var p := s[..|s| - 1];
      var n := 1 + TrailingSpace(p);
      assert forall k :: |s| - n <= k < |s| - 1 ==> s[k] == p[k];
      n
  }

  /** `s.trim()`: the longest infix of `s` with no white space at either end. */
  function Trim(s: string): (r: string)
    ensures IsTrimmed(r)
    ensures exists i, j :: 0 <= i <= j <= |s| && r == s[i..j] && AllSpace(s[..i]) && AllSpace(s[j..])
    ensures AllSpace(s) <==> r == ""
  {
    var i := LeadingSpace(s);
    var j := |s| - TrailingSpace(s[i..]);
    TrailingSpan(s, i);
    TrimFacts(s, i, j);
    s[i..j]
  }

  /** The trailing white space of a suffix is trailing white space of the whole string. */
  lemma TrailingSpan(s: string, i: nat)
    requires i <= |s|
    ensures var j := |s| - TrailingSpace(s[i..]);
      && i <= j
      && (forall k :: j <= k < |s| ==> IsSpace(s[k]))
      && (i < j ==> !IsSpace(s[j - 1]))
  {
    var t := s[i..];
    var n := TrailingSpace(t);
    assert forall k :: |t| - n <= k < |t| ==> t[k] == s[i + k];
    if n < |t| {
      assert t[|t| - n - 1] == s[|s| - n - 1];
    }
  }

  lemma TrimFacts(s: string, i: nat, j: nat)
    requires i <= j <= |s|
    requires forall k :: 0 <= k < i ==> IsSpace(s[k])
    requires forall k :: j <= k < |s| ==> IsSpace(s[k])
    requires i < |s| ==> !IsSpace(s[i])
    requires i < j ==> !IsSpace(s[j - 1])
    ensures IsTrimmed(s[i..j])
    ensures AllSpace(s[..i]) && AllSpace(s[j..])
    ensures AllSpace(s) <==> i == j
  {
    assert forall k :: 0 <= k < i ==> s[..i][k] == s[k];
    assert forall k :: 0 <= k < |s| - j ==> s[j..][k] == s[j + k];
  }

  /** `s.split(sep)`: the maximal separator-free pieces, in order. */
  function Split(s: string, sep: char): (r: seq<string>)
    ensures |r| >= 1
    ensures forall k :: 0 <= k < |r| ==> sep !in r[k]
    decreases |s|
  {
    if |s| == 0 then [""]
    else
      var rest := Split(s[1..], sep);
      if s[0] == sep then [""] + rest
      else [[s[0]] + rest[0]] + rest[1..]
  }

  /** `parts.join(sep)`. */
  function Join(parts: seq<string>, sep: char): string
    requires |parts| >= 1
  {
    if |parts| == 1 then parts[0] else parts[0] + [sep] + Join(parts[1..], sep)
  }

  lemma JoinConsFirst(c: char, parts: seq<string>, sep: char)
    requires |parts| >= 1
    ensures Join([[c] + parts[0]] + parts[1..], sep) == [c] + Join(parts, sep)
  {
    var q := [[c] + parts[0]] + parts[1..];
    if |parts| > 1 {
      assert q[1..] == parts[1..];
    }
  }

  /** Splitting and joining again restores the text: nothing is lost or reordered. */
  lemma {:induction false} JoinSplit(s: string, sep: char)
    ensures Join(Split(s, sep), sep) == s
    decreases |s|
  {
    if |s| > 0 {
      var rest := Split(s[1..], sep);
      JoinSplit(s[1..], sep);
      if s[0] == sep {
        assert ([""] + rest)[1..] == rest;
      } else {
        JoinConsFirst(s[0], rest, sep);
      }
    }
  }

  /** Joining separator-free pieces and splitting again gives back the pieces. */
  lemma {:induction false} SplitJoin(parts: seq<string>, sep: char)
    requires |parts| >= 1
    requires forall k :: 0 <= k < |parts| ==> sep !in parts[k]
    ensures Split(Join(parts, sep), sep) == parts
    decreases parts
  {
    if |parts| == 1 {
      SplitNoSep(parts[0], sep);
    } else {
      SplitJoin(parts[1..], sep);
      SplitPrefix(parts[0], Join(parts[1..], sep), sep);
      assert parts == [parts[0]] + parts[1..];
    }
  }

  lemma {:induction false} SplitNoSep(s: string, sep: char)
    requires sep !in s
    ensures Split(s, sep) == [s]
    decreases |s|
  {
    if |s| > 0 {
      assert sep !in s[1..];
      SplitNoSep(s[1..], sep);
      assert [s[0]] + s[1..] == s;
    }
  }

  lemma {:induction false} SplitPrefix(p: string, t: string, sep: char)
    requires sep !in p
    ensures Split(p + [sep] + t, sep) == [p] + Split(t, sep)
    decreases |p|
  {
    if |p| == 0 {
      assert p + [sep] + t == [sep] + t;
      assert ([sep] + t)[1..] == t;
    } else {
      var s := p + [sep] + t;
      assert s[1..] == p[1..] + [sep] + t;
      assert sep !in p[1..];
      SplitPrefix(p[1..], t, sep);
      assert [p[0]] + p[1..] == p;
    }
  }

  /** ASCII `toLowerCase` of one character. */
  function LowerChar(c: char): char {
    if 'A' <= c <= 'Z' then (c as int + 32) as char else c
  }

  /** ASCII `toUpperCase` of one character. */
  function UpperChar(c: char): char {
    if 'a' <= c <= 'z' then (c as int - 32) as char else c
  }

  function ToLower(s: string): (r: string)
    ensures |r| == |s|
    ensures forall k :: 0 <= k < |s| ==> r[k] == LowerChar(s[k])
  {
    seq(|s|, k requires 0 <= k < |s| => LowerChar(s[k]))
  }

  function ToUpper(s: string): (r: string)
    ensures |r| == |s|
    ensures forall k :: 0 <= k < |s| ==> r[k] == UpperChar(s[k])
  {
    seq(|s|, k requires 0 <= k < |s| => UpperChar(s[k]))
  }

  /** Lower-casing a lower-cased text changes nothing. */
  lemma LowerIdempotent(s: string)
    ensures ToLower(ToLower(s)) == ToLower(s)
  {
  }

  /** Lower-casing forgets the case a text was written in: an upper-cased text lower-cases to the
      same text as the original. */
  lemma LowerOfUpper(s: string)
    ensures ToLower(ToUpper(s)) == ToLower(s)
  {
  }

  /** `s.includes(t)`: `t` occurs as a contiguous infix of `s`. */
  predicate Contains(s: string, t: string) {
    exists i :: 0 <= i <= |s| - |t| && OccursAt(s, t, i)
  }

  predicate OccursAt(s: string, t: string, i: int) {
    0 <= i <= |s| - |t| && s[i..i + |t|] == t
  }

  predicate IsDigit(c: char) {
    '0' <= c <= '9'
  }

  predicate AllDigits(s: string) {
    forall k :: 0 <= k < |s| ==> IsDigit(s[k])
  }

  function DigitChar(d: nat): (c: char)
    requires d < 10
    ensures IsDigit(c)
  {
    ('0' as int + d) as char
  }

  /** Decimal rendering of a counter, as a template literal `${n}` prints it. */
  function NatToString(n: nat): (s: string)
    ensures |s| >= 1
    ensures AllDigits(s)
    decreases n
  {
    if n < 10 then [DigitChar(n)] else NatToString(n / 10) + [DigitChar(n % 10)]
  }

  /** The value of a run of decimal digits. */
  function DigitsValue(s: string): nat
    requires AllDigits(s)
  {
    if |s| == 0 then 0
    else 10 * DigitsValue(s[..|s| - 1]) + (s[|s| - 1] as int - '0' as int)
  }

  /** Reading back a rendered counter gives the counter: rendering is injective. */
  lemma {:induction false} NatToStringRoundTrip(n: nat)
    ensures DigitsValue(NatToString(n)) == n
    decreases n
  {
    if n >= 10 {
      NatToStringRoundTrip(n / 10);
      var s := NatToString(n);
      assert s[..|s| - 1] == NatToString(n / 10);
    }
  }
}

=== FILE: toposort.dfy ===
/** The step order of the process-flow slide: Kahn's topological sort over the canvas edges.
    The in-degree of a node counts every edge into it, whatever its source; the nodes of
    in-degree zero are sorted once by level label and then by height and form a first-in
    first-out queue; a node's successors are released lowest first; nodes the loop never reaches
    (cycles, or an edge from an id that is not on the canvas) follow in canvas order. */
module TopoSort {
  import opened Common
  import opened Sorting
  import opened Collation
  import opened Graph
  import ExportFit

  /** The node ids in canvas order (`Object.entries(inDeg)` order). */
  function Ids(nodes: seq<Node>): (r: seq<string>)
    ensures |r| == |nodes| && forall i :: 0 <= i < |nodes| ==> r[i] == nodes[i].id
  {
    seq(|nodes|, i requires 0 <= i < |nodes| => nodes[i].id)
  }

  /** The number of edges into `v` whose source is not in `done`. With `done` empty it is the
      in-degree the sort starts from; as `done` grows it is what `inDeg[v]` still holds. */
  function Remaining(es: seq<Edge>, v: string, done: seq<string>): nat
    decreases |es|
  {
    if |es| == 0 then 0
    else
      var e := es[|es| - 1];
      Remaining(es[..|es| - 1], v, done) + (if e.target == v && e.source !in done then 1 else 0)
  }

  /** `inDeg[v]` after the counting loop. */
  function InDegree(es: seq<Edge>, v: string): nat {
    Remaining(es, v, [])
  }

  /** `adj[u]` after the counting loop: the targets of the edges out of `u`, in edge order. */
  function Succs(es: seq<Edge>, u: string): seq<string>
    decreases |es|
  {
    if |es| == 0 then []
    else
      var e := es[|es| - 1];
      Succs(es[..|es| - 1], u) + (if e.source == u then [e.target] else [])
  }

  /** The number of edges from `u` to `v`. */
  function Pairs(es: seq<Edge>, u: string, v: string): nat
    decreases |es|
  {
    if |es| == 0 then 0
    else
      var e := es[|es| - 1];
      Pairs(es[..|es| - 1], u, v) + (if e.source == u && e.target == v then 1 else 0)
  }

  /** `v` occurs in `adj[u]` once per edge from `u` to `v`. */
  lemma {:induction false} SuccsCount(es: seq<Edge>, u: string, v: string)
    ensures multiset(Succs(es, u))[v] == Pairs(es, u, v)
    decreases |es|
  {
    if |es| > 0 {
      SuccsCount(es[..|es| - 1], u, v);
    }
  }

  /** Processing `u` removes exactly the edges from `u` from what is still owed to `v`. */
  lemma {:induction false} RemainingStep(es: seq<Edge>, v: string, done: seq<string>, u: string)
    requires u !in done
    ensures Remaining(es, v, done) == Remaining(es, v, done + [u]) + Pairs(es, u, v)
    decreases |es|
  {
    if |es| > 0 {
      RemainingStep(es[..|es| - 1], v, done, u);
    }
  }

  /** Nothing is owed to `v` exactly when every edge into `v` comes from `done`. */
  lemma {:induction false} RemainingZero(es: seq<Edge>, v: string, done: seq<string>)
    ensures Remaining(es, v, done) == 0 <==>
      forall j :: 0 <= j < |es| && es[j].target == v ==> es[j].source in done
    decreases |es|
  {
    if |es| > 0 {
      var init := es[..|es| - 1];
      RemainingZero(init, v, done);
      assert forall j :: 0 <= j < |init| ==> init[j] == es[j];
    }
  }

  /** `nodeMap.get(id)?.position.y ?? 0`. */
  function YOf(nodes: seq<Node>, id: string): real {
    var n := FindNode(nodes, id);
    if n.Some? then n.value.y else 0.0
  }

  /** The seed comparator, `cmp(a, b) <= 0`: by level label (code-unit order), then by height;
      ids without a node compare equal to everything. */
  predicate SeedLe(nodes: seq<Node>, a: string, b: string) {
    var na, nb := FindNode(nodes, a), FindNode(nodes, b);
    if na.None? || nb.None? then true
    else
      var la, lb := ExportFit.LevelOf(na.value), ExportFit.LevelOf(nb.value);
      if la != lb then CodeUnitLe(la, lb) else na.value.y <= nb.value.y
  }

  function SeedOrder(nodes: seq<Node>): (string, string) -> bool {
    (a, b) => SeedLe(nodes, a, b)
  }

  /** The successor comparator: ascending height, 0 for an id without a node. */
  function YOrder(nodes: seq<Node>): (string, string) -> bool {
    (a, b) => YOf(nodes, a) <= YOf(nodes, b)
  }

  lemma SeedOrderTotal(nodes: seq<Node>)
    ensures Total(SeedOrder(nodes))
  {
    forall a, b ensures SeedLe(nodes, a, b) || SeedLe(nodes, b, a) {
      var na, nb := FindNode(nodes, a), FindNode(nodes, b);
      if na.Some? && nb.Some? {
        CodeUnitLeTotal(ExportFit.LevelOf(na.value), ExportFit.LevelOf(nb.value));
      }
    }
  }

  lemma YOrderTotal(nodes: seq<Node>)
    ensures Total(YOrder(nodes))
  {
  }

  /** The ids owed no edge at the start. */
  function Unowed(edges: seq<Edge>): string -> bool {
    v => InDegree(edges, v) == 0
  }

  /** The initial queue: the ids of in-degree zero, in canvas order, sorted by the seed comparator. */
  function Seed(nodes: seq<Node>, edges: seq<Edge>): seq<string> {
    Sort(Filter(Ids(nodes), Unowed(edges)), SeedOrder(nodes))
  }

  /** The seed holds exactly the ids of in-degree zero, once each, ordered by level and then height. */
  lemma SeedFacts(nodes: seq<Node>, edges: seq<Edge>)
    requires Distinct(Ids(nodes))
    ensures var s := Seed(nodes, edges);
      && Distinct(s)
      && (forall v :: v in s <==> v in Ids(nodes) && InDegree(edges, v) == 0)
      && (forall i :: 0 < i < |s| ==> SeedLe(nodes, s[i - 1], s[i]))
  {
    var z := Filter(Ids(nodes), Unowed(edges));
    var s := Seed(nodes, edges);
    SeedOrderTotal(nodes);
    SortSorted(z, SeedOrder(nodes));
    FilterDistinct(Ids(nodes), Unowed(edges));
    assert DistinctBy(z, x => x);
    SortKeepsDistinctBy(z, SeedOrder(nodes), x => x);
    assert forall v :: v in z <==> v in Ids(nodes) && InDegree(edges, v) == 0;
    assert forall v :: v in s <==> v in multiset(s);
  }

  /** Between ids on the canvas the seed comparator is transitive: level labels are totally
      ordered, and heights break ties. */
  lemma SeedLeTransitive(nodes: seq<Node>, a: string, b: string, c: string)
    requires a in Ids(nodes) && b in Ids(nodes) && c in Ids(nodes)
    requires SeedLe(nodes, a, b) && SeedLe(nodes, b, c)
    ensures SeedLe(nodes, a, c)
  {
    OnCanvas(nodes, a);
    OnCanvas(nodes, b);
    OnCanvas(nodes, c);
    var la := ExportFit.LevelOf(FindNode(nodes, a).value);
    var lb := ExportFit.LevelOf(FindNode(nodes, b).value);
    var lc := ExportFit.LevelOf(FindNode(nodes, c).value);
    if la != lb && lb != lc {
      CodeUnitLeTransitive(la, lb, lc);
      if la == lc {
        CodeUnitLeAntisymmetric(la, lb);
      }
    }
  }

  lemma OnCanvas(nodes: seq<Node>, v: string)
    requires v in Ids(nodes)
    ensures FindNode(nodes, v).Some?
  {
    var i :| 0 <= i < |nodes| && Ids(nodes)[i] == v;
    assert nodes[i].id == v;
  }

  lemma SeedTransitiveOn(nodes: seq<Node>, w: seq<string>)
    requires forall i :: 0 <= i < |w| ==> w[i] in Ids(nodes)
    ensures TransitiveOn(w, SeedOrder(nodes))
  {
    forall i, j, k | 0 <= i < |w| && 0 <= j < |w| && 0 <= k < |w| && SeedLe(nodes, w[i], w[j]) && SeedLe(nodes, w[j], w[k])
      ensures SeedLe(nodes, w[i], w[k])
    {
      SeedLeTransitive(nodes, w[i], w[j], w[k]);
    }
  }

  /** The seed sort is stable: the seed ids that tie with a canvas id `c` (same level label and
      same height) keep their canvas order. */
  lemma SeedStable(nodes: seq<Node>, edges: seq<Edge>, c: string)
    requires c in Ids(nodes)
    ensures Filter(Seed(nodes, edges), Tied(SeedOrder(nodes), c))
         == Filter(Filter(Ids(nodes), Unowed(edges)), Tied(SeedOrder(nodes), c))
  {
    var z := Filter(Ids(nodes), Unowed(edges));
    SeedTransitiveOn(nodes, [c] + z);
    SortStable(z, SeedOrder(nodes), c);
  }

  /** The successor sort is stable: successors at the same height as `c` are released in edge
      order. */
  lemma ReleasedStable(nodes: seq<Node>, edges: seq<Edge>, u: string, c: string)
    ensures Filter(Released(nodes, edges, u), Tied(YOrder(nodes), c))
         == Filter(Succs(edges, u), Tied(YOrder(nodes), c))
  {
    assert TransitiveOn([c] + Succs(edges, u), YOrder(nodes));
    SortStable(Succs(edges, u), YOrder(nodes), c);
  }

  lemma {:induction false} FilterDistinct<T(!new)>(s: seq<T>, p: T -> bool)
    requires Distinct(s)
    ensures Distinct(Filter(s, p))
    decreases |s|
  {
    if |s| > 0 {
      var t := s[1..];
      assert Distinct(t) by {
        forall i, j | 0 <= i < j < |t| ensures t[i] != t[j] {
          assert t[i] == s[i + 1] && t[j] == s[j + 1];
        }
      }
      FilterDistinct(t, p);
      assert s[0] !in t by {
        forall j | 0 <= j < |t| ensures t[j] != s[0] {
          assert t[j] == s[j + 1];
        }
      }
    }
  }

  /** The successors of `u` in the order they are released: `adj[u]` sorted by height. */
  function Released(nodes: seq<Node>, edges: seq<Edge>, u: string): (r: seq<string>)
    ensures multiset(r) == multiset(Succs(edges, u))
    ensures forall i :: 0 < i < |r| ==> YOf(nodes, r[i - 1]) <= YOf(nodes, r[i])
  {
    var r := Sort(Succs(edges, u), YOrder(nodes));
    YOrderTotal(nodes);
    SortSorted(Succs(edges, u), YOrder(nodes));
    r
  }

  /** The ids of `s` that are not in `done`, in the order of `s`. */
  function Missing(s: seq<string>, done: seq<string>): (r: seq<string>)
    ensures forall v :: v in r <==> v in s && v !in done
    decreases |s|
  {
    if |s| == 0 then []
    else Missing(s[..|s| - 1], done) + (if s[|s| - 1] in done then [] else [s[|s| - 1]])
  }

  lemma {:induction false} MissingDistinct(s: seq<string>, done: seq<string>)
    requires Distinct(s)
    ensures Distinct(Missing(s, done))
    decreases |s|
  {
    if |s| > 0 {
      var init := s[..|s| - 1];
      assert Distinct(init) by {
        forall i, j | 0 <= i < j < |init| ensures init[i] != init[j] {
          assert init[i] == s[i] && init[j] == s[j];
        }
      }
      MissingDistinct(init, done);
      assert s[|s| - 1] !in init;
    }
  }

  /** The in-degree state during the main loop: what each id is still owed, which ids have been
      queued, and the order the emitted ids respect. */
  predicate Ready(edges: seq<Edge>, ids: set<string>, deg: map<string, int>, out: seq<string>, queue: seq<string>) {
    && deg.Keys == ids
    && Distinct(out + queue)
    && (forall v :: v in out + queue ==> v in ids)
    && (forall v :: v in deg ==> deg[v] == Remaining(edges, v, out))
    && (forall v :: v in deg ==> (v in out + queue <==> deg[v] == 0))
  }

  /** `inDeg[next]--` for one released id: its new count, and the id itself when that count is
      zero. An id without a count (`NaN` in the code) is never queued. */
  function ReleaseStep(deg: map<string, int>, next: string): (map<string, int>, seq<string>) {
    if next in deg then (deg[next := deg[next] - 1], if deg[next] == 1 then [next] else [])
    else (deg, [])
  }

  /** The inner loop as a function: each id of `succ` released in turn, and the ids whose count
      reached zero, in the order they reached it. */
  function ReleaseAll(deg: map<string, int>, succ: seq<string>): (map<string, int>, seq<string>)
    decreases |succ|
  {
    if |succ| == 0 then (deg, [])
    else
      var one := ReleaseStep(deg, succ[0]);
      var r := ReleaseAll(one.0, succ[1..]);
      (r.0, one.1 + r.1)
  }

  /** Releasing `succ` lowers each count by the number of times its id occurs; an id is queued
      exactly when its count was positive and it is released at least that many times, and at
      most once. */
  lemma {:induction false} ReleaseAllFacts(deg: map<string, int>, succ: seq<string>)
    ensures var r := ReleaseAll(deg, succ);
      && r.0.Keys == deg.Keys
      && (forall v :: v in deg ==> r.0[v] == deg[v] - multiset(succ)[v])
      && (forall v :: v in r.1 <==> v in deg && 0 < deg[v] <= multiset(succ)[v])
      && Distinct(r.1)
    decreases |succ|
  {
    if |succ| > 0 {
      var next, rest := succ[0], succ[1..];
      assert succ == [next] + rest;
      var one := ReleaseStep(deg, next);
      ReleaseAllFacts(one.0, rest);
      var r := ReleaseAll(one.0, rest);
      assert next in one.1 ==> next !in r.1;
    }
  }

  /** `Ready`, except that the ids of `rest` are still to be released: each count still holds
      one for every occurrence in `rest`. */
  predicate Owing(edges: seq<Edge>, ids: set<string>, deg: map<string, int>, out: seq<string>,
                  queue: seq<string>, rest: seq<string>) {
    && deg.Keys == ids
    && Distinct(out + queue)
    && (forall v :: v in out + queue ==> v in ids)
    && (forall v :: v in deg ==> deg[v] == Remaining(edges, v, out) + multiset(rest)[v])
    && (forall v :: v in deg ==> (v in out + queue <==> deg[v] == 0))
  }

  /** One pass of the inner loop: `inDeg[next]--` for each released successor of the id just
      emitted, queueing it when its count reaches zero; an id without a node (count `NaN` in the
      code) is never queued. The counts and the queue end as `ReleaseAll` says. */
  method Release(edges: seq<Edge>, ids: set<string>, deg0: map<string, int>, out: seq<string>,
                 queue0: seq<string>, succ: seq<string>) returns (deg: map<string, int>, queue: seq<string>)
    requires Owing(edges, ids, deg0, out, queue0, succ)
    ensures Ready(edges, ids, deg, out, queue)
    ensures deg == ReleaseAll(deg0, succ).0 && queue == queue0 + ReleaseAll(deg0, succ).1
  {
    deg, queue := deg0, queue0;
    ghost var all := ReleaseAll(deg0, succ);
    assert succ[0..] == succ;
    var k := 0;
    while k < |succ|
      invariant 0 <= k <= |succ|
      invariant Owing(edges, ids, deg, out, queue, succ[k..])
      invariant ReleaseAll(deg, succ[k..]).0 == all.0 && queue + ReleaseAll(deg, succ[k..]).1 == queue0 + all.1
    {
      assert succ[k..][1..] == succ[k + 1..];
      deg, queue := ReleaseNext(edges, ids, deg, out, queue, succ[k..]);
      k := k + 1;
    }
    assert succ[k..] == [];
  }

  /** One turn of the inner loop, with the facts the loop keeps. */
  method ReleaseNext(edges: seq<Edge>, ids: set<string>, deg0: map<string, int>, out: seq<string>,
                     queue0: seq<string>, rest: seq<string>) returns (deg: map<string, int>, queue: seq<string>)
    requires |rest| > 0 && Owing(edges, ids, deg0, out, queue0, rest)
    ensures Owing(edges, ids, deg, out, queue, rest[1..])
    ensures ReleaseAll(deg, rest[1..]).0 == ReleaseAll(deg0, rest).0
    ensures queue + ReleaseAll(deg, rest[1..]).1 == queue0 + ReleaseAll(deg0, rest).1
  {
    assert rest == [rest[0]] + rest[1..];
    deg, queue := ReleaseOne(edges, ids, deg0, out, queue0, rest[0], rest[1..]);
    ReleaseTrace(deg0, queue0, rest, deg, queue);
  }

  /** One release moves the loop along the reference: what is left to release from the new
      counts, after the new queue, ends where the whole release ends. */
  lemma ReleaseTrace(deg: map<string, int>, queue: seq<string>, rest: seq<string>,
                     deg': map<string, int>, queue': seq<string>)
    requires |rest| > 0
    requires deg' == ReleaseStep(deg, rest[0]).0 && queue' == queue + ReleaseStep(deg, rest[0]).1
    ensures ReleaseAll(deg', rest[1..]).0 == ReleaseAll(deg, rest).0
    ensures queue' + ReleaseAll(deg', rest[1..]).1 == queue + ReleaseAll(deg, rest).1
  {
    var one := ReleaseStep(deg, rest[0]);
    assert queue' + ReleaseAll(deg', rest[1..]).1 == queue + (one.1 + ReleaseAll(deg', rest[1..]).1);
  }

  /** One turn of the inner loop: `next` is owed one edge less, and is queued when that was its
      last. */
  method ReleaseOne(edges: seq<Edge>, ids: set<string>, deg0: map<string, int>, out: seq<string>,
                    queue0: seq<string>, next: string, rest: seq<string>) returns (deg: map<string, int>, queue: seq<string>)
    requires Owing(edges, ids, deg0, out, queue0, [next] + rest)
    ensures Owing(edges, ids, deg, out, queue, rest)
    ensures deg == ReleaseStep(deg0, next).0 && queue == queue0 + ReleaseStep(deg0, next).1
  {
    deg, queue := deg0, queue0;
    if next in deg {
      assert next !in out + queue;
      deg := deg[next := deg[next] - 1];
      if deg[next] == 0 {
        assert out + (queue + [next]) == (out + queue) + [next];
        queue := queue + [next];
      }
    }
  }

  /** One turn of the main loop: the head of the queue is emitted and its successors released. */
  method Step(nodes: seq<Node>, edges: seq<Edge>, ids: set<string>, adj: map<string, seq<string>>,
              deg0: map<string, int>, out0: seq<string>, queue0: seq<string>)
    returns (deg: map<string, int>, out: seq<string>, queue: seq<string>)
    requires Ready(edges, ids, deg0, out0, queue0) && |queue0| > 0
    requires adj.Keys == ids && forall u :: u in adj ==> adj[u] == Succs(edges, u)
    ensures Ready(edges, ids, deg, out, queue)
    ensures out == out0 + [queue0[0]]
    ensures |out0 + queue0| <= |out + queue| && (out + queue)[..|out0 + queue0|] == out0 + queue0
    ensures var next := ReleaseAll(deg0, Released(nodes, edges, queue0[0]));
      deg == next.0 && queue == queue0[1..] + next.1
  {
    var curr := queue0[0];
    assert out0 + queue0 == (out0 + [curr]) + queue0[1..];
    out := out0 + [curr];
    var succ := Released(nodes, edges, curr);
    DistinctHead(out0, queue0);
    forall v | v in deg0 ensures deg0[v] == Remaining(edges, v, out) + multiset(succ)[v] {
      RemainingStep(edges, v, out0, curr);
      SuccsCount(edges, curr, v);
    }
    assert Owing(edges, ids, deg0, out, queue0[1..], succ);
    deg, queue := Release(edges, ids, deg0, out, queue0[1..], succ);
    assert out + queue == out0 + [curr] + queue;
  }

  /** The zero-in-degree part of the main loop's output: every edge into an emitted id comes
      from an id emitted before it. */
  predicate EdgesRespected(edges: seq<Edge>, out: seq<string>) {
    forall p, j :: 0 <= p < |out| && 0 <= j < |edges| && edges[j].target == out[p] ==> edges[j].source in out[..p]
  }

  /** `Step` keeps the emitted prefix in edge order: the id it emits is owed nothing. */
  lemma StepRespects(edges: seq<Edge>, ids: set<string>, deg: map<string, int>, out: seq<string>, queue: seq<string>)
    requires Ready(edges, ids, deg, out, queue) && |queue| > 0
    requires EdgesRespected(edges, out)
    ensures EdgesRespected(edges, out + [queue[0]])
  {
    var curr := queue[0];
    assert deg[curr] == 0;
    RemainingZero(edges, curr, out);
    var out' := out + [curr];
    forall p, j | 0 <= p < |out'| && 0 <= j < |edges| && edges[j].target == out'[p]
      ensures edges[j].source in out'[..p]
    {
      if p < |out| {
        assert out'[..p] == out[..p] && out'[p] == out[p];
      } else {
        assert out'[..p] == out;
      }
    }
  }

  function IdSet(nodes: seq<Node>): set<string> {
    set v | v in Ids(nodes)
  }

  /** The counting loop over the edges: `adj` gets the targets of each node's outgoing edges and
      `inDeg` the number of edges into each node, from any source. */
  method Count(nodes: seq<Node>, edges: seq<Edge>) returns (adj: map<string, seq<string>>, deg: map<string, int>)
    ensures adj.Keys == IdSet(nodes) && deg.Keys == IdSet(nodes)
    ensures forall u :: u in adj ==> adj[u] == Succs(edges, u)
    ensures forall v :: v in deg ==> deg[v] == InDegree(edges, v)
  {
    adj := map v | v in IdSet(nodes) :: [];
    deg := map v | v in IdSet(nodes) :: 0;
    assert edges[..0] == [];
    assert Counted([], adj, deg);
    var j := 0;
    while j < |edges|
      invariant 0 <= j <= |edges|
      invariant adj.Keys == IdSet(nodes) && deg.Keys == IdSet(nodes)
      invariant Counted(edges[..j], adj, deg)
    {
      var adj', deg' := CountEdge(adj, deg, edges[j]);
      CountedStep(edges, j, adj, deg, adj', deg');
      adj, deg, j := adj', deg', j + 1;
    }
    assert edges[..|edges|] == edges;
    assert Counted(edges, adj, deg);
  }

  /** `adj` and `deg` hold the successors and in-degrees counted over `done`. */
  predicate Counted(done: seq<Edge>, adj: map<string, seq<string>>, deg: map<string, int>) {
    && (forall u :: u in adj ==> adj[u] == Succs(done, u))
    && (forall v :: v in deg ==> deg[v] == Remaining(done, v, []))
  }

  /** Counting edge `j` extends the counts from the first `j` edges to the first `j + 1`. */
  lemma CountedStep(edges: seq<Edge>, j: int, adj: map<string, seq<string>>, deg: map<string, int>,
                    adj': map<string, seq<string>>, deg': map<string, int>)
    requires 0 <= j < |edges| && Counted(edges[..j], adj, deg)
    requires adj'.Keys == adj.Keys && deg'.Keys == deg.Keys
    requires forall u :: u in adj' ==> adj'[u] == adj[u] + (if edges[j].source == u then [edges[j].target] else [])
    requires forall v :: v in deg' ==> deg'[v] == deg[v] + (if edges[j].target == v then 1 else 0)
    ensures Counted(edges[..j + 1], adj', deg')
  {
    assert edges[..j + 1][..j] == edges[..j];
  }

  /** One turn of the counting loop: an edge from a node appends its target to the node's
      successors, and an edge into a node adds one to its in-degree. */
  method CountEdge(adj0: map<string, seq<string>>, deg0: map<string, int>, e: Edge)
    returns (adj: map<string, seq<string>>, deg: map<string, int>)
    ensures adj.Keys == adj0.Keys && deg.Keys == deg0.Keys
    ensures forall u :: u in adj ==> adj[u] == adj0[u] + (if e.source == u then [e.target] else [])
    ensures forall v :: v in deg ==> deg[v] == deg0[v] + (if e.target == v then 1 else 0)
  {
    adj, deg := adj0, deg0;
    if e.source in adj {
      adj := adj[e.source := adj[e.source] + [e.target]];
    }
    if e.target in deg {
      deg := deg[e.target := deg[e.target] + 1];
    }
  }

  /** The release of one emitted id's successors, lowest first: the new counts and the ids that
      became ready. */
  function Releaser(nodes: seq<Node>, edges: seq<Edge>): (map<string, int>, string) -> (map<string, int>, seq<string>) {
    (deg, u) => ReleaseAll(deg, Released(nodes, edges, u))
  }

  /** The main loop as a function: from counts `deg` and queue `queue`, the ids emitted within
      `fuel` turns. Each turn takes the head of the queue, lets `release` update the counts, and
      appends the ids it made ready at the back of the queue. */
  function Fifo(release: (map<string, int>, string) -> (map<string, int>, seq<string>),
                deg: map<string, int>, queue: seq<string>, fuel: nat): seq<string>
    decreases fuel
  {
    if fuel == 0 || |queue| == 0 then []
    else
      var next := release(deg, queue[0]);
      [queue[0]] + Fifo(release, next.0, queue[1..] + next.1, fuel - 1)
  }

  /** `inDeg` after the counting loop. */
  function InDegrees(nodes: seq<Node>, edges: seq<Edge>): map<string, int> {
    map v | v in IdSet(nodes) :: InDegree(edges, v)
  }

  /** What the main loop emits, from the in-degrees and the sorted seed; there is at most one
      turn per node. */
  function MainOrder(nodes: seq<Node>, edges: seq<Edge>): seq<string> {
    Fifo(Releaser(nodes, edges), InDegrees(nodes, edges), Seed(nodes, edges), |nodes|)
  }

  /** First in, first out: the ids already in the queue are emitted first, in queue order, as far
      as the turns reach, whatever the release does. */
  lemma {:induction false} FifoKeepsQueue(release: (map<string, int>, string) -> (map<string, int>, seq<string>),
                                          deg: map<string, int>, queue: seq<string>, fuel: nat)
    ensures var r := Fifo(release, deg, queue, fuel);
      Min(fuel, |queue|) <= |r| && r[..Min(fuel, |queue|)] == queue[..Min(fuel, |queue|)]
    decreases fuel
  {
    if fuel > 0 && |queue| > 0 {
      var next := release(deg, queue[0]);
      var q := queue[1..] + next.1;
      assert q[..|queue| - 1] == queue[1..];
      FifoKeepsQueue(release, next.0, q, fuel - 1);
      ConsPrefix(queue, q, Fifo(release, next.0, q, fuel - 1), fuel);
    }
  }

  function Min(a: int, b: int): int {
    if a < b then a else b
  }

  /** The prefix step of `FifoKeepsQueue`: a queue head followed by a run that begins with the
      rest of the queue begins with the queue. */
  lemma ConsPrefix(queue: seq<string>, q: seq<string>, r: seq<string>, fuel: nat)
    requires fuel > 0 && |queue| > 0
    requires |queue| - 1 <= |q| && q[..|queue| - 1] == queue[1..]
    requires Min(fuel - 1, |q|) <= |r| && r[..Min(fuel - 1, |q|)] == q[..Min(fuel - 1, |q|)]
    ensures Min(fuel, |queue|) <= |[queue[0]] + r|
    ensures ([queue[0]] + r)[..Min(fuel, |queue|)] == queue[..Min(fuel, |queue|)]
  {
    var m, m' := Min(fuel, |queue|), Min(fuel - 1, |q|);
    assert r[..m - 1] == r[..m'][..m - 1] == q[..m'][..m - 1] == q[..|queue| - 1][..m - 1];
    assert ([queue[0]] + r)[..m] == [queue[0]] + r[..m - 1];
    assert queue[..m] == [queue[0]] + queue[1..][..m - 1];
  }

  /** One turn of the main loop advances along `Fifo` by the id it emits. */
  lemma FifoTurn(release: (map<string, int>, string) -> (map<string, int>, seq<string>),
                 deg: map<string, int>, out: seq<string>, queue: seq<string>, fuel: nat,
                 deg': map<string, int>, out': seq<string>, queue': seq<string>)
    requires fuel > 0 && |queue| > 0 && out' == out + [queue[0]]
    requires deg' == release(deg, queue[0]).0 && queue' == queue[1..] + release(deg, queue[0]).1
    ensures out' + Fifo(release, deg', queue', fuel - 1) == out + Fifo(release, deg, queue, fuel)
  {
    var rest := Fifo(release, deg', queue', fuel - 1);
    assert Fifo(release, deg, queue, fuel) == [queue[0]] + rest;
    assert out' + rest == out + ([queue[0]] + rest);
  }

  /** The main loop, from the sorted seed until the queue runs dry. */
  method Drain(nodes: seq<Node>, edges: seq<Edge>, adj: map<string, seq<string>>, deg0: map<string, int>)
    returns (out: seq<string>)
    requires Distinct(Ids(nodes))
    requires adj.Keys == IdSet(nodes) && deg0.Keys == IdSet(nodes)
    requires forall u :: u in adj ==> adj[u] == Succs(edges, u)
    requires forall v :: v in deg0 ==> deg0[v] == InDegree(edges, v)
    ensures Distinct(out) && forall v :: v in out ==> v in Ids(nodes)
    ensures EdgesRespected(edges, out)
    ensures |Seed(nodes, edges)| <= |out| && out[..|Seed(nodes, edges)|] == Seed(nodes, edges)
    ensures forall v :: v in Ids(nodes) && v !in out ==>
      exists j :: 0 <= j < |edges| && edges[j].target == v && edges[j].source !in out
    ensures out == Fifo(Releaser(nodes, edges), deg0, Seed(nodes, edges), |nodes|)
  {
    var ids := IdSet(nodes);
    var deg := deg0;
    var seed := Seed(nodes, edges);
    ghost var release := Releaser(nodes, edges);
    ghost var trace := Fifo(release, deg0, seed, |nodes|);
    ReadyInitially(nodes, edges, deg0);
    DistinctCardinality(Ids(nodes));
    out := [];
    var queue := seed;
    assert out + queue == seed;
    while |queue| > 0
      invariant Ready(edges, ids, deg, out, queue)
      invariant EdgesRespected(edges, out)
      invariant |seed| <= |out + queue| && (out + queue)[..|seed|] == seed
      invariant |out| <= |ids| == |nodes|
      invariant out + Fifo(release, deg, queue, |nodes| - |out|) == trace
      decreases |ids| - |out|
    {
      var deg', out', queue' := Turn(nodes, edges, ids, adj, seed, deg, out, queue);
      FifoTurn(release, deg, out, queue, |nodes| - |out|, deg', out', queue');
      deg, out, queue := deg', out', queue';
    }
    assert out + queue == out;
    assert out + [] == out;
    assert Distinct(out) && forall v :: v in out ==> v in ids;
    Blocked(nodes, edges, deg, out);
  }

  /** Before the main loop nothing is emitted and the queue holds the seed. */
  lemma ReadyInitially(nodes: seq<Node>, edges: seq<Edge>, deg0: map<string, int>)
    requires Distinct(Ids(nodes))
    requires deg0.Keys == IdSet(nodes)
    requires forall v :: v in deg0 ==> deg0[v] == InDegree(edges, v)
    ensures Ready(edges, IdSet(nodes), deg0, [], Seed(nodes, edges))
    ensures EdgesRespected(edges, [])
  {
    var seed := Seed(nodes, edges);
    SeedFacts(nodes, edges);
    assert [] + seed == seed;
  }

  /** One turn of the main loop, with the facts the loop keeps. */
  method Turn(nodes: seq<Node>, edges: seq<Edge>, ids: set<string>, adj: map<string, seq<string>>,
              seed: seq<string>, deg0: map<string, int>, out0: seq<string>, queue0: seq<string>)
    returns (deg: map<string, int>, out: seq<string>, queue: seq<string>)
    requires Ready(edges, ids, deg0, out0, queue0) && |queue0| > 0
    requires adj.Keys == ids && forall u :: u in adj ==> adj[u] == Succs(edges, u)
    requires EdgesRespected(edges, out0)
    requires |seed| <= |out0 + queue0| && (out0 + queue0)[..|seed|] == seed
    ensures Ready(edges, ids, deg, out, queue)
    ensures EdgesRespected(edges, out)
    ensures |seed| <= |out + queue| && (out + queue)[..|seed|] == seed
    ensures |out| == |out0| + 1 && |out| <= |ids|
    ensures out == out0 + [queue0[0]]
    ensures var next := ReleaseAll(deg0, Released(nodes, edges, queue0[0]));
      deg == next.0 && queue == queue0[1..] + next.1
  {
    StepRespects(edges, ids, deg0, out0, queue0);
    deg, out, queue := Step(nodes, edges, ids, adj, deg0, out0, queue0);
    assert (out + queue)[..|seed|] == (out0 + queue0)[..|seed|];
    DistinctBounded(out + queue, ids);
  }

  /** When the queue runs dry, every id left out is still owed an edge from an id left out. */
  lemma Blocked(nodes: seq<Node>, edges: seq<Edge>, deg: map<string, int>, out: seq<string>)
    requires Ready(edges, IdSet(nodes), deg, out, [])
    ensures forall v :: v in Ids(nodes) && v !in out ==>
      exists j :: 0 <= j < |edges| && edges[j].target == v && edges[j].source !in out
  {
    assert out + [] == out;
    forall v | v in Ids(nodes) && v !in out
      ensures exists j :: 0 <= j < |edges| && edges[j].target == v && edges[j].source !in out
    {
      assert v in IdSet(nodes) && deg[v] != 0;
      RemainingZero(edges, v, out);
    }
  }

  /** The closing loop: every canvas id not yet in the output is pushed, in canvas order. */
  method AppendMissing(ids: seq<string>, out: seq<string>) returns (order: seq<string>)
    requires Distinct(ids)
    ensures order == out + Missing(ids, out)
  {
    order := out;
    var i := 0;
    while i < |ids|
      invariant 0 <= i <= |ids|
      invariant order == out + Missing(ids[..i], out)
    {
      assert ids[..i + 1][..i] == ids[..i];
      assert ids[i] !in ids[..i];
      if ids[i] !in order {
        order := order + [ids[i]];
      }
      i := i + 1;
    }
    assert ids[..|ids|] == ids;
  }

  /** Output then missing ids: each canvas id exactly once. */
  lemma OrderFacts(ids: seq<string>, out: seq<string>)
    requires Distinct(ids) && Distinct(out) && forall v :: v in out ==> v in ids
    ensures var order := out + Missing(ids, out);
      Distinct(order) && |order| == |ids| && forall v :: v in order <==> v in ids
  {
    MissingDistinct(ids, out);
    var tail := Missing(ids, out);
    var order := out + tail;
    assert Distinct(order) by {
      forall a, b | 0 <= a < b < |order| ensures order[a] != order[b] {
        if b < |out| {
          assert order[a] == out[a] && order[b] == out[b];
        } else if a >= |out| {
          assert order[a] == tail[a - |out|] && order[b] == tail[b - |out|];
        } else {
          assert order[b] == tail[b - |out|];
          assert order[a] in out;
        }
      }
    }
    DistinctCardinality(order);
    DistinctCardinality(ids);
    assert (set v | v in order) == (set v | v in ids);
  }

  /** The sort. `order` is the output and `main` the length of the part the queue produced. */
  method Kahn(nodes: seq<Node>, edges: seq<Edge>) returns (order: seq<string>, main: nat)
    requires Distinct(Ids(nodes))
    ensures Distinct(order) && |order| == |nodes|
    ensures forall v :: v in order <==> v in Ids(nodes)
    ensures main <= |order|
    ensures EdgesRespected(edges, order[..main])
    ensures |Seed(nodes, edges)| <= main && order[..|Seed(nodes, edges)|] == Seed(nodes, edges)
    ensures forall v :: v in Ids(nodes) && v !in order[..main] ==>
      exists j :: 0 <= j < |edges| && edges[j].target == v && edges[j].source !in order[..main]
    ensures order[main..] == Missing(Ids(nodes), order[..main])
    ensures order[..main] == MainOrder(nodes, edges)
  {
    var adj, deg := Count(nodes, edges);
    assert deg == InDegrees(nodes, edges);
    var out := Drain(nodes, edges, adj, deg);
    order := AppendMissing(Ids(nodes), out);
    main := |out|;
    OrderFacts(Ids(nodes), out);
    assert order[..main] == out;
  }

  lemma DistinctHead(a: seq<string>, b: seq<string>)
    requires Distinct(a + b) && |b| > 0
    ensures b[0] !in a
  {
    assert (a + b)[|a|] == b[0];
    forall i | 0 <= i < |a| ensures a[i] != b[0] {
      assert (a + b)[i] == a[i];
    }
  }
}
